=== FILE: README.md ===
# MyWorkoutApp core, modelled in Dafny

MyWorkoutApp is an iOS weight-training log. Its screens and view models hold logic that can be stated precisely. This project models that logic and proves what it promises:

- **Plate calculator** (`CalcViewModel`, the older `PlateCalculatorView`, the breakdown in `PlateCalcSection`):
  - greedy per-side plate decomposition with one extra smallest plate for a remainder over 0.01;
  - the loaded total `sum * 2 + bar`;
  - the unit toggle, which resets the bar and rounds the converted target up to one decimal;
  - snapping a manual plate list to the nearest plate of the other unit;
  - reverse-mode plate edits as a multiset;
  - the mode-switch confirmation;
  - plate-count reduction;
  - the "count × weight" breakdown.
- **RPE estimator**: the fixed percentage table, the estimated one-rep max `weight / percent`, and the next-set weight `e1RM * percent`.
- **Rest timer** (`RestTimer`, `RestTimerSettingsView`): start, tick, pause, resume, stop and reset over wall-clock anchors; the `m:ss` text; the minutes/seconds pickers.
- **Input rules** (`InputValidators`): the accepted ranges and clamping.
- **Workout sessions**:
  - a session started from a template;
  - per-exercise set lists (add, delete, the reps and weight fields);
  - the session timer and saving;
  - editing a logged session;
  - the history kept newest first (`WorkoutSessionViewModel`).
- **Analytics** (`WorkoutAnalytics`): per-session volume, sets, reps, maxima and averages; personal records per exercise; overall statistics; one exercise's history.
- **Progress screens** (`ProgressView`, `WorkoutProgressView`): the listed sessions, the sort options, the duration text, and the two-step deletion from a filtered list.
- **Templates** (`CreateWorkoutView`, `EditWorkoutTemplateView`, the exercise library and template store): selection toggles, offset removal, name and selection validation, replace by id.
- **CSV export** (`DataExportService.exportToCSV`) and the **error texts** (`AppError`).

Modelling choices:

- `Double` is the exact Dafny `real`, and dates and durations are seconds as `real`.
- A `UUID` is a `nat`; where the source calls `UUID()`, a fresh id is a parameter.
- A clock read (`Date()`) is a `now` parameter, and a timer callback is an explicit `Tick` method.
- A text field is the value it parses to (`Option<real>`, `Option<int>`).
- Swift's `Int(x)` truncation and its `/` and `%` on negative numbers are written out (`Numeric.Trunc`, `Numeric.SwiftDiv`, `Numeric.SwiftRem`).
- Screens and view models whose state changes in place are classes. Their methods state the new state, and the pure rules they follow are functions with lemmas beside them.
- `sort(by:)` is an insertion sort over a strict weak ordering (`Sorting.SortBy`).

## Model

| member | source | states |
|---|---|---|
| InputValidators.ClampWeight | MyWorkoutApp/MyWorkoutApp/InputValidators.swift:17-19 | the result always passes `validateWeight`; a valid weight is returned unchanged; below 0 gives 0, above 1000 gives 1000 |
| InputValidators.ClampReps | MyWorkoutApp/MyWorkoutApp/InputValidators.swift:21-23 | the result always passes `validateReps`; valid reps are unchanged; below 0 gives 0, above 100 gives 100 |
| InputValidators.ClampIdempotent | MyWorkoutApp/MyWorkoutApp/InputValidators.swift:17-23 | clamping a clamped weight or rep count changes nothing |
| InputValidators.ClampMovesOnlyInvalid | MyWorkoutApp/MyWorkoutApp/InputValidators.swift:9-19 | clamping changes a weight exactly when `validateWeight` rejects it |
| SessionStore.WithSessionKeepsHistory | MyWorkoutApp/MyWorkoutApp/WorkoutSessionViewModel.swift:10-14 | appending a session and sorting keeps every old session, adds exactly the new one (as multisets) and leaves the history newest first |
| SessionStore.Loaded | MyWorkoutApp/MyWorkoutApp/WorkoutSessionViewModel.swift:25-37 | the decoded list is sorted newest first and is a permutation of what was stored; missing or undecodable data gives an empty history |
| SessionStore.WorkoutSessionViewModel.constructor | MyWorkoutApp/MyWorkoutApp/WorkoutSessionViewModel.swift:6-8 | a new store holds what loading gives |
| SessionStore.WorkoutSessionViewModel.AddWorkoutSession | MyWorkoutApp/MyWorkoutApp/WorkoutSessionViewModel.swift:10-14 | the new history is the old one plus the session, sorted newest first, as a multiset the old plus the session |
| SessionStore.WorkoutSessionViewModel.LoadWorkoutSessions | MyWorkoutApp/MyWorkoutApp/WorkoutSessionViewModel.swift:25-37 | the history becomes what loading gives for what is stored |
| RestTimers.RestTimer.constructor | MyWorkoutApp/MyWorkoutApp/RestTimer.swift:5-11 | a new timer is stopped with no rest time set and keeps its invariant |
| RestTimers.RestTimer.Start | MyWorkoutApp/MyWorkoutApp/RestTimer.swift:17-35 | the countdown starts full: running, ticking, rest time and time left both equal to the duration, anchored at now with nothing banked |
| RestTimers.RestTimer.Tick | MyWorkoutApp/MyWorkoutApp/RestTimer.swift:25-33 | without a running timer nothing changes; otherwise time left is the rest time minus the elapsed time, never below 0, and at 0 the timer stops; the rest time is kept and the invariant (0 <= left <= rest time) holds on a clock that does not go back |
| RestTimers.RestTimer.Pause | MyWorkoutApp/MyWorkoutApp/RestTimer.swift:37-44 | a paused timer changes nothing; a running one banks the time since the anchor and stops ticking, keeping the invariant |
| RestTimers.RestTimer.Resume | MyWorkoutApp/MyWorkoutApp/RestTimer.swift:46-63 | a running timer or one with no time left is unchanged; otherwise it re-anchors at now and runs with the banked time kept |
| RestTimers.RestTimer.Stop | MyWorkoutApp/MyWorkoutApp/RestTimer.swift:65-72 | everything is cleared except the rest time; stopping a stopped timer changes nothing |
| RestTimers.RestTimer.Reset | MyWorkoutApp/MyWorkoutApp/RestTimer.swift:74-77 | stopped and the rest time is 0 |
| RestTimers.FormatTime | MyWorkoutApp/MyWorkoutApp/RestTimer.swift:79-83 | for a non-negative time: the truncated minutes, a colon and two digits whose value is the remaining seconds, which read back to the whole seconds |
| RestTimers.ExampleFormatTime | MyWorkoutApp/MyWorkoutApp/RestTimer.swift:79-83 | 125 seconds show as "2:05" |
| Errors.ErrorDescription | MyWorkoutApp/MyWorkoutApp/AppErrors.swift:10-23 | always present: the case's fixed prefix followed by the message, so the message can be read back from the text after the prefix |
| Errors.DescriptionDeterminesError | MyWorkoutApp/MyWorkoutApp/AppErrors.swift:10-23 | two errors have the same description exactly when they are the same case with the same message |
| Errors.RecoverySuggestion | MyWorkoutApp/MyWorkoutApp/AppErrors.swift:25-36 | always present; the encoding and decoding cases share one suggestion |
| Errors.PersistenceSuggestsRetry | MyWorkoutApp/MyWorkoutApp/AppErrors.swift:27-28 | whatever the message, a persistence error's suggestion contains "try again" (the promise of MyWorkoutApp/MyWorkoutAppTests/AppErrorsTests.swift:30-34) |
| Errors.ValidationSuggestsChecking | MyWorkoutApp/MyWorkoutApp/AppErrors.swift:29-30 | whatever the message, a validation error's suggestion contains "check your input" and "try again" |
| Errors.ReadWriteSuggestsRetry | MyWorkoutApp/MyWorkoutApp/AppErrors.swift:33-34 | the encoding/decoding suggestion contains "try again" |
| RestTimerSettings.Split | MyWorkoutApp/MyWorkoutApp/RestTimerSettingsView.swift:123-126 | minutes times 60 plus seconds is the truncated duration; for a non-negative duration the seconds lie in 0..59 |
| RestTimerSettings.SplitDurationOf | MyWorkoutApp/MyWorkoutApp/RestTimerSettingsView.swift:119-126 | writing minutes and seconds (seconds below 60) into the duration and reading them back gives the same pickers |
| RestTimerSettings.FormatPreset | MyWorkoutApp/MyWorkoutApp/RestTimerSettingsView.swift:109-117 | with seconds left over the text is the timer's "m:ss"; for a non-negative duration it ends in "m" exactly when the seconds are 0, and then the digits before the "m" read back as the whole minutes |
| RestTimerSettings.ExamplePresets | MyWorkoutApp/MyWorkoutApp/RestTimerSettingsView.swift:10 | the five presets read "0:30", "1m", "1:30", "2m", "3m" |
| RestTimerSettings.RestTimerSettingsView.constructor | MyWorkoutApp/MyWorkoutApp/RestTimerSettingsView.swift:4-8 | the pickers start at 1 minute 30 seconds over the bound duration |
| RestTimerSettings.RestTimerSettingsView.UpdateDuration | MyWorkoutApp/MyWorkoutApp/RestTimerSettingsView.swift:119-121 | the duration becomes minutes times 60 plus seconds |
| RestTimerSettings.RestTimerSettingsView.UpdateMinutesSeconds | MyWorkoutApp/MyWorkoutApp/RestTimerSettingsView.swift:123-126 | the pickers become the split of the duration, which adds back up to the truncated duration |
| RestTimerSettings.RestTimerSettingsView.SelectPreset | MyWorkoutApp/MyWorkoutApp/RestTimerSettingsView.swift:31-34 | a preset button sets the duration and moves the pickers to its split |
| RestTimerSettings.RestTimerSettingsView.SetPickers | MyWorkoutApp/MyWorkoutApp/RestTimerSettingsView.swift:65-83 | moving a picker writes the duration, and reading it back gives the pickers' values |
| Workouts.NewerFirstOrder | MyWorkoutApp/MyWorkoutApp/WorkoutSessionViewModel.swift:12 | `{ $0.date > $1.date }` is a strict weak ordering, as `sort(by:)` requires |
| Workouts.NewestFirstDates | MyWorkoutApp/MyWorkoutApp/WorkoutSessionViewModel.swift:12 | in a list sorted by it, no session is newer than one before it |
| Workouts.CompletedSessions | MyWorkoutApp/MyWorkoutApp/WorkoutAnalytics.swift:124 | exactly the completed sessions of the list, and no more of them than the list holds |
| Workouts.NewSession | MyWorkoutApp/MyWorkoutApp/WorkoutDetailView.swift:13-26 | one entry without sets per template exercise, in template order; the template's id and name, dated now, duration 0, not completed |
| Workouts.AddSet | MyWorkoutApp/MyWorkoutApp/WorkoutDetailView.swift:168-170 | an empty set (0 reps, weight 0) appended to the chosen entry; nothing else in the session changes (also EditWorkoutView.swift:115-117) |
| Workouts.DeleteSet | MyWorkoutApp/MyWorkoutApp/WorkoutDetailView.swift:172-174 | the chosen set removed from the chosen entry, the others kept in order; nothing else changes (also EditWorkoutView.swift:119-121) |
| Workouts.AddThenDelete | MyWorkoutApp/MyWorkoutApp/WorkoutDetailView.swift:168-174 | deleting the set just added gives back the session |
| Workouts.SetReps | MyWorkoutApp/MyWorkoutApp/WorkoutDetailView.swift:61-63 | only the chosen set's reps change: to the parsed number, or 0 when the text does not parse |
| Workouts.SetWeight | MyWorkoutApp/MyWorkoutApp/WorkoutDetailView.swift:77-79 | only the chosen set's weight changes: to the parsed number, or 0 when the text does not parse |
| Workouts.ReplaceById | MyWorkoutApp/MyWorkoutApp/EditWorkoutView.swift:123-129 | same length; the first session with the edited session's id is replaced and every other position kept; with no such session the list is unchanged |
| Workouts.ReplaceByIdIdempotent | MyWorkoutApp/MyWorkoutApp/EditWorkoutView.swift:123-129 | saving the same edit twice is saving it once |
| Workouts.ReplaceByIdKeepsOrder | MyWorkoutApp/MyWorkoutApp/EditWorkoutView.swift:123-129 | overwriting with an edit of the same date keeps a newest-first history newest first |
| WorkoutDetail.WorkoutDetailView.constructor | MyWorkoutApp/MyWorkoutApp/WorkoutDetailView.swift:13-26 | the session is the fresh session from the template; the timer is not running and nothing has elapsed |
| WorkoutDetail.WorkoutDetailView.StartTimer | MyWorkoutApp/MyWorkoutApp/WorkoutDetailView.swift:147-151 | the one-second timer is scheduled |
| WorkoutDetail.WorkoutDetailView.Tick | MyWorkoutApp/MyWorkoutApp/WorkoutDetailView.swift:148-150 | one more second elapses while the timer is scheduled, none otherwise; the view's invariant is kept |
| WorkoutDetail.WorkoutDetailView.StopTimer | MyWorkoutApp/MyWorkoutApp/WorkoutDetailView.swift:153-159 | the timer is cancelled, the elapsed time is added to the duration, the session is completed and the elapsed time is reset |
| WorkoutDetail.WorkoutDetailView.ToggleTimer | MyWorkoutApp/MyWorkoutApp/WorkoutDetailView.swift:142-145 | the running flag flips; turning on schedules the timer, turning off stops it as StopTimer does; the invariant is kept |
| WorkoutDetail.WorkoutDetailView.SaveWorkout | MyWorkoutApp/MyWorkoutApp/WorkoutDetailView.swift:161-166 | the history receives the session with the elapsed time added (as it was before being marked completed), and the local session is then completed |
| WorkoutDetail.WorkoutDetailView.OnDisappear | MyWorkoutApp/MyWorkoutApp/WorkoutDetailView.swift:132-137 | a running workout is stopped first, then saved: the stored session carries the elapsed time exactly once and is completed exactly when it already was or the workout was still running |
| WorkoutDetail.WorkoutDetailView.AddSet | MyWorkoutApp/MyWorkoutApp/WorkoutDetailView.swift:168-170 | the session becomes `Workouts.AddSet` of the old one |
| WorkoutDetail.WorkoutDetailView.AddSetButton | MyWorkoutApp/MyWorkoutApp/WorkoutDetailView.swift:88-99 | the button adds a set only while the workout runs; otherwise nothing changes |
| WorkoutDetail.WorkoutDetailView.DeleteSet | MyWorkoutApp/MyWorkoutApp/WorkoutDetailView.swift:172-174 | the session becomes `Workouts.DeleteSet` of the old one |
| WorkoutDetail.WorkoutDetailView.SetRepsText | MyWorkoutApp/MyWorkoutApp/WorkoutDetailView.swift:61-63 | the session becomes `Workouts.SetReps` of the old one |
| WorkoutDetail.WorkoutDetailView.SetWeightText | MyWorkoutApp/MyWorkoutApp/WorkoutDetailView.swift:77-79 | the session becomes `Workouts.SetWeight` of the old one |
| EditWorkout.EditWorkoutView.constructor | MyWorkoutApp/MyWorkoutApp/EditWorkoutView.swift:11-14 | the view edits a copy of the given session over the given history |
| EditWorkout.EditWorkoutView.AddSet | MyWorkoutApp/MyWorkoutApp/EditWorkoutView.swift:115-117 | the session becomes `Workouts.AddSet` of the old one |
| EditWorkout.EditWorkoutView.DeleteSet | MyWorkoutApp/MyWorkoutApp/EditWorkoutView.swift:119-121 | the session becomes `Workouts.DeleteSet` of the old one |
| EditWorkout.EditWorkoutView.SetRepsText | MyWorkoutApp/MyWorkoutApp/EditWorkoutView.swift:49-51 | the session becomes `Workouts.SetReps` of the old one |
| EditWorkout.EditWorkoutView.SetWeightText | MyWorkoutApp/MyWorkoutApp/EditWorkoutView.swift:65-67 | the session becomes `Workouts.SetWeight` of the old one |
| EditWorkout.EditWorkoutView.SaveEdits | MyWorkoutApp/MyWorkoutApp/EditWorkoutView.swift:123-129 | the history becomes `ReplaceById` of the old history and the edited session |
| Analytics.AllSetsAppend | MyWorkoutApp/MyWorkoutApp/WorkoutAnalytics.swift:38-39 | the sets of two runs of entries are the sets of the first followed by those of the second |
| Analytics.MaximaBounds | MyWorkoutApp/MyWorkoutApp/WorkoutAnalytics.swift:36-47 | the running maximum weight (and reps) starts at 0, is at least every set's value, and is 0 or one of the values |
| Analytics.VolumeAppend | MyWorkoutApp/MyWorkoutApp/WorkoutAnalytics.swift:40-41 | the volume of two runs of sets is the sum of their volumes |
| Analytics.MaximaAppend | MyWorkoutApp/MyWorkoutApp/WorkoutAnalytics.swift:45-47 | the maximum over two runs is the larger of their maxima |
| Analytics.WeightSumAtMostMax | MyWorkoutApp/MyWorkoutApp/WorkoutAnalytics.swift:42-51 | the sum of the weights is at most their number times the maximum weight |
| Analytics.AddSets | MyWorkoutApp/MyWorkoutApp/WorkoutAnalytics.swift:39-48 | the inner loop extends totals of the sets seen so far to totals of those plus one entry's sets |
| Analytics.SessionAnalytics | MyWorkoutApp/MyWorkoutApp/WorkoutAnalytics.swift:31-62 | total volume, maximum weight, set and rep counts are those of all sets of all entries; the averages divide by the set count, and are 0 without sets |
| Analytics.ExampleVolume | MyWorkoutApp/MyWorkoutAppTests/WorkoutAnalyticsTests.swift:7-28 | 10×135 + 8×155 + 6×175 gives a volume of 3640 |
| Analytics.AverageAtMostMax | MyWorkoutApp/MyWorkoutApp/WorkoutAnalytics.swift:51 | with at least one set, the average weight never exceeds the maximum weight |
| Analytics.EntriesOf | MyWorkoutApp/MyWorkoutApp/WorkoutAnalytics.swift:70-76 | one contribution per entry of a session, in order, each dated with the session |
| Analytics.PRsAreMaxima | MyWorkoutApp/MyWorkoutApp/WorkoutAnalytics.swift:66-118 | an exercise has a record exactly when one of its sets in the completed sessions has weight or reps; its weight and reps are the maxima over all its sets; it is keyed by its own exercise |
| Analytics.PRFromOneEntry | MyWorkoutApp/MyWorkoutApp/WorkoutAnalytics.swift:93-115 | a record's estimate and date come from one single entry of its exercise (the last one that made or beat it) |
| Analytics.ByNameOrder | MyWorkoutApp/MyWorkoutApp/WorkoutAnalytics.swift:120 | ordering records by exercise name is a strict weak ordering |
| Analytics.PRsOfSnoc | MyWorkoutApp/MyWorkoutApp/WorkoutAnalytics.swift:95-116 | visiting one more entry merges it into the records |
| Analytics.BuildPRs | MyWorkoutApp/MyWorkoutApp/WorkoutAnalytics.swift:67-118 | the dictionary built by the loops is the records of all entries of the sessions |
| Analytics.MergeSession | MyWorkoutApp/MyWorkoutApp/WorkoutAnalytics.swift:70-117 | the loop over one session's entries continues the records with that session's entries |
| Analytics.MergeEntry | MyWorkoutApp/MyWorkoutApp/WorkoutAnalytics.swift:71-116 | one entry's update of the dictionary: replace when it beats the record in weight, reps or volume, insert when new and non-empty |
| Analytics.BestOfEntry | MyWorkoutApp/MyWorkoutApp/WorkoutAnalytics.swift:73-93 | the inner loop yields the entry's best weight, reps and volume, the Epley estimate and the session date |
| Analytics.SortedValues | MyWorkoutApp/MyWorkoutApp/WorkoutAnalytics.swift:120 | the dictionary's records, each once and nothing else, sorted by exercise name |
| Analytics.ExercisePRs | MyWorkoutApp/MyWorkoutApp/WorkoutAnalytics.swift:66-121 | one record per exercise with a record in the completed sessions, each exactly once, sorted by name |
| Analytics.IdsOfMembers | MyWorkoutApp/MyWorkoutApp/WorkoutAnalytics.swift:129-136 | an id is in the set exactly when some entry has it, and there are no more ids than entries |
| Analytics.TotalVolumeIsAllSets | MyWorkoutApp/MyWorkoutApp/WorkoutAnalytics.swift:131-132 | the sum of the sessions' volumes is the volume of all their sets taken together |
| Analytics.FirstExerciseIsFirst | MyWorkoutApp/MyWorkoutApp/WorkoutAnalytics.swift:142-143 | the lookup finds an exercise exactly when some entry has the id, and it is the first such entry's exercise |
| Analytics.UniqueExercises | MyWorkoutApp/MyWorkoutApp/WorkoutAnalytics.swift:141-144 | one exercise per distinct id, with that id, each the first entry's exercise for it, no id twice |
| Analytics.FirstExerciseFound | MyWorkoutApp/MyWorkoutApp/WorkoutAnalytics.swift:141-144 | an id some entry has is always found, so `compactMap` drops nothing |
| Analytics.InsertIds | MyWorkoutApp/MyWorkoutApp/WorkoutAnalytics.swift:134-136 | inserting an entry list's ids extends the set to the ids of all entries seen |
| Analytics.Statistics | MyWorkoutApp/MyWorkoutApp/WorkoutAnalytics.swift:123-154 | over the completed sessions: their number, total volume and duration, the average duration (0 with none), and one exercise per distinct id |
| Analytics.ExerciseHistory | MyWorkoutApp/MyWorkoutApp/WorkoutAnalytics.swift:156-160 | exactly the completed sessions that include the exercise, as a permutation of the filter, sorted newest first |
| Plates.Registry | MyWorkoutApp/MyWorkoutApp/CalcViewModel.swift:50-51 | the registry of each unit is positive and strictly descending; its smallest plate is 1.25 kg or 2.5 lb |
| Plates.FitCount | MyWorkoutApp/MyWorkoutApp/CalcViewModel.swift:120 | the copies counted fit in what is left of the side (that one more would not is Leftover's bound) |
| Plates.Leftover | MyWorkoutApp/MyWorkoutApp/CalcViewModel.swift:123 | what is left after loading is non-negative and below the plate |
| Plates.LoadPlusLeftover | MyWorkoutApp/MyWorkoutApp/CalcViewModel.swift:120-123 | the copies loaded and what is left make up the whole side |
| Plates.LeftoverOfFit | MyWorkoutApp/MyWorkoutApp/CalcViewModel.swift:121-124 | the side shrinks only when at least one copy fits |
| Plates.Loaded | MyWorkoutApp/MyWorkoutApp/CalcViewModel.swift:119-125 | after the first n plates: only registry plates are loaded, loaded plus left equals the side, and what is left is below the last plate visited |
| Plates.LoadedStep | MyWorkoutApp/MyWorkoutApp/CalcViewModel.swift:119-125 | one iteration appends the copies that fit, or changes nothing when none fits |
| Plates.Greedy | MyWorkoutApp/MyWorkoutApp/CalcViewModel.swift:115-125 | the whole pass loads only registry plates, loaded plus left is the side, and what is left is below the smallest plate |
| Plates.GreedyLoad | MyWorkoutApp/MyWorkoutApp/CalcViewModel.swift:115-130 | the loop, with the extra smallest plate for a remainder above 0.01, computes the decomposition |
| Plates.DecomposeFromRegistry | MyWorkoutApp/MyWorkoutApp/CalcViewModel.swift:115-130 | every plate of the result comes from the registry |
| Plates.LoadedNonIncreasing | MyWorkoutApp/MyWorkoutApp/CalcViewModel.swift:119-125 | the pass loads plates largest first |
| Plates.DecomposeNonIncreasing | MyWorkoutApp/MyWorkoutApp/CalcViewModel.swift:115-130 | the result is in registry order, the extra plate (the smallest) last |
| Plates.DecomposeBounds | MyWorkoutApp/MyWorkoutApp/CalcViewModel.swift:107-133 | in exact arithmetic the loaded total is at most 0.02 under the target and less than two smallest plates over it |
| Plates.ConvertTarget | MyWorkoutApp/MyWorkoutApp/CalcViewModel.swift:148-155 | the converted target rounded up to one decimal: at least the exact conversion, less than 0.1 above it, a whole number of tenths |
| Plates.NearestFrom | MyWorkoutApp/MyWorkoutApp/CalcViewModel.swift:224 | `min(by:)` by distance: no registry plate is nearer, and every plate before it is strictly farther |
| Plates.Snap | MyWorkoutApp/MyWorkoutApp/CalcViewModel.swift:224 | a non-empty registry gives one of its plates at least as near as any other; an empty one gives the converted weight |
| Plates.SnapPrefersFirst | MyWorkoutApp/MyWorkoutApp/CalcViewModel.swift:224 | ties go to the plate that comes first in the registry |
| Plates.ConvertPlates | MyWorkoutApp/MyWorkoutApp/CalcViewModel.swift:216-228 | one plate per selected plate, each a registry plate of the new unit, nearest to the converted weight |
| Plates.Count | MyWorkoutApp/MyWorkoutApp/CalcViewModel.swift:244-246 | the count of a plate is its multiplicity in the list |
| Plates.RemoveFirst | MyWorkoutApp/MyWorkoutApp/CalcViewModel.swift:234-238 | a present plate loses one copy (as multisets); an absent plate leaves the list unchanged |
| Rpe.Row | MyWorkoutApp/MyWorkoutApp/CalcViewModel.swift:54-61 | a listed RPE has 10 fractions, each in (0, 1] |
| Rpe.Percent | MyWorkoutApp/MyWorkoutApp/CalcViewModel.swift:255-257 | a fraction exists exactly for a listed RPE and 1 to 10 reps, and lies in (0, 1] |
| Rpe.RowsDecrease | MyWorkoutApp/MyWorkoutApp/CalcViewModel.swift:54-61 | within a row the fraction strictly decreases as the reps increase |
| Rpe.ColumnsIncrease | MyWorkoutApp/MyWorkoutApp/CalcViewModel.swift:54-61 | for fixed reps the fraction strictly increases with the RPE |
| Rpe.EstimateFrom | MyWorkoutApp/MyWorkoutApp/CalcViewModel.swift:263-268 | the kilogram round trip through pounds cancels: the estimate is weight / fraction |
| Rpe.SetWeightFrom | MyWorkoutApp/MyWorkoutApp/CalcViewModel.swift:286-291 | likewise the next-set weight is estimate × fraction |
| Rpe.Estimate1RM | MyWorkoutApp/MyWorkoutApp/CalcViewModel.swift:251-268 | present exactly when the three fields parse and the table has the reps and RPE; then weight / fraction |
| Rpe.EstimateUnitIndependent | MyWorkoutApp/MyWorkoutApp/CalcViewModel.swift:264-268 | the estimate is the same in either unit |
| Rpe.NextSetWeight | MyWorkoutApp/MyWorkoutApp/CalcViewModel.swift:275-292 | present exactly when there is an estimate and the next-set fields parse into the table; then estimate × fraction |
| Rpe.ValidHasEstimate | MyWorkoutApp/MyWorkoutApp/CalcViewModel.swift:83-92 | inputs `isRPEValid` accepts always produce an estimate |
| Rpe.EstimateAtLeastWeight | MyWorkoutApp/MyWorkoutApp/CalcViewModel.swift:251-268 | a non-negative weight never estimates below itself |
| Rpe.TopSingleIsMax | MyWorkoutApp/MyWorkoutAppTests/RPECalculatorTests.swift:50-69 | one rep at RPE 10 estimates the weight itself |
| Rpe.ExampleFiveAtNine | MyWorkoutApp/MyWorkoutAppTests/RPECalculatorTests.swift:7-28 | 225 for 5 at RPE 9 estimates between 267.8 and 267.9 |
| Rpe.NextSetRoundTrip | MyWorkoutApp/MyWorkoutApp/CalcViewModel.swift:251-292 | planning the next set at the last set's reps and RPE gives back the last set's weight |
| RpeCalculator.RpeCalculatorView.constructor | MyWorkoutApp/MyWorkoutApp/RPECalculatorView.swift:4-8 | empty fields, pounds, no estimate |
| RpeCalculator.RpeCalculatorView.Calculate | MyWorkoutApp/MyWorkoutApp/RPECalculatorView.swift:73-90 | the estimate is `Rpe.Estimate1RM` of the fields, and the same with the unit flipped |
| Calculator.CalcViewModel.constructor | MyWorkoutApp/MyWorkoutApp/CalcViewModel.swift:6-33 | input mode in pounds, target 0, bar 45, nothing loaded, no pending switch, no toast, RPE fields empty |
| Calculator.CalcViewModel.CalculatePlates | MyWorkoutApp/MyWorkoutApp/CalcViewModel.swift:107-133 | the calculated plates are the decomposition of target over bar in the active registry, none when a field does not parse or the target does not exceed the bar |
| Calculator.CalcViewModel.ToggleUnit | MyWorkoutApp/MyWorkoutApp/CalcViewModel.swift:135-173 | the unit flips and the bar resets to 20 or 45; in input mode a positive target is converted and the plates recalculated, otherwise they stay; in reverse mode the selection is converted; with weight on the bar the toast names the new unit |
| Calculator.CalcViewModel.ConvertForUnit | MyWorkoutApp/MyWorkoutApp/CalcViewModel.swift:140-162 | the conversions of `toggleUnit` after the flip: bar, target and plates as above |
| Calculator.CalcViewModel.ShowConversionToast | MyWorkoutApp/MyWorkoutApp/CalcViewModel.swift:165-168 | the toast is shown with "Converted to KG" or "Converted to LB" |
| Calculator.CalcViewModel.RequestModeSwitch | MyWorkoutApp/MyWorkoutApp/CalcViewModel.swift:177-188 | with weight on the bar the switch is pending and confirmation shown, the mode kept; otherwise the mode switches at once |
| Calculator.CalcViewModel.ConfirmModeSwitch | MyWorkoutApp/MyWorkoutApp/CalcViewModel.swift:190-209 | nothing pending: no change; input to reverse hands the plates over and keeps the total; reverse to input makes the total, rounded to one decimal (`Numeric.Round1`), the target and recalculates, landing within the decomposition bounds of that target; the mode becomes the pending one and the request is cleared |
| Calculator.CalcViewModel.HandOverPlates | MyWorkoutApp/MyWorkoutApp/CalcViewModel.swift:193-197 | the calculated plates become the selection and the target is reset to 0 |
| Calculator.CalcViewModel.TotalToTarget | MyWorkoutApp/MyWorkoutApp/CalcViewModel.swift:198-204 | the selected total, rounded to one decimal (`Numeric.Round1`), becomes the target and lies within 0.05 of the total; the plates are recalculated from it, the selection is cleared, and the new total lies within the decomposition bounds of the target |
| Calculator.CalcViewModel.CancelModeSwitch | MyWorkoutApp/MyWorkoutApp/CalcViewModel.swift:211-214 | no switch pending and no confirmation shown; the mode is kept |
| Calculator.CalcViewModel.ConvertSelectedPlates | MyWorkoutApp/MyWorkoutApp/CalcViewModel.swift:216-228 | the selection becomes `ConvertPlates` of the old one into the current unit |
| Calculator.CalcViewModel.AddPlate | MyWorkoutApp/MyWorkoutApp/CalcViewModel.swift:230-232 | one more copy of the plate, appended; no other count changes |
| Calculator.CalcViewModel.RemovePlate | MyWorkoutApp/MyWorkoutApp/CalcViewModel.swift:234-238 | the first copy of the plate is removed when present, the selection is unchanged otherwise; no other count changes |
| Calculator.CalcViewModel.ClearAllPlates | MyWorkoutApp/MyWorkoutApp/CalcViewModel.swift:240-242 | nothing is selected and every plate count is 0 |
| Calculator.CalcViewModel.Calculate1RM | MyWorkoutApp/MyWorkoutApp/CalcViewModel.swift:251-272 | the estimate is `Rpe.Estimate1RM` of the last-set fields, and the next set is recomputed from it (both absent on a failed guard) |
| Calculator.CalcViewModel.CalculateNextSetWeight | MyWorkoutApp/MyWorkoutApp/CalcViewModel.swift:275-292 | the next-set weight is `Rpe.NextSetWeight` of the estimate and the next-set fields |
| Calculator.CalcViewModel.ClearRpe | MyWorkoutApp/MyWorkoutApp/CalcViewModel.swift:294-302 | every RPE field is empty and both results are absent |
| Calculator.FirstIndex | MyWorkoutApp/MyWorkoutApp/CalcViewModel.swift:235 | `firstIndex(of:)`: absent exactly when the plate is not in the list; otherwise the position of its first copy |
| Calculator.CountAfterRemoveFirst | MyWorkoutApp/MyWorkoutApp/CalcViewModel.swift:234-246 | removing the first copy lowers that plate's count by one and leaves every other count |
| Calculator.RemoveAtFirst | MyWorkoutApp/MyWorkoutApp/CalcViewModel.swift:235-236 | removing at the first index of the plate is `RemoveFirst` |
| PlateCalculator.PlateCalculatorView.constructor | MyWorkoutApp/MyWorkoutApp/PlateCalculatorView.swift:8-13 | target 0, bar 45, pounds, input mode, nothing loaded, and the result up to date |
| PlateCalculator.PlateCalculatorView.Calculate | MyWorkoutApp/MyWorkoutApp/PlateCalculatorView.swift:139-165 | the result is the decomposition of target over bar in the active registry (none on a failed guard), so the view is consistent |
| PlateCalculator.PlateCalculatorView.ConvertUnits | MyWorkoutApp/MyWorkoutApp/PlateCalculatorView.swift:120-135 | the bar resets to 20 or 45; in input mode any target that parses is converted and rounded up to one decimal, otherwise it is kept |
| PlateCalculator.PlateCalculatorView.ConvertSelectedPlates | MyWorkoutApp/MyWorkoutApp/PlateCalculatorView.swift:184-197 | the selection becomes `ConvertPlates` of the old one into the new unit |
| PlateCalculator.PlateCalculatorView.SetKgMode | MyWorkoutApp/MyWorkoutApp/PlateCalculatorView.swift:52-64 | the unit becomes the toggle's value; plates converted in reverse mode only; fields converted; the result recalculated |
| PlateCalculator.PlateCalculatorView.ConvertForUnit | MyWorkoutApp/MyWorkoutApp/PlateCalculatorView.swift:55-60 | the conversions the toggle makes before switching, as in SetKgMode |
| PlateCalculator.PlateCalculatorView.SetTargetWeight | MyWorkoutApp/MyWorkoutApp/PlateCalculatorView.swift:72 | editing the target recalculates, keeping the view consistent |
| PlateCalculator.PlateCalculatorView.SetBarWeight | MyWorkoutApp/MyWorkoutApp/PlateCalculatorView.swift:73 | editing the bar recalculates, keeping the view consistent |
| PlateCalculator.PlateCalculatorView.SetMode | MyWorkoutApp/MyWorkoutApp/PlateCalculatorView.swift:105-109 | a change to reverse starts from an empty selection; otherwise the selection is kept |
| PlateCalculator.PlateCalculatorView.ClearAllPlates | MyWorkoutApp/MyWorkoutApp/PlateCalculatorView.swift:21-24 | nothing is selected |
| PlateCalculator.ConsistentWeightBounds | MyWorkoutApp/MyWorkoutApp/PlateCalculatorView.swift:111-118 | with an up-to-date result in input mode and a target above the bar, the shown weight is within the decomposition bounds of the target |
| PlateCalculator.NeededPositive | MyWorkoutApp/MyWorkoutApp/PlateCalculatorView.swift:173 | a larger plate is worth at least one smaller one, and no more than the larger plate |
| PlateCalculator.Flatten | MyWorkoutApp/MyWorkoutApp/PlateCalculatorView.swift:182 | the list holds exactly the counted copies of every plate, and each plate's copies stand together (`CopiesTogether`) |
| PlateCalculator.AppendRun | MyWorkoutApp/MyWorkoutApp/PlateCalculatorView.swift:182 | appending one plate's `Array(repeating:count:)` run, for a plate not yet in the list, keeps every plate's copies together |
| PlateCalculator.ReducePlateCount | MyWorkoutApp/MyWorkoutApp/PlateCalculatorView.swift:167-183 | the trades terminate; the result holds no more plates than the input, and only input or registry plates |
| PlateBreakdown.MaxOf | MyWorkoutApp/MyWorkoutApp/PlateCalcSection.swift:289 | the heaviest plate is one of the list and at least every plate |
| PlateBreakdown.RemoveAll | MyWorkoutApp/MyWorkoutApp/PlateCalcSection.swift:287 | the list without a weight: that weight's count drops to 0, every other count is kept |
| PlateBreakdown.BreakdownStep | MyWorkoutApp/MyWorkoutApp/PlateCalcSection.swift:287-289 | the heaviest weight's group followed by the groups of the rest counts, orders and covers the whole list |
| PlateBreakdown.Breakdown | MyWorkoutApp/MyWorkoutApp/PlateCalcSection.swift:286-289 | one group per distinct weight, counting its plates, heaviest first, the counts adding up to the number of plates |
| PlateBreakdown.BreakdownDistinct | MyWorkoutApp/MyWorkoutApp/PlateCalcSection.swift:287 | no two groups share a weight |
| PlateBreakdown.FormatWeight | MyWorkoutApp/MyWorkoutApp/PlateCalcSection.swift:222-228 | an integral weight prints as its integer |
| PlateBreakdown.FormatPlateWeight | MyWorkoutApp/MyWorkoutApp/PlateCalcSection.swift:339-349 | 2.5 and 1.25 spelled out, other weights as `formatWeight`; no comma in the text |
| Numeric.Round1 | MyWorkoutApp/MyWorkoutApp/CalcViewModel.swift:201 | the value a `%.1f` text denotes: a whole number of tenths within 0.05 of the input, and the input itself when it already is a whole number of tenths |
| Numeric.ExampleRound1Tie | MyWorkoutApp/MyWorkoutApp/CalcViewModel.swift:201 | a total of 135.25 becomes the target 135.2: the tie goes to the even tenth |
| PlateBreakdown.OneDecimal | MyWorkoutApp/MyWorkoutApp/PlateCalcSection.swift:226 | the `%.1f` text has no comma and exactly one digit after the point |
| PlateBreakdown.EntryText | MyWorkoutApp/MyWorkoutApp/PlateCalcSection.swift:293 | a group's text "count × weight" holds no comma |
| PlateBreakdown.JoinEntriesCommas | MyWorkoutApp/MyWorkoutApp/PlateCalcSection.swift:292-294 | joining n groups with ", " gives exactly n - 1 commas |
| PlateBreakdown.TextCommas | MyWorkoutApp/MyWorkoutApp/PlateCalcSection.swift:297 | the "Each side: " prefix adds no comma |
| PlateBreakdown.BreakdownText | MyWorkoutApp/MyWorkoutApp/PlateCalcSection.swift:291-297 | the text starts "Each side: "; for a non-empty plate list it has one comma fewer than there are distinct weights |
| PlateBreakdown.BreakdownTextEntries | MyWorkoutApp/MyWorkoutApp/PlateCalcSection.swift:285-297 | the text has one comma fewer than there are distinct weights: each comma separates two groups |
| PlateBreakdown.ShownIffEntries | MyWorkoutApp/MyWorkoutApp/PlateCalcSection.swift:65-68 | the breakdown is shown exactly when it has at least one group |
| PlateBreakdown.ExampleEntries | MyWorkoutApp/MyWorkoutApp/PlateCalcSection.swift:291 | the groups of the example render as "2 × 45", "1 × 25", "1 × 10" |
| PlateBreakdown.ExampleJoin | MyWorkoutApp/MyWorkoutApp/PlateCalcSection.swift:291 | the example joins to "2 × 45, 1 × 25, 1 × 10" |
| Progress.ComparatorOrder | MyWorkoutApp/MyWorkoutApp/WorkoutProgressView.swift:352-365 | each sort option compares its key (date, duration or volume) strictly in its direction, and so is a strict weak ordering |
| Progress.SortedKeys | MyWorkoutApp/MyWorkoutApp/WorkoutProgressView.swift:352-365 | a list sorted by an option has its keys in that direction |
| Progress.SortedAndFiltered | MyWorkoutApp/MyWorkoutApp/WorkoutProgressView.swift:321-368 | sorted by the chosen option; a permutation of the completed sessions the search and date filter keep; exactly those sessions |
| Progress.AllFilterKeepsCompleted | MyWorkoutApp/MyWorkoutApp/WorkoutProgressView.swift:336-338 | with no search text and the "All" filter, every completed session is listed |
| Progress.FormatDuration | MyWorkoutApp/MyWorkoutApp/WorkoutProgressView.swift:376-386 | from one whole hour on the "h:mm:ss" layout, below it the "m:ss" layout |
| Progress.NonNegativeClock | MyWorkoutApp/MyWorkoutApp/WorkoutProgressView.swift:377-381 | for a non-negative count the truncating `/` and `%` agree with the Euclidean ones, and the hour count is positive exactly from 3600 seconds on |
| Progress.HmsReadsBack | MyWorkoutApp/MyWorkoutApp/WorkoutProgressView.swift:382 | "h:mm:ss" of t seconds reads back as t, with a positive hour count and minutes and seconds below 60 |
| Progress.MsReadsBack | MyWorkoutApp/MyWorkoutApp/WorkoutProgressView.swift:384 | "m:ss" of t seconds (below an hour) reads back as t, with minutes and seconds below 60 |
| Progress.FormatDurationReadsBack | MyWorkoutApp/MyWorkoutApp/WorkoutProgressView.swift:376-386 | the duration text of a non-negative duration reads back as its whole seconds, in the layout its size calls for |
| Progress.ExampleFormatDuration | MyWorkoutApp/MyWorkoutApp/WorkoutProgressView.swift:376-386 | 3725 seconds show as "1:02:05", 125 seconds as "2:05" |
| Progress.DeleteAsWritten | MyWorkoutApp/MyWorkoutApp/WorkoutProgressView.swift:393-401 | the deletion as written, indices looked up in the pre-delete snapshot: when it does not trap it never lengthens the list |
| Progress.DeleteByLiveLookup | MyWorkoutApp/MyWorkoutApp/WorkoutProgressView.swift:393-401 | the corrected deletion, each row looked up in the current list: never lengthens the list |
| Progress.SingleOffsetAgrees | MyWorkoutApp/MyWorkoutApp/WorkoutProgressView.swift:393-401 | with one row the written and the corrected deletion agree |
| Progress.RemoveUniqueId | MyWorkoutApp/MyWorkoutApp/WorkoutProgressView.swift:398-399 | with distinct ids, removing the first session with an id drops exactly the sessions with that id, the rest in order |
| Progress.FilterKeepsUniqueIds | MyWorkoutApp/MyWorkoutApp/WorkoutProgressView.swift:317-319 | filtering keeps ids distinct |
| Progress.LiveLookupDeletesIds | MyWorkoutApp/MyWorkoutApp/WorkoutProgressView.swift:393-401 | with distinct ids the corrected deletion drops exactly the sessions shown at the given rows, and every other session stays in order |
| Progress.SingleOffsetDelete | MyWorkoutApp/MyWorkoutApp/ProgressView.swift:113-124 | one swiped row of a history with distinct ids removes exactly that session, in both versions |
| Progress.ExampleListed | MyWorkoutApp/MyWorkoutApp/ProgressView.swift:103-105 | three completed sessions are all listed, in stored order |
| Progress.DeleteAsWrittenCounterexample | MyWorkoutApp/MyWorkoutApp/ProgressView.swift:113-124 | deleting rows 0 and 1 of [A, B, C] as written leaves [B] |
| Progress.DeleteByLiveLookupExample | MyWorkoutApp/MyWorkoutApp/ProgressView.swift:113-124 | the corrected deletion of the same rows leaves [C] |
| Progress.DeleteAsWrittenTraps | MyWorkoutApp/MyWorkoutApp/ProgressView.swift:113-124 | deleting rows 0 and 1 of [A, B] as written removes at an index past the end |
| Progress.DeleteShown | MyWorkoutApp/MyWorkoutApp/WorkoutProgressView.swift:397-401 | the corrected loop over the rows, looking each session up in the current history, leaves the history as the corrected deletion gives it |
| Progress.DeleteShownAsWritten | MyWorkoutApp/MyWorkoutApp/WorkoutProgressView.swift:393-401 | the loop as written, with positions found in the history before the first removal and removed from the shrinking one, leaves the history as the as-written deletion gives it, whenever that does not trap |
| Progress.OneOffsetDeletesId | MyWorkoutApp/MyWorkoutApp/ProgressView.swift:117-121 | one swiped row deleted as written from a history with distinct ids removes exactly the sessions with that row's id |
| Progress.ProgressView.constructor | MyWorkoutApp/MyWorkoutApp/ProgressView.swift:3-4 | the screen shows the given history |
| Progress.ProgressView.FilteredSessions | MyWorkoutApp/MyWorkoutApp/ProgressView.swift:103-105 | exactly the completed sessions of the history |
| Progress.ProgressView.DeleteWorkout | MyWorkoutApp/MyWorkoutApp/ProgressView.swift:113-124 | the history becomes the as-written deletion of the swiped rows of the completed list; for one row with distinct ids, exactly that session is gone |
| Progress.WorkoutProgressView.constructor | MyWorkoutApp/MyWorkoutApp/WorkoutProgressView.swift:4-13 | newest first, no filter, nothing waiting to be deleted, no alert |
| Progress.WorkoutProgressView.ConfirmDelete | MyWorkoutApp/MyWorkoutApp/WorkoutProgressView.swift:388-391 | the rows are remembered and the alert shown; nothing is deleted yet |
| Progress.WorkoutProgressView.Cancel | MyWorkoutApp/MyWorkoutApp/WorkoutProgressView.swift:229-231 | the rows are forgotten, the alert closed, and the history untouched |
| Progress.WorkoutProgressView.Delete | MyWorkoutApp/MyWorkoutApp/WorkoutProgressView.swift:232-237 | remembered rows are deleted as the as-written deletion gives it, nothing otherwise; then the rows are forgotten |
| Progress.WorkoutProgressView.DeleteWorkout | MyWorkoutApp/MyWorkoutApp/WorkoutProgressView.swift:393-408 | the history becomes the as-written deletion of the rows of the sorted, filtered list; for one row with distinct ids, exactly that session is gone |
| Templates.ToggleAppends | MyWorkoutApp/MyWorkoutApp/EditWorkoutTemplateView.swift:138-144 | tapping an exercise whose id is not selected appends it at the end |
| Templates.ToggleRemovesFirst | MyWorkoutApp/MyWorkoutApp/EditWorkoutTemplateView.swift:138-144 | tapping a selected exercise removes the first selected exercise with that id and keeps the others in order |
| Templates.ToggleFlips | MyWorkoutApp/MyWorkoutApp/CreateWorkoutView.swift:127-133 | with distinct ids, a tap flips whether the id is selected and keeps the ids distinct |
| Templates.ToggleTwice | MyWorkoutApp/MyWorkoutApp/CreateWorkoutView.swift:127-133 | tapping an unselected exercise twice gives back the selection |
| Templates.RemoveOffsetsKeepsRest | MyWorkoutApp/MyWorkoutApp/EditWorkoutTemplateView.swift:146-148 | removing offsets keeps exactly the positions not listed, in their order |
| Templates.ValidateTemplate | MyWorkoutApp/MyWorkoutApp/EditWorkoutTemplateView.swift:150-162 | accepted exactly when the name is not all whitespace and the selection is not empty; then the trimmed name, non-empty with no whitespace at either end; the refusal is the empty-name one exactly when the name is blank |
| Templates.ExampleEmSpaceName | MyWorkoutApp/MyWorkoutApp/EditWorkoutTemplateView.swift:151-156 | a name of one em space (U+2003) counts as whitespace, trims to nothing and is refused as empty |
| Templates.ReplaceTemplate | MyWorkoutApp/MyWorkoutApp/EditWorkoutTemplateView.swift:169-170 | the first saved template with the same id is overwritten and every other kept; with none the list is unchanged |
| Templates.ExerciseLibrary.constructor | MyWorkoutApp/MyWorkoutApp/ExerciseLibraryViewModel.swift:3-8 | the library holds the loaded exercises |
| Templates.ExerciseLibrary.AddExercise | MyWorkoutApp/MyWorkoutApp/ExerciseLibraryViewModel.swift:10-14 | a new exercise with the name and a fresh id is appended |
| Templates.ExerciseLibrary.RemoveExercise | MyWorkoutApp/MyWorkoutApp/ExerciseLibraryViewModel.swift:16-19 | the listed positions leave the library, the rest stay in order |
| Templates.TemplateStore.constructor | MyWorkoutApp/MyWorkoutApp/WorkoutTemplateViewModel.swift:4-9 | the store holds the loaded templates |
| Templates.TemplateStore.AddWorkoutTemplate | MyWorkoutApp/MyWorkoutApp/WorkoutTemplateViewModel.swift:11-14 | the template is appended to the saved templates |
| Templates.CreateWorkoutView.constructor | MyWorkoutApp/MyWorkoutApp/CreateWorkoutView.swift:3-10 | empty name, empty selection, empty new-exercise field, screen open |
| Templates.CreateWorkoutView.AddNewExercise | MyWorkoutApp/MyWorkoutApp/CreateWorkoutView.swift:44-48 | a non-empty field becomes a new library exercise and is cleared; an empty field changes nothing |
| Templates.CreateWorkoutView.ToggleExerciseSelection | MyWorkoutApp/MyWorkoutApp/CreateWorkoutView.swift:127-133 | the selection becomes its toggle, and distinct ids stay distinct |
| Templates.CreateWorkoutView.RemoveExercise | MyWorkoutApp/MyWorkoutApp/CreateWorkoutView.swift:135-137 | the listed positions leave the selection |
| Templates.CreateWorkoutView.SaveWorkoutTemplate | MyWorkoutApp/MyWorkoutApp/CreateWorkoutView.swift:139-146 | a template with the untrimmed name and the selection is appended to the store and the screen closes |
| Templates.CreateWorkoutView.SaveButton | MyWorkoutApp/MyWorkoutApp/CreateWorkoutView.swift:104-114 | with an empty name or selection nothing happens; otherwise the template is saved and the screen closes |
| Templates.ToggleKeepsUniqueIds | MyWorkoutApp/MyWorkoutApp/CreateWorkoutView.swift:127-133 | a toggle never makes two selected exercises share an id |
| Templates.EditWorkoutTemplateView.constructor | MyWorkoutApp/MyWorkoutApp/EditWorkoutTemplateView.swift:16-22 | the name and the selection start from the template; no alert, nothing waiting to be deleted |
| Templates.EditWorkoutTemplateView.ToggleExerciseSelection | MyWorkoutApp/MyWorkoutApp/EditWorkoutTemplateView.swift:138-144 | the selection becomes its toggle, and distinct ids stay distinct |
| Templates.EditWorkoutTemplateView.RemoveExercise | MyWorkoutApp/MyWorkoutApp/EditWorkoutTemplateView.swift:146-148 | the listed positions leave the selection |
| Templates.EditWorkoutTemplateView.SaveTemplate | MyWorkoutApp/MyWorkoutApp/EditWorkoutTemplateView.swift:150-179 | a refused save shows its message and changes nothing else; an accepted one stores the trimmed name and the selection over the template with the same id, closing the screen only when there was one |
| Templates.EditWorkoutTemplateView.ShowError | MyWorkoutApp/MyWorkoutApp/EditWorkoutTemplateView.swift:153-154 | the refusal's message is set and the alert shown |
| Templates.EditWorkoutTemplateView.UpdateTemplate | MyWorkoutApp/MyWorkoutApp/EditWorkoutTemplateView.swift:164-178 | the template takes the name and selection and overwrites the saved one with its id; the screen closes exactly when there was one |
| Templates.EditWorkoutTemplateView.ConfirmExerciseDelete | MyWorkoutApp/MyWorkoutApp/EditWorkoutTemplateView.swift:65-68 | the swiped rows are remembered and the question shown |
| Templates.EditWorkoutTemplateView.CancelExerciseDelete | MyWorkoutApp/MyWorkoutApp/EditWorkoutTemplateView.swift:119-121 | the rows are forgotten and the library is untouched |
| Templates.EditWorkoutTemplateView.DeleteExercise | MyWorkoutApp/MyWorkoutApp/EditWorkoutTemplateView.swift:122-132 | remembered rows leave the library, nothing happens otherwise; the selection keeps its copies; the rows are forgotten |
| Export.SetRow | MyWorkoutApp/MyWorkoutApp/DataExportService.swift:69-72 | a row reports the set itself, its 1-based number, weight times reps as volume, and the duration truncated to whole seconds |
| Export.CsvText | MyWorkoutApp/MyWorkoutApp/DataExportService.swift:59-78 | the text starts with the header line |
| Export.EntryRowsReportSets | MyWorkoutApp/MyWorkoutApp/DataExportService.swift:70-73 | an entry's rows report its sets in order |
| Export.AllRowsReportSets | MyWorkoutApp/MyWorkoutApp/DataExportService.swift:65-74 | the rows of a list of sessions report all their sets in order |
| Export.SetsOfLength | MyWorkoutApp/MyWorkoutApp/DataExportService.swift:70-73 | one row per set |
| Export.RowsReportCompletedSets | MyWorkoutApp/MyWorkoutApp/DataExportService.swift:65-73 | the exported rows are exactly the sets of the completed sessions, in order, one row each |
| Export.RowsSnoc | MyWorkoutApp/MyWorkoutApp/DataExportService.swift:65 | logging an unfinished session adds no rows; a completed one adds its own rows at the end |
| Export.RowTextOneLine | MyWorkoutApp/MyWorkoutApp/DataExportService.swift:72 | a row whose fields have no line break is exactly one line |
| Export.RowsTextLines | MyWorkoutApp/MyWorkoutApp/DataExportService.swift:70-73 | such rows give one line each |
| Export.HeaderOneLine | MyWorkoutApp/MyWorkoutApp/DataExportService.swift:60 | the header is one line |
| Export.CsvLineCount | MyWorkoutApp/MyWorkoutApp/DataExportService.swift:59-78 | the export has one line for the header plus one per set of a completed session |
| Export.HeaderOnly | MyWorkoutApp/MyWorkoutApp/DataExportService.swift:59-78 | the export is the header alone exactly when no completed session has a set |
| Export.AppendEntry | MyWorkoutApp/MyWorkoutApp/DataExportService.swift:70-73 | the loop over an entry's sets appends that entry's rows |
| Export.AppendSession | MyWorkoutApp/MyWorkoutApp/DataExportService.swift:66-74 | the loops over a session append that session's rows |
| Export.ExportToCSV | MyWorkoutApp/MyWorkoutApp/DataExportService.swift:59-78 | the loops build the header followed by the rows of the completed sessions |
| Export.ExportHistory | MyWorkoutApp/MyWorkoutApp/DataExportService.swift:99-101 | exporting the stored history gives the same text |

## Left out

- Persistence is left out: `UserDefaults`, `JSONEncoder`/`JSONDecoder` and every `save*` call. A load is modelled only by its outcome (`SessionStore.StoredSessions`: a missing key, undecodable data, or the decoded list).
- The screens' stores start from their loaded lists. The load itself is not modelled.
- Errors thrown by saving are not modelled. Their alerts (`errorMessage = error.localizedDescription`) and the retry paths are left out with them.
- The JSON exports are left out: `DataExportService.exportAllData`/`exportToJSON`, `shareData` and `ProgressView`'s export. They are JSON serialisation and file writes.
- SwiftUI rendering is left out. This covers colours, layouts, barbell drawings, `PlatePickerGrid`, `CompactPlateGrid`, chips and cards, and the display-only getters built from them.
- Scheduling is not modelled: `Timer.scheduledTimer`, `RunLoop` and `DispatchQueue.asyncAfter`. A timer firing is an explicit `Tick(now)` call. The 0.3-second debounce of the plate section and the toast's auto-hide are not modelled.
- IEEE floating point is not modelled. All arithmetic is exact over `real`, with the 0.01 tolerance and the 2.20462 factor used literally.
- `String(format: "%.1f", x)` text written into a field is stored as `Numeric.Round1(x)`, the value the text denotes. Its body sends an exact tie to the even tenth, as printf does for a Double whose binary value is the tie. A decimal tie that no Double holds exactly, such as 0.15, is rounded by printf according to the nearest Double, which the exact `real` does not capture.
- Numeric.Round1 does not state which way a tie goes. Its contract gives a whole number of tenths within 0.05 of the input; the tie rule is only in its body and in `Numeric.ExampleRound1Tie`.
- `DateFormatter` output is a parameter of the CSV export (`dateText`). So is Swift's decimal rendering of a `Double` (`realText`).
- The calendar week and month filters of the progress screen and its localised, case-insensitive search become one `keep` predicate passed in. Unicode ordering of names is the code-point order `Text.StringLess`.
- Swift's `sort(by:)` is an introsort. It is modelled by an insertion sort over the same comparator. Only the order the comparator fixes and the permutation are promised, so sessions that tie may come out in another order.
- `Int(duration)` traps for values outside the 64-bit range. The model truncates any real.
- `WorkoutTemplate.swift` is not part of this model. Its fields (`id`, `name`, `exercises`) are those used by the screens.
- The unit tests assert members that the app source does not have. These are `isInProgress`, `timerStartTime`, `currentElapsedTime`, `totalDuration`, `saveActiveWorkout`/`activeWorkout`, `handleError`/`lastError` and a throwing `addWorkoutSession`. There is nothing of them to model.
- The commented-out alternative `calculate` in `PlateCalculatorView.swift` is dead code and is not modelled.
- RestTimers.RestTimer.Start requires a non-negative duration. `start(duration:)` has no caller in the app, and the unit tests pass 60. The source accepts any `TimeInterval`; a negative duration is not modelled.
- PlateCalculator.ReducePlateCount requires a positive, strictly descending plate registry, which both registries are. It states only that the result holds no more plates than the input, and no plate that is neither an input plate nor a registry plate. It does not state the exact result: the trade can change the total weight, because `Int(25 / 10) = 2` turns two 10s into one 25.
- PlateBreakdown.OneDecimal states only the shape of the text: one digit after the point, no comma. Its body rounds through `Numeric.Round1`, but its contract does not state the digits.
- PlateBreakdown.FormatWeight states the whole-number case exactly. For other weights it states only the one-decimal shape, through `OneDecimal`.
- Progress.WorkoutProgressView.Delete and Progress.WorkoutProgressView.DeleteWorkout require every offset to be a row of the list shown. The list hands only such offsets to the swipe action.
- Progress.WorkoutProgressView.DeleteWorkout also requires that the deletion as written does not remove past the end of the history. There the source traps, and an app crash is not modelled; `Progress.DeleteAsWrittenTraps` gives such an input.
- Progress.WorkoutProgressView.Delete requires the same of the remembered rows.
- Progress.ProgressView.DeleteWorkout requires the same two things of its rows.
- Progress.ProgressView.DeleteWorkout and both methods of `WorkoutProgressView` state the deletion as the source writes it. They state the removal of exactly the swiped sessions only for one row. The corrected deletion of several rows is `Progress.DeleteShown`, which the screens do not call.
- Progress.FormatDurationReadsBack is stated for non-negative durations, the only ones a session records.
- Analytics.PRsAreMaxima: the estimated one-rep max of a record is Epley's estimate from the entry that last raised the record, as in the source. It is not the estimate from the record's combined maxima. `Analytics.PRFromOneEntry` states this.
- Export.CsvText states the header line. What follows is tied to the rows by `Export.RowsReportCompletedSets`, `Export.CsvLineCount` and `Export.HeaderOnly`. Double quotes inside names are not escaped, as in the source.
- Errors.ErrorDescription: the unit tests' literal descriptions follow from the prefix-then-message contract. They are not restated one by one.

## Findings

| source | as written | input that shows it | evidently intended | confidence | as-written member | corrected member |
|---|---|---|---|---|---|---|
| MyWorkoutApp/MyWorkoutApp/ProgressView.swift:113-124 | each swiped offset's session is looked up in a snapshot of the list taken before any removal, then removed at that position from the live list, which shrinks after every removal (the same in `WorkoutProgressView.deleteWorkout`) | the completed sessions [A, B, C] with rows 0 and 1 swiped leave [B]; [A, B] with rows 0 and 1 swiped removes at position 1 of a one-element list and traps | exactly the swiped sessions are removed: [A, B, C] with rows 0 and 1 leaves [C] | not executed | Progress.DeleteAsWrittenCounterexample | Progress.LiveLookupDeletesIds |

=== FILE: app_errors.dfy ===
/** `AppError`: the app's error cases, each carrying a message, with the text shown to the user
    (`errorDescription`) and the advice shown under it (`recoverySuggestion`). */
module Errors {
  import opened Wrappers
  import opened Text

  datatype AppError =
    | PersistenceError(message: string)
    | ValidationError(message: string)
    | DataCorruptionError(message: string)
    | EncodingError(message: string)
    | DecodingError(message: string)

  /** The fixed words in front of each case's message. */
  function Prefix(e: AppError): string
  {
    match e
    case PersistenceError(_) => "Failed to save data: "
    case ValidationError(_) => "Validation error: "
    case DataCorruptionError(_) => "Data corruption detected: "
    case EncodingError(_) => "Failed to encode data: "
    case DecodingError(_) => "Failed to decode data: "
  }

  /** `errorDescription`: always present, the case's prefix then the message, so the message can be
      read back after the prefix. */
  function ErrorDescription(e: AppError): (r: Option<string>)
    ensures r.Some?
    ensures |r.value| == |Prefix(e)| + |e.message|
    ensures r.value[..|Prefix(e)|] == Prefix(e) && r.value[|Prefix(e)|..] == e.message
  {
    Some(Prefix(e) + e.message)
  }

  /** A position where the prefixes of two different cases disagree: the first letter, or the verb
      after "Failed to " for the three that start that way. */
  function Disagreement(a: AppError, b: AppError): nat
  {
    if Prefix(a)[0] == 'F' && Prefix(b)[0] == 'F' then 10 else 0
  }

  /** The prefixes of different cases disagree somewhere inside both of them. */
  lemma PrefixesDisagree(a: AppError, b: AppError)
    requires Prefix(a) != Prefix(b)
    ensures Disagreement(a, b) < |Prefix(a)| && Disagreement(a, b) < |Prefix(b)|
    ensures Prefix(a)[Disagreement(a, b)] != Prefix(b)[Disagreement(a, b)]
  {
  }

  /** The description tells the error back: two errors have the same description exactly when they
      are the same case with the same message. */
  lemma DescriptionDeterminesError(a: AppError, b: AppError)
    ensures ErrorDescription(a) == ErrorDescription(b) <==> a == b
  {
    if Prefix(a) != Prefix(b) {
      PrefixesDisagree(a, b);
      var i := Disagreement(a, b);
      assert ErrorDescription(a).value[i] != ErrorDescription(b).value[i];
    } else if ErrorDescription(a) == ErrorDescription(b) {
      var da := ErrorDescription(a).value;
      assert a.message == da[|Prefix(a)|..] == b.message;
    }
  }

  /** The words the tests look for in the suggestions. */
  const TryAgain: string := "try again"
  const CheckYourInput: string := "check your input"

  /** The one suggestion for both the encoding and the decoding case. */
  const ReadWriteSuggestion: string := "There was a problem reading or writing data. Please " + TryAgain + "."

  /** `recoverySuggestion`: always present; the encoding and decoding cases share one. */
  function RecoverySuggestion(e: AppError): (r: Option<string>)
    ensures r.Some?
    ensures (e.EncodingError? || e.DecodingError?) ==> r.value == ReadWriteSuggestion
  {
    match e
    case PersistenceError(_) => Some("Please " + TryAgain + ". If the problem persists, restart the app.")
    case ValidationError(_) => Some("Please " + CheckYourInput + " and " + TryAgain + ".")
    case DataCorruptionError(_) => Some("Your data may need to be reset. Please contact support if this continues.")
    case EncodingError(_) => Some(ReadWriteSuggestion)
    case DecodingError(_) => Some(ReadWriteSuggestion)
  }

  /** A text placed between two others occurs there. */
  lemma OccursBetween(before: string, sub: string, after: string)
    ensures OccursAt(before + sub + after, sub, |before|)
  {
    assert (before + sub + after)[|before|..|before| + |sub|] == sub;
  }

  /** Whatever its message, a persistence error suggests trying again. */
  lemma PersistenceSuggestsRetry(message: string)
    ensures Contains(RecoverySuggestion(PersistenceError(message)).value, TryAgain)
  {
    OccursBetween("Please ", TryAgain, ". If the problem persists, restart the app.");
  }

  /** Whatever its message, a validation error asks to check the input, and to try again. */
  lemma ValidationSuggestsChecking(message: string)
    ensures Contains(RecoverySuggestion(ValidationError(message)).value, CheckYourInput)
    ensures Contains(RecoverySuggestion(ValidationError(message)).value, TryAgain)
  {
    OccursBetween("Please ", CheckYourInput, " and " + TryAgain + ".");
    assert "Please " + CheckYourInput + " and " + TryAgain + "." == "Please " + CheckYourInput + (" and " + TryAgain + ".");
    OccursBetween("Please " + CheckYourInput + " and ", TryAgain, ".");
  }

  /** Encoding and decoding errors also suggest trying again. */
  lemma ReadWriteSuggestsRetry()
    ensures Contains(ReadWriteSuggestion, TryAgain)
  {
    OccursBetween("There was a problem reading or writing data. Please ", TryAgain, ".");
  }
}

=== FILE: calc_view_model.dfy ===
/** The combined calculator screen's view model: the plate calculator in input mode (target weight
    → plates per side) and reverse mode (plates picked by hand → total), the unit toggle, the
    confirmation before switching mode with weight on the bar, and the RPE calculator. */
module Calculator {
  import opened Wrappers
  import opened Plates
  import Rpe
  import Numeric
  import opened PlateCalculator

  /** The toast after a unit change: "Converted to KG" or "Converted to LB". */
  function ConversionMessage(isKg: bool): string
  {
    "Converted to " + (if isKg then "KG" else "LB")
  }

  /** Text fields are held as the value they parse to (`None` when `Double(text)` / `Int(text)`
      fails). */
  class CalcViewModel {
    var selectedMode: CalculatorMode
    var isKgMode: bool
    var targetWeight: Option<real>
    var barWeight: Option<real>
    var calculatedPlates: seq<real>
    var selectedPlates: seq<real>
    var showModeSwitchConfirmation: bool
    var pendingMode: Option<CalculatorMode>
    var showUnitConversionToast: bool
    var unitConversionMessage: string
    var lastSetWeight: Option<real>
    var lastSetReps: Option<int>
    var lastSetRPE: Option<real>
    var estimated1RM: Option<real>
    var nextSetReps: Option<int>
    var nextSetRPE: Option<real>
    var nextSetWeight: Option<real>

    /** Input mode in pounds, target "0", bar "45", nothing loaded, RPE fields empty. */
    constructor()
      ensures selectedMode == Input && !isKgMode
      ensures targetWeight == Some(0.0) && barWeight == Some(45.0)
      ensures calculatedPlates == [] && selectedPlates == []
      ensures !showModeSwitchConfirmation && pendingMode == None
      ensures !showUnitConversionToast && unitConversionMessage == ""
      ensures lastSetWeight == None && lastSetReps == None && lastSetRPE == None && estimated1RM == None
      ensures nextSetReps == None && nextSetRPE == None && nextSetWeight == None
    {
      selectedMode := Input;
      isKgMode := false;
      targetWeight := Some(0.0);
      barWeight := Some(45.0);
      calculatedPlates := [];
      selectedPlates := [];
      showModeSwitchConfirmation := false;
      pendingMode := None;
      showUnitConversionToast := false;
      unitConversionMessage := "";
      lastSetWeight := None;
      lastSetReps := None;
      lastSetRPE := None;
      estimated1RM := None;
      nextSetReps := None;
      nextSetRPE := None;
      nextSetWeight := None;
    }

    /** `availablePlates`. */
    function AvailablePlates(): seq<real>
      reads this
    {
      Registry(isKgMode)
    }

    /** The plates of the current mode. */
    function DisplayedPlates(): seq<real>
      reads this
    {
      if selectedMode == Input then calculatedPlates else selectedPlates
    }

    /** `totalWeight`: both sides plus the bar, a bar that does not parse counting as 0. */
    function TotalWeight(): real
      reads this
    {
      LoadedTotal(DisplayedPlates(), barWeight.GetOr(0.0))
    }

    /** `totalWeightSecondary`: the total in the other unit. */
    function TotalWeightSecondary(): real
      reads this
    {
      if isKgMode then TotalWeight() * ConversionFactor else TotalWeight() / ConversionFactor
    }

    predicate HasWeightOnBar()
      reads this
    {
      calculatedPlates != [] || selectedPlates != []
    }

    /** `plateCount(_:)`: how many copies of a plate are selected. */
    function PlateCount(plate: real): nat
      reads this
    {
      Count(selectedPlates, plate)
    }

    /** `calculatePlates()`. */
    method CalculatePlates()
      modifies this`calculatedPlates
      ensures calculatedPlates == PlatesFor(targetWeight, barWeight, AvailablePlates())
    {
      if targetWeight.None? || barWeight.None? || targetWeight.value <= barWeight.value {
        calculatedPlates := [];
        return;
      }
      calculatedPlates := GreedyLoad(targetWeight.value, barWeight.value, AvailablePlates());
    }

    /** `toggleUnit()`: flip the unit and reset the bar; in input mode convert a positive target
        (rounded up to one decimal) and recalculate; in reverse mode snap the selected plates to
        the new registry; announce the conversion when weight was on the bar. */
    method ToggleUnit()
      modifies this`isKgMode, this`barWeight, this`targetWeight, this`calculatedPlates, this`selectedPlates
      modifies this`unitConversionMessage, this`showUnitConversionToast
      ensures isKgMode == !old(isKgMode)
      ensures barWeight == Some(if isKgMode then 20.0 else 45.0)
      ensures var converts := selectedMode == Input && old(targetWeight).Some? && old(targetWeight).value > 0.0;
        && (converts ==> targetWeight == Some(ConvertTarget(old(targetWeight).value, isKgMode))
                         && calculatedPlates == PlatesFor(targetWeight, barWeight, AvailablePlates()))
        && (!converts ==> targetWeight == old(targetWeight) && calculatedPlates == old(calculatedPlates))
      ensures selectedMode == Reverse ==> selectedPlates == ConvertPlates(old(selectedPlates), isKgMode)
      ensures selectedMode == Input ==> selectedPlates == old(selectedPlates)
      ensures old(HasWeightOnBar()) ==>
        showUnitConversionToast && unitConversionMessage == ConversionMessage(isKgMode)
      ensures !old(HasWeightOnBar()) ==>
        showUnitConversionToast == old(showUnitConversionToast) && unitConversionMessage == old(unitConversionMessage)
    {
      var hasWeightOnBar := calculatedPlates != [] || selectedPlates != [];
      isKgMode := !isKgMode;
      ConvertForUnit();
      if hasWeightOnBar {
        ShowConversionToast();
      }
    }

    /** What the toggle converts once the unit has changed: the bar is reset, a positive target is
        converted and recalculated in input mode, and the selection is converted in reverse mode. */
    method ConvertForUnit()
      modifies this`barWeight, this`targetWeight, this`calculatedPlates, this`selectedPlates
      ensures barWeight == Some(if isKgMode then 20.0 else 45.0)
      ensures var converts := selectedMode == Input && old(targetWeight).Some? && old(targetWeight).value > 0.0;
        && (converts ==> targetWeight == Some(ConvertTarget(old(targetWeight).value, isKgMode))
                         && calculatedPlates == PlatesFor(targetWeight, barWeight, AvailablePlates()))
        && (!converts ==> targetWeight == old(targetWeight) && calculatedPlates == old(calculatedPlates))
      ensures selectedMode == Reverse ==> selectedPlates == ConvertPlates(old(selectedPlates), isKgMode)
      ensures selectedMode == Input ==> selectedPlates == old(selectedPlates)
    {
      if isKgMode {
        barWeight := Some(20.0);
      } else {
        barWeight := Some(45.0);
      }
      if selectedMode == Input && targetWeight.Some? && targetWeight.value > 0.0 {
        targetWeight := Some(ConvertTarget(targetWeight.value, isKgMode));
        CalculatePlates();
      }
      if selectedMode == Reverse {
        ConvertSelectedPlates();
      }
    }

    /** The toast naming the unit just switched to. */
    method ShowConversionToast()
      modifies this`unitConversionMessage, this`showUnitConversionToast
      ensures showUnitConversionToast && unitConversionMessage == ConversionMessage(isKgMode)
    {
      unitConversionMessage := ConversionMessage(isKgMode);
      showUnitConversionToast := true;
    }

    /** `requestModeSwitch(to:)`: with nothing loaded switch at once, otherwise ask first. */
    method RequestModeSwitch(newMode: CalculatorMode)
      modifies this`pendingMode, this`showModeSwitchConfirmation, this`selectedMode
      ensures old(HasWeightOnBar()) ==>
        pendingMode == Some(newMode) && showModeSwitchConfirmation && selectedMode == old(selectedMode)
      ensures !old(HasWeightOnBar()) ==>
        selectedMode == newMode && pendingMode == old(pendingMode)
        && showModeSwitchConfirmation == old(showModeSwitchConfirmation)
    {
      if calculatedPlates != [] || selectedPlates != [] {
        pendingMode := Some(newMode);
        showModeSwitchConfirmation := true;
      } else {
        selectedMode := newMode;
      }
    }

    /** `confirmModeSwitch()`: input → reverse hands the calculated plates over as the selection,
        keeping the total; reverse → input turns the selected total, written with one decimal,
        into the target and recalculates. Either way the request is cleared. */
    method ConfirmModeSwitch()
      modifies this`selectedPlates, this`calculatedPlates, this`targetWeight
      modifies this`selectedMode, this`pendingMode, this`showModeSwitchConfirmation
      ensures old(pendingMode).None? ==>
        selectedPlates == old(selectedPlates) && calculatedPlates == old(calculatedPlates)
        && targetWeight == old(targetWeight) && selectedMode == old(selectedMode)
        && pendingMode == old(pendingMode) && showModeSwitchConfirmation == old(showModeSwitchConfirmation)
      ensures old(pendingMode).Some? ==>
        selectedMode == old(pendingMode).value && pendingMode == None && !showModeSwitchConfirmation
      ensures old(pendingMode) == Some(Reverse) && old(selectedMode) == Input ==>
        selectedPlates == old(calculatedPlates) && calculatedPlates == [] && targetWeight == Some(0.0)
        && TotalWeight() == old(TotalWeight())
      ensures old(pendingMode) == Some(Input) && old(selectedMode) == Reverse ==>
        targetWeight == Some(Numeric.Round1(old(TotalWeight()))) && selectedPlates == []
        && calculatedPlates == PlatesFor(targetWeight, barWeight, AvailablePlates())
      ensures (old(pendingMode) == Some(Input) && old(selectedMode) == Reverse
               && barWeight.Some? && targetWeight.Some? && targetWeight.value > barWeight.value) ==>
        targetWeight.value - 2.0 * RemainderEpsilon <= TotalWeight()
        && TotalWeight() < targetWeight.value + 2.0 * Last(AvailablePlates())
      ensures old(pendingMode).Some? && old(pendingMode).value == old(selectedMode) ==>
        selectedPlates == old(selectedPlates) && calculatedPlates == old(calculatedPlates)
        && targetWeight == old(targetWeight)
    {
      if pendingMode.None? {
        return;
      }
      var newMode := pendingMode.value;
      if newMode == Reverse && selectedMode == Input {
        HandOverPlates();
      } else if newMode == Input && selectedMode == Reverse {
        TotalToTarget();
      }
      selectedMode := newMode;
      pendingMode := None;
      showModeSwitchConfirmation := false;
    }

    /** Input → reverse: the calculated plates become the selection and the target is reset. */
    method HandOverPlates()
      modifies this`selectedPlates, this`calculatedPlates, this`targetWeight
      ensures selectedPlates == old(calculatedPlates) && calculatedPlates == [] && targetWeight == Some(0.0)
    {
      selectedPlates := calculatedPlates;
      calculatedPlates := [];
      targetWeight := Some(0.0);
    }

    /** Reverse → input: the selected total, written with one decimal, becomes the target; the
        plates are recalculated from it and the selection is emptied. The recalculated load is
        within the greedy bounds of that target, and the target is within half a tenth of the
        total (equal to it when the total is already a whole number of tenths). */
    method TotalToTarget()
      modifies this`targetWeight, this`calculatedPlates, this`selectedPlates
      ensures targetWeight == Some(Numeric.Round1(old(TotalWeight()))) && selectedPlates == []
      ensures old(TotalWeight()) - 0.05 <= targetWeight.value <= old(TotalWeight()) + 0.05
      ensures calculatedPlates == PlatesFor(targetWeight, barWeight, AvailablePlates())
      ensures barWeight.Some? && targetWeight.value > barWeight.value ==>
        targetWeight.value - 2.0 * RemainderEpsilon <= LoadedTotal(calculatedPlates, barWeight.value)
        && LoadedTotal(calculatedPlates, barWeight.value) < targetWeight.value + 2.0 * Last(AvailablePlates())
    {
      var target := Numeric.Round1(TotalWeight());
      targetWeight := Some(target);
      CalculatePlates();
      selectedPlates := [];
      if barWeight.Some? && target > barWeight.value {
        DecomposeBounds(target, barWeight.value, AvailablePlates());
      }
    }

    /** `cancelModeSwitch()`: drop the request, keep the mode. */
    method CancelModeSwitch()
      modifies this`pendingMode, this`showModeSwitchConfirmation
      ensures pendingMode == None && !showModeSwitchConfirmation
    {
      pendingMode := None;
      showModeSwitchConfirmation := false;
    }

    /** `convertSelectedPlates()`: each selected plate converted to the current unit and snapped to
        the nearest plate of the current registry. */
    method ConvertSelectedPlates()
      modifies this`selectedPlates
      ensures selectedPlates == ConvertPlates(old(selectedPlates), isKgMode)
    {
      selectedPlates := ConvertPlates(selectedPlates, isKgMode);
    }

    /** `addPlate(_:)`: one more copy of `plate`, no other count changes. */
    method AddPlate(plate: real)
      modifies this`selectedPlates
      ensures selectedPlates == old(selectedPlates) + [plate]
      ensures PlateCount(plate) == old(PlateCount(plate)) + 1
      ensures forall p :: p != plate ==> PlateCount(p) == old(PlateCount(p))
    {
      selectedPlates := selectedPlates + [plate];
    }

    /** `removePlate(_:)`: the first copy of `plate` is removed, if there is one; no other count
        changes. */
    method RemovePlate(plate: real)
      modifies this`selectedPlates
      ensures plate in old(selectedPlates) ==> PlateCount(plate) == old(PlateCount(plate)) - 1
      ensures plate !in old(selectedPlates) ==> selectedPlates == old(selectedPlates)
      ensures forall p :: p != plate ==> PlateCount(p) == old(PlateCount(p))
      ensures selectedPlates == RemoveFirst(old(selectedPlates), plate)
    {
      var index := FirstIndex(selectedPlates, plate);
      CountAfterRemoveFirst(selectedPlates, plate);
      if index.Some? {
        RemoveAtFirst(selectedPlates, plate, index.value);
        selectedPlates := selectedPlates[..index.value] + selectedPlates[index.value + 1..];
      }
    }

    /** `clearAllPlates()`. */
    method ClearAllPlates()
      modifies this`selectedPlates
      ensures selectedPlates == [] && forall p :: PlateCount(p) == 0
    {
      selectedPlates := [];
    }

    /** `calculate1RM()`: the estimate from the last set, then the next set from it (both absent
        when the last set does not give an estimate). */
    method Calculate1RM()
      modifies this`estimated1RM, this`nextSetWeight
      ensures estimated1RM == Rpe.Estimate1RM(lastSetWeight, lastSetReps, lastSetRPE, isKgMode)
      ensures nextSetWeight == Rpe.NextSetWeight(estimated1RM, nextSetReps, nextSetRPE, isKgMode)
    {
      if lastSetWeight.None? || lastSetReps.None? || lastSetRPE.None? {
        estimated1RM := None;
        nextSetWeight := None;
        return;
      }
      var lookup := Rpe.Percent(lastSetRPE.value, lastSetReps.value);
      if lookup.None? {
        estimated1RM := None;
        nextSetWeight := None;
        return;
      }
      estimated1RM := Some(Rpe.EstimateFrom(lastSetWeight.value, lookup.value, isKgMode));
      CalculateNextSetWeight();
    }

    /** `calculateNextSetWeight()`. */
    method CalculateNextSetWeight()
      modifies this`nextSetWeight
      ensures nextSetWeight == Rpe.NextSetWeight(estimated1RM, nextSetReps, nextSetRPE, isKgMode)
    {
      if estimated1RM.None? || nextSetReps.None? || nextSetRPE.None? {
        nextSetWeight := None;
        return;
      }
      var lookup := Rpe.Percent(nextSetRPE.value, nextSetReps.value);
      if lookup.None? {
        nextSetWeight := None;
        return;
      }
      nextSetWeight := Some(Rpe.SetWeightFrom(estimated1RM.value, lookup.value, isKgMode));
    }

    /** `clearRPE()`. */
    method ClearRpe()
      modifies this`lastSetWeight, this`lastSetReps, this`lastSetRPE, this`nextSetReps, this`nextSetRPE
      modifies this`estimated1RM, this`nextSetWeight
      ensures lastSetWeight == None && lastSetReps == None && lastSetRPE == None
      ensures nextSetReps == None && nextSetRPE == None && estimated1RM == None && nextSetWeight == None
    {
      lastSetWeight, lastSetReps, lastSetRPE := None, None, None;
      nextSetReps, nextSetRPE := None, None;
      estimated1RM, nextSetWeight := None, None;
    }

    /** `isRPEValid`. */
    predicate IsRpeValid()
      reads this
    {
      Rpe.IsRpeValid(lastSetWeight, lastSetReps, lastSetRPE)
    }

    /** `isNextSetValid`. */
    predicate IsNextSetValid()
      reads this
    {
      Rpe.IsNextSetValid(nextSetReps, nextSetRPE, estimated1RM)
    }
  }

  /** `firstIndex(of:)`: the position of the first copy of `plate`, if any. */
  method FirstIndex(s: seq<real>, plate: real) returns (index: Option<nat>)
    ensures index.None? <==> plate !in s
    ensures index.Some? ==> index.value < |s| && s[index.value] == plate && plate !in s[..index.value]
  {
    var i := 0;
    while i < |s|
      invariant 0 <= i <= |s| && plate !in s[..i]
    {
      if s[i] == plate {
        return Some(i);
      }
      assert s[..i + 1] == s[..i] + [s[i]];
      i := i + 1;
    }
    assert s[..i] == s;
    return None;
  }

  /** `RemoveFirst` takes one copy of `plate`, if there is one, and no copy of anything else. */
  lemma CountAfterRemoveFirst(s: seq<real>, plate: real)
    ensures plate in s ==> Count(RemoveFirst(s, plate), plate) == Count(s, plate) - 1
    ensures forall p :: p != plate ==> Count(RemoveFirst(s, plate), p) == Count(s, p)
  {
  }

  /** Removing at the first index of `plate` is `RemoveFirst`. */
  lemma {:induction false} RemoveAtFirst(s: seq<real>, plate: real, i: nat)
    requires i < |s| && s[i] == plate && plate !in s[..i]
    ensures s[..i] + s[i + 1..] == RemoveFirst(s, plate)
  {
    if i == 0 {
      assert s[..0] + s[1..] == s[1..];
    } else {
      var t := s[1..];
      assert s[..i] == [s[0]] + t[..i - 1];
      assert s[0] != plate;
      RemoveAtFirst(t, plate, i - 1);
      assert t[i..] == s[i + 1..];
      assert [s[0]] + (t[..i - 1] + t[i..]) == ([s[0]] + t[..i - 1]) + t[i..];
    }
  }
}

=== FILE: data_export.dfy ===
/** `DataExportService.exportToCSV(workoutSessions:)`: the completed workouts as comma-separated
    text, one line per logged set, under a fixed header line. The date formatter
    ("yyyy-MM-dd HH:mm:ss") and the rendering of a `Double` by string interpolation are parameters:
    `dateText` and `realText`. */
module Export {
  import opened Numeric
  import opened Text
  import opened Workouts
  import opened Analytics
  import opened SessionStore

  /** A field in double quotes. */
  function Quoted(s: string): string
  {
    "\"" + s + "\""
  }

  /** Fields separated by commas. */
  function Joined(fields: seq<string>): string
  {
    if fields == [] then ""
    else if |fields| == 1 then fields[0]
    else Joined(fields[..|fields| - 1]) + "," + fields[|fields| - 1]
  }

  /** The column titles. */
  const Titles: seq<string> :=
    ["Date", "Workout Name", "Duration (seconds)", "Exercise", "Set", "Reps", "Weight (lbs)", "Volume"]

  /** The first line of every export. */
  const Header: string := Joined(Titles) + "\n"

  /** One set's line, as the interpolation writes it: the date, the workout name and the exercise
      name in double quotes, the numbers bare. */
  function CsvLine(dateString: string, workoutName: string, duration: int, exercise: string,
                   setNumber: int, reps: int, weightText: string, volumeText: string): string
  {
    Joined([Quoted(dateString), Quoted(workoutName), IntToString(duration), Quoted(exercise),
            IntToString(setNumber), IntToString(reps), weightText, volumeText]) + "\n"
  }

  /** One exported line before rendering: the session's date, name and whole seconds, the
      exercise's name, the set's position counted from 1, the set itself and its volume. */
  datatype CsvRow = CsvRow(
    date: real,
    workoutName: string,
    duration: int,
    exercise: string,
    setNumber: int,
    logged: SetEntry,
    volume: real)

  /** The line for set `index` of `entry` in `session`. */
  function SetRow(session: WorkoutSession, entry: ExerciseEntry, index: nat): (r: CsvRow)
    requires index < |entry.sets|
    ensures r.logged == entry.sets[index] && r.setNumber == index + 1
    ensures r.volume == SetVolume(entry.sets[index])
    ensures session.duration >= 0.0 ==> 0 <= r.duration && r.duration as real <= session.duration < r.duration as real + 1.0
  {
    CsvRow(session.date, session.name, Trunc(session.duration), entry.exercise.name,
      index + 1, entry.sets[index], SetVolume(entry.sets[index]))
  }

  /** The lines of the first `n` sets of an entry. */
  function EntryRows(session: WorkoutSession, entry: ExerciseEntry, n: nat): seq<CsvRow>
    requires n <= |entry.sets|
  {
    if n == 0 then [] else EntryRows(session, entry, n - 1) + [SetRow(session, entry, n - 1)]
  }

  /** The lines of a list of entries of `session`, entry after entry. */
  function EntriesRows(session: WorkoutSession, entries: seq<ExerciseEntry>): seq<CsvRow>
  {
    if entries == [] then []
    else EntriesRows(session, entries[..|entries| - 1])
         + EntryRows(session, entries[|entries| - 1], |entries[|entries| - 1].sets|)
  }

  /** The lines of a list of sessions, session after session. */
  function AllRows(sessions: seq<WorkoutSession>): seq<CsvRow>
  {
    if sessions == [] then []
    else AllRows(sessions[..|sessions| - 1])
         + EntriesRows(sessions[|sessions| - 1], sessions[|sessions| - 1].exerciseEntries)
  }

  /** The lines of an export: those of the completed sessions only. */
  function Rows(sessions: seq<WorkoutSession>): seq<CsvRow>
  {
    AllRows(CompletedSessions(sessions))
  }

  /** The rendered line of a row. */
  function RowText(row: CsvRow, dateText: real -> string, realText: real -> string): string
  {
    CsvLine(dateText(row.date), row.workoutName, row.duration, row.exercise, row.setNumber,
            row.logged.reps, realText(row.logged.weight), realText(row.volume))
  }

  /** Lines rendered one after another. */
  function RowsText(rows: seq<CsvRow>, dateText: real -> string, realText: real -> string): string
  {
    if rows == [] then ""
    else RowsText(rows[..|rows| - 1], dateText, realText) + RowText(rows[|rows| - 1], dateText, realText)
  }

  /** The whole export: the header, then the lines. */
  function CsvText(sessions: seq<WorkoutSession>, dateText: real -> string, realText: real -> string): (r: string)
    ensures |r| >= |Header| && r[..|Header|] == Header
  {
    Header + RowsText(Rows(sessions), dateText, realText)
  }

  /** Appending in two steps is appending the two at once. */
  lemma Regroup<T>(text: seq<T>, before: seq<T>, added: seq<T>)
    ensures (text + before) + added == text + (before + added)
  {
  }

  lemma {:induction false} RowsTextAppend(a: seq<CsvRow>, b: seq<CsvRow>, dateText: real -> string, realText: real -> string)
    ensures RowsText(a + b, dateText, realText) == RowsText(a, dateText, realText) + RowsText(b, dateText, realText)
    decreases |b|
  {
    if b == [] {
      assert a + b == a;
    } else {
      assert (a + b)[..|a + b| - 1] == a + b[..|b| - 1];
      RowsTextAppend(a, b[..|b| - 1], dateText, realText);
      Regroup(RowsText(a, dateText, realText), RowsText(b[..|b| - 1], dateText, realText),
              RowText(b[|b| - 1], dateText, realText));
    }
  }

  lemma {:induction false} AllRowsAppend(a: seq<WorkoutSession>, b: seq<WorkoutSession>)
    ensures AllRows(a + b) == AllRows(a) + AllRows(b)
    decreases |b|
  {
    if b == [] {
      assert a + b == a;
    } else {
      assert (a + b)[..|a + b| - 1] == a + b[..|b| - 1];
      AllRowsAppend(a, b[..|b| - 1]);
      Regroup(AllRows(a), AllRows(b[..|b| - 1]), EntriesRows(b[|b| - 1], b[|b| - 1].exerciseEntries));
    }
  }

  /** The sets a list of lines reports, in order. */
  function SetsOf(rows: seq<CsvRow>): seq<SetEntry>
  {
    if rows == [] then [] else SetsOf(rows[..|rows| - 1]) + [rows[|rows| - 1].logged]
  }

  lemma {:induction false} SetsOfAppend(a: seq<CsvRow>, b: seq<CsvRow>)
    ensures SetsOf(a + b) == SetsOf(a) + SetsOf(b)
    decreases |b|
  {
    if b == [] {
      assert a + b == a;
    } else {
      assert (a + b)[..|a + b| - 1] == a + b[..|b| - 1];
      SetsOfAppend(a, b[..|b| - 1]);
      Regroup(SetsOf(a), SetsOf(b[..|b| - 1]), [b[|b| - 1].logged]);
    }
  }

  /** An entry's lines report its first `n` sets in order. */
  lemma {:induction false} EntryRowsReportSets(session: WorkoutSession, entry: ExerciseEntry, n: nat)
    requires n <= |entry.sets|
    ensures SetsOf(EntryRows(session, entry, n)) == entry.sets[..n]
  {
    if n > 0 {
      EntryRowsReportSets(session, entry, n - 1);
      SetsOfAppend(EntryRows(session, entry, n - 1), [SetRow(session, entry, n - 1)]);
      assert entry.sets[..n] == entry.sets[..n - 1] + [entry.sets[n - 1]];
    }
  }

  lemma {:induction false} EntriesRowsReportSets(session: WorkoutSession, entries: seq<ExerciseEntry>)
    ensures SetsOf(EntriesRows(session, entries)) == AllSets(entries)
  {
    if entries != [] {
      var last := entries[|entries| - 1];
      EntriesRowsReportSets(session, entries[..|entries| - 1]);
      EntryRowsReportSets(session, last, |last.sets|);
      SetsOfAppend(EntriesRows(session, entries[..|entries| - 1]), EntryRows(session, last, |last.sets|));
      assert last.sets[..|last.sets|] == last.sets;
    }
  }

  lemma {:induction false} AllRowsReportSets(sessions: seq<WorkoutSession>)
    ensures SetsOf(AllRows(sessions)) == AllSets(FlatEntries(sessions))
  {
    if sessions != [] {
      var init := sessions[..|sessions| - 1];
      var last := sessions[|sessions| - 1];
      AllRowsReportSets(init);
      EntriesRowsReportSets(last, last.exerciseEntries);
      SetsOfAppend(AllRows(init), EntriesRows(last, last.exerciseEntries));
      AllSetsAppend(FlatEntries(init), last.exerciseEntries);
    }
  }

  lemma {:induction false} SetsOfLength(rows: seq<CsvRow>)
    ensures |SetsOf(rows)| == |rows|
  {
    if rows != [] {
      SetsOfLength(rows[..|rows| - 1]);
    }
  }

  /** The export lists exactly the sets of the completed sessions, session by session, entry by
      entry, set by set. */
  lemma RowsReportCompletedSets(sessions: seq<WorkoutSession>)
    ensures SetsOf(Rows(sessions)) == AllSets(FlatEntries(CompletedSessions(sessions)))
    ensures |Rows(sessions)| == |AllSets(FlatEntries(CompletedSessions(sessions)))|
  {
    AllRowsReportSets(CompletedSessions(sessions));
    SetsOfLength(Rows(sessions));
  }

  /** A session that is not completed adds nothing to the export; a completed one adds its lines
      after those already there. */
  lemma RowsSnoc(sessions: seq<WorkoutSession>, session: WorkoutSession)
    ensures !session.isCompleted ==> Rows(sessions + [session]) == Rows(sessions)
    ensures session.isCompleted ==>
      Rows(sessions + [session]) == Rows(sessions) + EntriesRows(session, session.exerciseEntries)
  {
    Lists.FilterAppend(sessions, [session], IsCompleted());
    AllRowsAppend(CompletedSessions(sessions), Lists.Filter([session], IsCompleted()));
    assert [session][..0] == [];
    if session.isCompleted {
      assert AllRows([session]) == EntriesRows(session, session.exerciseEntries);
    }
  }

  /** No rendered number holds a line break. */
  lemma IntTextHasNoNewline(n: int)
    ensures '\n' !in IntToString(n)
  {
    var digits := NatToString(if n < 0 then -n else n);
    assert forall i :: 0 <= i < |digits| ==> digits[i] != '\n';
  }

  /** What a line's free-text fields must avoid for it to stay one line. */
  predicate SingleLine(row: CsvRow, dateText: real -> string, realText: real -> string)
  {
    '\n' !in dateText(row.date) && '\n' !in row.workoutName && '\n' !in row.exercise
    && '\n' !in realText(row.logged.weight) && '\n' !in realText(row.volume)
  }

  /** Fields without line breaks join into a text without one. */
  lemma {:induction false} JoinedSingleLine(fields: seq<string>)
    requires forall i :: 0 <= i < |fields| ==> '\n' !in fields[i]
    ensures '\n' !in Joined(fields)
  {
    if |fields| > 1 {
      JoinedSingleLine(fields[..|fields| - 1]);
    }
  }

  /** A text without line breaks, then one: a single line. */
  lemma OneBreak(text: string)
    requires '\n' !in text
    ensures CountChar(text + "\n", '\n') == 1
  {
    CountCharAbsent(text, '\n');
    CountCharAppend(text, "\n", '\n');
  }

  /** A line whose names and rendered values hold no line break ends with the only one. */
  lemma RowTextOneLine(row: CsvRow, dateText: real -> string, realText: real -> string)
    requires SingleLine(row, dateText, realText)
    ensures CountChar(RowText(row, dateText, realText), '\n') == 1
  {
    IntTextHasNoNewline(row.duration);
    IntTextHasNoNewline(row.setNumber);
    IntTextHasNoNewline(row.logged.reps);
    var fields := [Quoted(dateText(row.date)), Quoted(row.workoutName), IntToString(row.duration),
                   Quoted(row.exercise), IntToString(row.setNumber), IntToString(row.logged.reps),
                   realText(row.logged.weight), realText(row.volume)];
    JoinedSingleLine(fields);
    OneBreak(Joined(fields));
  }

  lemma {:induction false} RowsTextLines(rows: seq<CsvRow>, dateText: real -> string, realText: real -> string)
    requires forall k :: 0 <= k < |rows| ==> SingleLine(rows[k], dateText, realText)
    ensures CountChar(RowsText(rows, dateText, realText), '\n') == |rows|
  {
    if rows != [] {
      var init := rows[..|rows| - 1];
      RowsTextLines(init, dateText, realText);
      RowTextOneLine(rows[|rows| - 1], dateText, realText);
      CountCharAppend(RowsText(init, dateText, realText), RowText(rows[|rows| - 1], dateText, realText), '\n');
    }
  }

  lemma HeaderOneLine()
    ensures CountChar(Header, '\n') == 1
  {
    JoinedSingleLine(Titles);
    OneBreak(Joined(Titles));
  }

  /** With no line break in the names and rendered values, the export has one line for the header
      and one per set of a completed session. */
  lemma CsvLineCount(sessions: seq<WorkoutSession>, dateText: real -> string, realText: real -> string)
    requires forall k :: 0 <= k < |Rows(sessions)| ==> SingleLine(Rows(sessions)[k], dateText, realText)
    ensures CountChar(CsvText(sessions, dateText, realText), '\n')
            == 1 + |AllSets(FlatEntries(CompletedSessions(sessions)))|
  {
    HeaderOneLine();
    RowsTextLines(Rows(sessions), dateText, realText);
    CountCharAppend(Header, RowsText(Rows(sessions), dateText, realText), '\n');
    RowsReportCompletedSets(sessions);
  }

  lemma {:induction false} RowsTextEmpty(rows: seq<CsvRow>, dateText: real -> string, realText: real -> string)
    ensures RowsText(rows, dateText, realText) == [] <==> rows == []
  {
    if rows != [] {
      var last := RowText(rows[|rows| - 1], dateText, realText);
      assert last[|last| - 1] == '\n';
      assert |RowsText(rows, dateText, realText)| >= |last| > 0;
    }
  }

  /** The export is the header alone exactly when no completed session has a set. */
  lemma HeaderOnly(sessions: seq<WorkoutSession>, dateText: real -> string, realText: real -> string)
    ensures CsvText(sessions, dateText, realText) == Header
            <==> AllSets(FlatEntries(CompletedSessions(sessions))) == []
  {
    RowsTextEmpty(Rows(sessions), dateText, realText);
    RowsReportCompletedSets(sessions);
    var text := CsvText(sessions, dateText, realText);
    if text == Header {
      assert RowsText(Rows(sessions), dateText, realText) == text[|Header|..];
    }
  }

  /** One more set's line, rendered after the text so far. */
  lemma EntryRowsStep(session: WorkoutSession, entry: ExerciseEntry, n: nat,
                      dateText: real -> string, realText: real -> string)
    requires n < |entry.sets|
    ensures RowsText(EntryRows(session, entry, n + 1), dateText, realText)
            == RowsText(EntryRows(session, entry, n), dateText, realText)
               + CsvLine(dateText(session.date), session.name, Trunc(session.duration), entry.exercise.name,
                         n + 1, entry.sets[n].reps, realText(entry.sets[n].weight),
                         realText(SetVolume(entry.sets[n])))
  {
    var rows := EntryRows(session, entry, n + 1);
    assert rows[..|rows| - 1] == EntryRows(session, entry, n);
  }

  /** One more entry's lines, rendered after the text so far. */
  lemma EntriesRowsStep(session: WorkoutSession, entries: seq<ExerciseEntry>, e: nat,
                        dateText: real -> string, realText: real -> string)
    requires e < |entries|
    ensures RowsText(EntriesRows(session, entries[..e + 1]), dateText, realText)
            == RowsText(EntriesRows(session, entries[..e]), dateText, realText)
               + RowsText(EntryRows(session, entries[e], |entries[e].sets|), dateText, realText)
  {
    assert entries[..e + 1][..e] == entries[..e];
    RowsTextAppend(EntriesRows(session, entries[..e]), EntryRows(session, entries[e], |entries[e].sets|), dateText, realText);
  }

  /** One more session's lines, rendered after the text so far. */
  lemma AllRowsStep(sessions: seq<WorkoutSession>, k: nat, dateText: real -> string, realText: real -> string)
    requires k < |sessions|
    ensures RowsText(AllRows(sessions[..k + 1]), dateText, realText)
            == RowsText(AllRows(sessions[..k]), dateText, realText)
               + RowsText(EntriesRows(sessions[k], sessions[k].exerciseEntries), dateText, realText)
  {
    assert sessions[..k + 1][..k] == sessions[..k];
    RowsTextAppend(AllRows(sessions[..k]), EntriesRows(sessions[k], sessions[k].exerciseEntries), dateText, realText);
  }

  /** `for (index, set) in exerciseEntry.sets.enumerated()`: appends the entry's lines. */
  method AppendEntry(csv: string, session: WorkoutSession, dateString: string, duration: int,
                     exerciseEntry: ExerciseEntry, ghost dateText: real -> string, realText: real -> string)
    returns (r: string)
    requires dateString == dateText(session.date) && duration == Trunc(session.duration)
    ensures r == csv + RowsText(EntryRows(session, exerciseEntry, |exerciseEntry.sets|), dateText, realText)
  {
    r := csv;
    for index := 0 to |exerciseEntry.sets|
      invariant r == csv + RowsText(EntryRows(session, exerciseEntry, index), dateText, realText)
    {
      var logged := exerciseEntry.sets[index];
      var volume := SetVolume(logged);
      ghost var line := CsvLine(dateString, session.name, duration, exerciseEntry.exercise.name, index + 1,
                                logged.reps, realText(logged.weight), realText(volume));
      EntryRowsStep(session, exerciseEntry, index, dateText, realText);
      Regroup(csv, RowsText(EntryRows(session, exerciseEntry, index), dateText, realText), line);
      r := r + CsvLine(dateString, session.name, duration, exerciseEntry.exercise.name, index + 1,
                       logged.reps, realText(logged.weight), realText(volume));
    }
  }

  /** `for exerciseEntry in session.exerciseEntries`: appends the session's lines. */
  method AppendSession(csv: string, session: WorkoutSession, dateText: real -> string, realText: real -> string)
    returns (r: string)
    ensures r == csv + RowsText(EntriesRows(session, session.exerciseEntries), dateText, realText)
  {
    var dateString := dateText(session.date);
    var duration := Trunc(session.duration);
    var entries := session.exerciseEntries;
    r := csv;
    for e := 0 to |entries|
      invariant r == csv + RowsText(EntriesRows(session, entries[..e]), dateText, realText)
    {
      EntriesRowsStep(session, entries, e, dateText, realText);
      ghost var before := RowsText(EntriesRows(session, entries[..e]), dateText, realText);
      ghost var added := RowsText(EntryRows(session, entries[e], |entries[e].sets|), dateText, realText);
      Regroup(csv, before, added);
      r := AppendEntry(r, session, dateString, duration, entries[e], dateText, realText);
    }
    assert entries[..|entries|] == entries;
  }

  /** `exportToCSV(workoutSessions:)`: the header, then the lines of each completed session. */
  method ExportToCSV(workoutSessions: seq<WorkoutSession>, dateText: real -> string, realText: real -> string)
    returns (csv: string)
    ensures csv == CsvText(workoutSessions, dateText, realText)
  {
    csv := Header;
    var completed := Lists.Filter(workoutSessions, IsCompleted());
    for k := 0 to |completed|
      invariant csv == Header + RowsText(AllRows(completed[..k]), dateText, realText)
    {
      AllRowsStep(completed, k, dateText, realText);
      ghost var before := RowsText(AllRows(completed[..k]), dateText, realText);
      ghost var added := RowsText(EntriesRows(completed[k], completed[k].exerciseEntries), dateText, realText);
      Regroup(Header, before, added);
      csv := AppendSession(csv, completed[k], dateText, realText);
    }
    assert completed[..|completed|] == completed;
  }

  /** `WorkoutSessionViewModel.exportToCSV()`: the export of the stored history. */
  method ExportHistory(store: WorkoutSessionViewModel, dateText: real -> string, realText: real -> string)
    returns (csv: string)
    ensures csv == CsvText(store.workoutSessions, dateText, realText)
  {
    csv := ExportToCSV(store.workoutSessions, dateText, realText);
  }
}

=== FILE: edit_workout_view.dfy ===
/** `EditWorkoutView`: editing the sets of a logged session and writing it back over the stored
    session with the same id. */
module EditWorkout {
  import opened Wrappers
  import opened Workouts
  import opened SessionStore
  import opened Lists

  class EditWorkoutView {
    const store: WorkoutSessionViewModel
    var workoutSession: WorkoutSession

    constructor(store: WorkoutSessionViewModel, workoutSession: WorkoutSession)
      ensures this.store == store && this.workoutSession == workoutSession
    {
      this.store := store;
      this.workoutSession := workoutSession;
    }

    /** `addSet(to:)`. */
    method AddSet(exerciseIndex: nat, setId: nat)
      requires exerciseIndex < |workoutSession.exerciseEntries|
      modifies this`workoutSession
      ensures workoutSession == Workouts.AddSet(old(workoutSession), exerciseIndex, setId)
    {
      var entries := workoutSession.exerciseEntries;
      var entry := entries[exerciseIndex];
      workoutSession := workoutSession.(exerciseEntries :=
        entries[exerciseIndex := entry.(sets := entry.sets + [SetEntry(setId, 0, 0.0)])]);
    }

    /** `deleteSet(at:from:)`. */
    method DeleteSet(setIndex: nat, exerciseIndex: nat)
      requires exerciseIndex < |workoutSession.exerciseEntries|
      requires setIndex < |workoutSession.exerciseEntries[exerciseIndex].sets|
      modifies this`workoutSession
      ensures workoutSession == Workouts.DeleteSet(old(workoutSession), setIndex, exerciseIndex)
    {
      var entries := workoutSession.exerciseEntries;
      var entry := entries[exerciseIndex];
      workoutSession := workoutSession.(exerciseEntries :=
        entries[exerciseIndex := entry.(sets := entry.sets[..setIndex] + entry.sets[setIndex + 1..])]);
    }

    /** The reps field's setter; `parsed` is `Int(newValue)`. */
    method SetRepsText(exerciseIndex: nat, setIndex: nat, parsed: Option<int>)
      requires exerciseIndex < |workoutSession.exerciseEntries|
      requires setIndex < |workoutSession.exerciseEntries[exerciseIndex].sets|
      modifies this`workoutSession
      ensures workoutSession == Workouts.SetReps(old(workoutSession), exerciseIndex, setIndex, parsed)
    {
      workoutSession := Workouts.SetReps(workoutSession, exerciseIndex, setIndex, parsed);
    }

    /** The weight field's setter; `parsed` is `Double(newValue)`. */
    method SetWeightText(exerciseIndex: nat, setIndex: nat, parsed: Option<real>)
      requires exerciseIndex < |workoutSession.exerciseEntries|
      requires setIndex < |workoutSession.exerciseEntries[exerciseIndex].sets|
      modifies this`workoutSession
      ensures workoutSession == Workouts.SetWeight(old(workoutSession), exerciseIndex, setIndex, parsed)
    {
      workoutSession := Workouts.SetWeight(workoutSession, exerciseIndex, setIndex, parsed);
    }

    /** `saveEdits()`: the first stored session with this id is overwritten in place; with none,
        the history is left as it is (saving to storage is not modelled). */
    method SaveEdits()
      modifies store
      ensures store.workoutSessions == ReplaceById(old(store.workoutSessions), workoutSession)
    {
      var index := FirstIndexWhere(store.workoutSessions, SessionHasId(workoutSession.id));
      if index.Some? {
        store.workoutSessions := store.workoutSessions[index.value := workoutSession];
      }
    }
  }
}

=== FILE: input_validators.dfy ===
/** `InputValidators`: the accepted ranges for a set's weight and reps, and clamping into them. */
module InputValidators {
  const MinWeight: real := 0.0
  const MaxWeight: real := 1000.0
  const MinReps: int := 0
  const MaxReps: int := 100

  /** `validateWeight(_:)`. */
  predicate ValidateWeight(weight: real)
  {
    weight >= MinWeight && weight <= MaxWeight
  }

  /** `validateReps(_:)`. */
  predicate ValidateReps(reps: int)
  {
    reps >= MinReps && reps <= MaxReps
  }

  /** `clampWeight(_:)`: always a valid weight, the input itself when that is valid, the nearer
      end of the range otherwise. */
  function ClampWeight(weight: real): (r: real)
    ensures ValidateWeight(r)
    ensures ValidateWeight(weight) ==> r == weight
    ensures weight < MinWeight ==> r == MinWeight
    ensures weight > MaxWeight ==> r == MaxWeight
  {
    var capped := if MaxWeight < weight then MaxWeight else weight;
    if MinWeight > capped then MinWeight else capped
  }

  /** `clampReps(_:)`: the same for reps. */
  function ClampReps(reps: int): (r: int)
    ensures ValidateReps(r)
    ensures ValidateReps(reps) ==> r == reps
    ensures reps < MinReps ==> r == MinReps
    ensures reps > MaxReps ==> r == MaxReps
  {
    var capped := if MaxReps < reps then MaxReps else reps;
    if MinReps > capped then MinReps else capped
  }

  /** Clamping twice is clamping once. */
  lemma ClampIdempotent(weight: real, reps: int)
    ensures ClampWeight(ClampWeight(weight)) == ClampWeight(weight)
    ensures ClampReps(ClampReps(reps)) == ClampReps(reps)
  {
  }

  /** A clamp moves a weight exactly when it is invalid. */
  lemma ClampMovesOnlyInvalid(weight: real)
    ensures ClampWeight(weight) != weight <==> !ValidateWeight(weight)
  {
  }
}

=== FILE: lists.dfy ===
/** The Swift array operations the screens use on their lists: `firstIndex(where:)`, `remove(at:)`,
    `remove(atOffsets:)` and `filter`. */
module Lists {
  import opened Wrappers

  /** `firstIndex(where:)`: the first position whose element satisfies `p`, if any. */
  function FirstIndexWhere<T>(s: seq<T>, p: T -> bool): (k: Option<nat>)
    ensures k.None? <==> forall i :: 0 <= i < |s| ==> !p(s[i])
    ensures k.Some? ==> k.value < |s| && p(s[k.value]) && forall i :: 0 <= i < k.value ==> !p(s[i])
  {
    if s == [] then None
    else if p(s[0]) then Some(0)
    else
      var rest := FirstIndexWhere(s[1..], p);
      if rest.None? then None else Some(rest.value + 1)
  }

  /** `remove(at:)`: everything before `k`, then everything after it. */
  function RemoveAt<T>(s: seq<T>, k: nat): (r: seq<T>)
    requires k < |s|
    ensures |r| == |s| - 1
    ensures forall i :: 0 <= i < k ==> r[i] == s[i]
    ensures forall i :: k <= i < |r| ==> r[i] == s[i + 1]
  {
    s[..k] + s[k + 1..]
  }

  /** The positions below `n` that are not in `offsets`, in increasing order. */
  function Kept(n: nat, offsets: set<nat>): (k: seq<nat>)
    ensures |k| <= n
  {
    if n == 0 then []
    else if n - 1 in offsets then Kept(n - 1, offsets)
    else Kept(n - 1, offsets) + [n - 1]
  }

  /** The kept positions are below `n`, not removed, increasing, and every position that is not
      removed is among them. */
  lemma {:induction false} KeptPositions(n: nat, offsets: set<nat>)
    ensures var k := Kept(n, offsets);
      (forall j :: 0 <= j < |k| ==> k[j] < n && k[j] !in offsets)
      && (forall i :: 0 <= i < n && i !in offsets ==> i in k)
      && (forall a, b :: 0 <= a < b < |k| ==> k[a] < k[b])
  {
    if n > 0 {
      KeptPositions(n - 1, offsets);
      var prev := Kept(n - 1, offsets);
      if n - 1 !in offsets {
        var k := Kept(n, offsets);
        assert k == prev + [n - 1];
        forall i | 0 <= i < n && i !in offsets ensures i in k {
          if i < n - 1 {
            assert i in prev;
          } else {
            assert k[|k| - 1] == i;
          }
        }
      }
    }
  }

  /** `remove(atOffsets:)`: the elements at the positions not listed, in their order. */
  function RemoveOffsets<T>(s: seq<T>, offsets: set<nat>): (r: seq<T>)
    ensures |r| == |Kept(|s|, offsets)|
    ensures forall j :: 0 <= j < |r| ==> Kept(|s|, offsets)[j] < |s| && r[j] == s[Kept(|s|, offsets)[j]]
  {
    var k := Kept(|s|, offsets);
    KeptPositions(|s|, offsets);
    seq(|k|, j requires 0 <= j < |k| => s[k[j]])
  }

  /** Removing one valid offset is `remove(at:)`. */
  lemma RemoveOneOffset<T>(s: seq<T>, k: nat)
    requires k < |s|
    ensures RemoveOffsets(s, {k}) == RemoveAt(s, k)
  {
    KeptOne(|s|, k);
  }

  lemma {:induction false} KeptOne(n: nat, k: nat)
    requires k < n
    ensures |Kept(n, {k})| == n - 1
    ensures forall j :: 0 <= j < n - 1 ==> Kept(n, {k})[j] == if j < k then j else j + 1
  {
    if n - 1 == k {
      KeptNone(n - 1, {k});
    } else {
      var prev := Kept(n - 1, {k});
      KeptOne(n - 1, k);
      KeptSnoc(n, {k}, prev);
      forall j | 0 <= j < n - 1 ensures Kept(n, {k})[j] == if j < k then j else j + 1 {
        if j < n - 2 {
          assert Kept(n, {k})[j] == prev[j];
        }
      }
    }
  }

  /** One more position, not removed, goes at the end. */
  lemma KeptSnoc(n: nat, offsets: set<nat>, prev: seq<nat>)
    requires n > 0 && n - 1 !in offsets && prev == Kept(n - 1, offsets)
    ensures Kept(n, offsets) == prev + [n - 1]
  {
  }

  lemma {:induction false} KeptNone(n: nat, offsets: set<nat>)
    requires forall i :: 0 <= i < n ==> i !in offsets
    ensures |Kept(n, offsets)| == n
    ensures forall j :: 0 <= j < n ==> Kept(n, offsets)[j] == j
  {
    if n > 0 {
      KeptNone(n - 1, offsets);
      assert Kept(n, offsets) == Kept(n - 1, offsets) + [n - 1];
    }
  }

  /** Offsets outside the list remove nothing. */
  lemma RemoveNoOffsets<T>(s: seq<T>, offsets: set<nat>)
    requires forall i :: 0 <= i < |s| ==> i !in offsets
    ensures RemoveOffsets(s, offsets) == s
  {
    KeptNone(|s|, offsets);
  }

  /** `filter`: the elements satisfying `p`, in their order. */
  function Filter<T(!new)>(s: seq<T>, p: T -> bool): (r: seq<T>)
    ensures |r| <= |s|
  {
    if s == [] then []
    else
      assert s == s[..|s| - 1] + [s[|s| - 1]];
      Filter(s[..|s| - 1], p) + (if p(s[|s| - 1]) then [s[|s| - 1]] else [])
  }

  /** The elements kept are exactly the elements of `s` satisfying `p`. */
  lemma {:induction false} FilterMembers<T(!new)>(s: seq<T>, p: T -> bool)
    ensures forall x :: x in Filter(s, p) <==> x in s && p(x)
  {
    if s != [] {
      var init, last := s[..|s| - 1], s[|s| - 1];
      FilterMembers(init, p);
      assert s == init + [last];
    }
  }

  lemma {:induction false} FilterAppend<T(!new)>(a: seq<T>, b: seq<T>, p: T -> bool)
    ensures Filter(a + b, p) == Filter(a, p) + Filter(b, p)
    decreases |b|
  {
    if b == [] {
      assert a + b == a;
    } else {
      assert (a + b)[..|a + b| - 1] == a + b[..|b| - 1];
      FilterAppend(a, b[..|b| - 1], p);
    }
  }

  /** A filter every element passes keeps the whole list. */
  lemma {:induction false} FilterAll<T(!new)>(s: seq<T>, p: T -> bool)
    requires forall i :: 0 <= i < |s| ==> p(s[i])
    ensures Filter(s, p) == s
  {
    if s != [] {
      var init := s[..|s| - 1];
      forall i | 0 <= i < |init| ensures p(init[i]) {
        assert init[i] == s[i];
      }
      FilterAll(init, p);
      assert s == init + [s[|s| - 1]];
    }
  }

  /** Filtering twice is filtering once by both conditions. */
  lemma {:induction false} FilterFilter<T(!new)>(s: seq<T>, p: T -> bool, q: T -> bool, both: T -> bool)
    requires forall x :: both(x) == (p(x) && q(x))
    ensures Filter(Filter(s, p), q) == Filter(s, both)
  {
    if s != [] {
      var init, last := s[..|s| - 1], s[|s| - 1];
      FilterFilter(init, p, q, both);
      var kept := if p(last) then [last] else [];
      FilterAppend(Filter(init, p), kept, q);
      assert Filter(kept, q) == if p(last) && q(last) then [last] else [] by {
        if p(last) {
          assert kept[..0] == [];
        }
      }
    }
  }

  /** A filter that rejects exactly the element at `k` is `remove(at: k)`. */
  lemma FilterDropsOne<T(!new)>(s: seq<T>, k: nat, p: T -> bool)
    requires k < |s| && !p(s[k])
    requires forall i :: 0 <= i < |s| && i != k ==> p(s[i])
    ensures Filter(s, p) == RemoveAt(s, k)
  {
    FilterUpTo(s, k, p);
    FilterAllSlice(s, k + 1, |s|, p);
    assert s[k + 1..|s|] == s[k + 1..];
    FilterSplitAt(s, k, p);
  }

  lemma FilterUpTo<T(!new)>(s: seq<T>, k: nat, p: T -> bool)
    requires k < |s| && !p(s[k])
    requires forall i :: 0 <= i < k ==> p(s[i])
    ensures Filter(s[..k + 1], p) == s[..k]
  {
    FilterAllSlice(s, 0, k, p);
    assert s[..k + 1][..k] == s[0..k] == s[..k];
  }

  lemma FilterSplitAt<T(!new)>(s: seq<T>, k: nat, p: T -> bool)
    requires k < |s|
    requires Filter(s[..k + 1], p) == s[..k]
    requires Filter(s[k + 1..], p) == s[k + 1..]
    ensures Filter(s, p) == RemoveAt(s, k)
  {
    assert s == s[..k + 1] + s[k + 1..];
    FilterAppend(s[..k + 1], s[k + 1..], p);
  }

  lemma FilterAllSlice<T(!new)>(s: seq<T>, lo: nat, hi: nat, p: T -> bool)
    requires lo <= hi <= |s|
    requires forall i :: lo <= i < hi ==> p(s[i])
    ensures Filter(s[lo..hi], p) == s[lo..hi]
  {
    var t := s[lo..hi];
    forall i | 0 <= i < |t| ensures p(t[i]) {
      assert t[i] == s[lo + i];
    }
    FilterAll(t, p);
  }

  /** `firstIndex(where: p)` followed by an assignment at that index: the first element satisfying
      `p` becomes `x` and every other position is kept; with no such element nothing changes. */
  function ReplaceFirst<T>(s: seq<T>, p: T -> bool, x: T): (r: seq<T>)
    ensures |r| == |s|
    ensures (forall i :: 0 <= i < |s| ==> !p(s[i])) ==> r == s
    ensures forall k :: 0 <= k < |s| && p(s[k]) && (forall i :: 0 <= i < k ==> !p(s[i])) ==>
      r[k] == x && forall i :: 0 <= i < |s| && i != k ==> r[i] == s[i]
  {
    var index := FirstIndexWhere(s, p);
    if index.Some? then s[index.value := x] else s
  }
}

=== FILE: numeric.dfy ===
/** Swift and Foundation numeric operations written out over exact integers and reals. */
module Numeric {

  function Abs(x: real): (r: real)
    ensures r >= 0.0 && (r == x || r == -x)
  {
    if x < 0.0 then -x else x
  }

  /** Swift's `max` on `Double`. */
  function MaxReal(a: real, b: real): (r: real)
    ensures r >= a && r >= b && (r == a || r == b)
  {
    if a >= b then a else b
  }

  /** Swift's `max` on `Int`: the same definition as `MaxReal`, needed again because Dafny has no
      common type for `int` and `real`. */
  function MaxInt(a: int, b: int): (r: int)
    ensures r >= a && r >= b && (r == a || r == b)
  {
    if a >= b then a else b
  }

  /** Swift's `Int(x)` for a Double: truncation toward zero. */
  function Trunc(x: real): (n: int)
    ensures x >= 0.0 ==> 0 <= n && n as real <= x < n as real + 1.0
    ensures x < 0.0 ==> n <= 0 && n as real - 1.0 < x <= n as real
  {
    if x >= 0.0 then x.Floor else -((-x).Floor)
  }

  /** Foundation's `ceil`: the least integer not below x. */
  function Ceil(x: real): (n: int)
    ensures n as real - 1.0 < x <= n as real
  {
    -((-x).Floor)
  }

  /** The integer nearest t; an exact tie goes to the even one. */
  function NearestInt(t: real): (n: int)
    ensures n as real - 0.5 <= t <= n as real + 0.5
    ensures t.Floor as real == t ==> n as real == t
  {
    var f := t.Floor;
    if t - f as real < 0.5 then f
    else if t - f as real > 0.5 then f + 1
    else if f % 2 == 0 then f else f + 1
  }

  /** The value `String(format: "%.1f", x)` denotes: a whole number of tenths within half
    * a tenth of x. An exact tie goes to the even tenth, as printf does for a Double whose
    * binary value is the tie. */
  function Round1(x: real): (r: real)
    ensures (r * 10.0).Floor as real == r * 10.0
    ensures x - 0.05 <= r <= x + 0.05
    ensures (x * 10.0).Floor as real == x * 10.0 ==> r == x
  {
    var n := NearestInt(x * 10.0);
    assert (n as real / 10.0) * 10.0 == n as real;
    n as real / 10.0
  }

  /** 135.25 is a tie and goes down to the even tenth 135.2. */
  lemma ExampleRound1Tie()
    ensures Round1(135.25) == 135.2
  {
    assert (135.25 * 10.0).Floor == 1352;
  }

  /** Swift's `/` on Int, which truncates toward zero (Dafny's `/` is Euclidean). */
  function SwiftDiv(a: int, b: int): (q: int)
    requires b > 0
    ensures a >= 0 ==> q == a / b
    ensures a < 0 ==> q == -((-a) / b)
  {
    if a >= 0 then a / b else -((-a) / b)
  }

  /** Swift's `%` on Int: the remainder takes the sign of the dividend. */
  function SwiftRem(a: int, b: int): (r: int)
    requires b > 0
    ensures SwiftDiv(a, b) * b + r == a
    ensures a >= 0 ==> 0 <= r < b
    ensures a < 0 ==> -b < r <= 0
  {
    if a >= 0 then a % b else -((-a) % b)
  }

  /** `reduce(0, +)` over a list of Doubles, folding from the left. */
  function Sum(s: seq<real>): real
  {
    if s == [] then 0.0 else Sum(s[..|s| - 1]) + s[|s| - 1]
  }

  lemma {:induction false} SumAppend(a: seq<real>, b: seq<real>)
    ensures Sum(a + b) == Sum(a) + Sum(b)
    decreases |b|
  {
    if b == [] {
      assert a + b == a;
    } else {
      var b' := b[..|b| - 1];
      assert (a + b)[..|a + b| - 1] == a + b';
      SumAppend(a, b');
    }
  }

  lemma SumSingle(x: real)
    ensures Sum([x]) == x
  {
    assert [x][..0] == [];
  }

  /** `Array(repeating: x, count: n)`. */
  function Repeat(x: real, n: nat): (r: seq<real>)
    ensures |r| == n && forall i :: 0 <= i < n ==> r[i] == x
  {
    seq(n, _ => x)
  }

  lemma {:induction false} SumRepeat(x: real, n: nat)
    ensures Sum(Repeat(x, n)) == n as real * x
  {
    if n > 0 {
      assert Repeat(x, n)[..n - 1] == Repeat(x, n - 1);
      SumRepeat(x, n - 1);
    }
  }
}

=== FILE: plate_calc_section.dfy ===
/** The plate breakdown of the calculator screen ("Each side: 2 × 45, 1 × 25, 1 × 10"): the
    displayed plates grouped by weight, counted, sorted by weight descending and rendered as text. */
module PlateBreakdown {
  import opened Text
  import Numeric

  /** One group of the breakdown: a weight and how many plates of it are on one side. */
  datatype Entry = Entry(weight: real, count: nat)

  /** The heaviest plate of a non-empty list. */
  function MaxOf(s: seq<real>): (m: real)
    requires s != []
    ensures m in s && forall k :: 0 <= k < |s| ==> s[k] <= m
  {
    if |s| == 1 then s[0]
    else
      var m := MaxOf(s[1..]);
      assert forall k :: 1 <= k < |s| ==> s[k] == s[1..][k - 1];
      if s[0] >= m then s[0] else m
  }

  /** The list without any plate of weight `w`. */
  function RemoveAll(s: seq<real>, w: real): (r: seq<real>)
    ensures multiset(r) == multiset(s)[w := 0]
    ensures |r| + multiset(s)[w] == |s|
  {
    if s == [] then []
    else
      assert s == s[..|s| - 1] + [s[|s| - 1]];
      RemoveAll(s[..|s| - 1], w) + (if s[|s| - 1] == w then [] else [s[|s| - 1]])
  }

  /** Sum of the counts of a breakdown. */
  function TotalCount(r: seq<Entry>): nat
  {
    if r == [] then 0 else r[0].count + TotalCount(r[1..])
  }

  /** Strictly heaviest first. */
  predicate Descending(r: seq<Entry>)
  {
    forall i, j :: 0 <= i < j < |r| ==> r[i].weight > r[j].weight
  }

  lemma ConsDescending(e: Entry, tail: seq<Entry>)
    requires Descending(tail) && forall i :: 0 <= i < |tail| ==> tail[i].weight < e.weight
    ensures Descending([e] + tail)
  {
    var r := [e] + tail;
    forall i, j | 0 <= i < j < |r| ensures r[i].weight > r[j].weight {
      assert r[j] == tail[j - 1];
      if i > 0 {
        assert r[i] == tail[i - 1];
      }
    }
  }

  /** Each entry counts the occurrences of its weight, and occurs at least once. */
  predicate CountsOf(r: seq<Entry>, s: seq<real>)
  {
    forall i :: 0 <= i < |r| ==> r[i].count == multiset(s)[r[i].weight] && r[i].count >= 1
  }

  /** Every plate's weight has an entry. */
  predicate Covers(r: seq<Entry>, s: seq<real>)
  {
    forall k :: 0 <= k < |s| ==> exists i :: 0 <= i < |r| && r[i].weight == s[k]
  }

  /** Every weight left after taking out the heaviest one is lighter than it. */
  lemma RestBelowMax(s: seq<real>, m: real, rest: seq<real>)
    requires s != [] && m == MaxOf(s) && rest == RemoveAll(s, m)
    ensures forall k :: 0 <= k < |rest| ==> rest[k] < m
  {
    forall k | 0 <= k < |rest| ensures rest[k] < m {
      var x := rest[k];
      assert x in multiset(rest);
      assert multiset(s)[x] > 0;
      assert x in s;
      var j :| 0 <= j < |s| && s[j] == x;
      assert multiset(rest)[m] == 0;
      assert x != m;
    }
  }

  /** The entries for the lighter plates keep their counts and are lighter than the heaviest. */
  lemma TailEntries(s: seq<real>, m: real, rest: seq<real>, tail: seq<Entry>)
    requires s != [] && m == MaxOf(s) && rest == RemoveAll(s, m) && CountsOf(tail, rest)
    ensures CountsOf(tail, s)
    ensures forall i :: 0 <= i < |tail| ==> tail[i].weight < m
  {
    RestBelowMax(s, m, rest);
    forall i | 0 <= i < |tail| ensures tail[i].weight < m && tail[i].count == multiset(s)[tail[i].weight] {
      assert tail[i].weight in multiset(rest);
      assert tail[i].weight in rest;
      var j :| 0 <= j < |rest| && rest[j] == tail[i].weight;
    }
  }

  lemma ConsCovers(s: seq<real>, m: real, rest: seq<real>, tail: seq<Entry>, c: nat)
    requires rest == RemoveAll(s, m) && Covers(tail, rest)
    ensures Covers([Entry(m, c)] + tail, s)
  {
    var r := [Entry(m, c)] + tail;
    forall k | 0 <= k < |s| ensures exists i :: 0 <= i < |r| && r[i].weight == s[k] {
      if s[k] == m {
        assert r[0].weight == s[k];
      } else {
        assert s[k] in multiset(s);
        assert s[k] in multiset(rest);
        assert s[k] in rest;
        var j :| 0 <= j < |rest| && rest[j] == s[k];
        var i :| 0 <= i < |tail| && tail[i].weight == rest[j];
        assert r[i + 1].weight == s[k];
      }
    }
  }

  /** The entry of the heaviest weight followed by the breakdown of the rest is a breakdown. */
  lemma BreakdownStep(s: seq<real>, m: real, rest: seq<real>, tail: seq<Entry>)
    requires s != [] && m == MaxOf(s) && rest == RemoveAll(s, m)
    requires CountsOf(tail, rest) && Descending(tail) && Covers(tail, rest) && TotalCount(tail) == |rest|
    ensures CountsOf([Entry(m, multiset(s)[m])] + tail, s)
    ensures Descending([Entry(m, multiset(s)[m])] + tail)
    ensures Covers([Entry(m, multiset(s)[m])] + tail, s)
    ensures TotalCount([Entry(m, multiset(s)[m])] + tail) == |s|
  {
    var r := [Entry(m, multiset(s)[m])] + tail;
    assert r[1..] == tail;
    assert m in multiset(s);
    TailEntries(s, m, rest, tail);
    ConsDescending(r[0], tail);
    ConsCovers(s, m, rest, tail, multiset(s)[m]);
  }

  /** `Dictionary(grouping:)`, `mapValues { $0.count }` and `sorted { $0.key > $1.key }`: one entry
      per distinct weight, heaviest first, each counting the occurrences of its weight (at least
      one); every plate's weight has an entry and the counts add up to the number of plates. */
  function Breakdown(s: seq<real>): (r: seq<Entry>)
    ensures CountsOf(r, s) && Descending(r) && Covers(r, s)
    ensures TotalCount(r) == |s|
    decreases |s|
  {
    if s == [] then []
    else
      var m := MaxOf(s);
      var rest := RemoveAll(s, m);
      assert m in multiset(s);
      var tail := Breakdown(rest);
      BreakdownStep(s, m, rest, tail);
      [Entry(m, multiset(s)[m])] + tail
  }

  /** Weights are distinct, so no two entries share a weight. */
  lemma BreakdownDistinct(s: seq<real>)
    ensures forall i, j :: 0 <= i < |Breakdown(s)| && 0 <= j < |Breakdown(s)| && i != j ==>
      Breakdown(s)[i].weight != Breakdown(s)[j].weight
  {
  }

  /** `formatWeight`: integral weights without decimals, others with one decimal. */
  function FormatWeight(w: real): (t: string)
    ensures w.Floor as real == w ==> t == IntToString(w.Floor)
  {
    if w.Floor as real == w then IntToString(w.Floor) else OneDecimal(w)
  }

  /** `formatPlateWeight`: 2.5 and 1.25 spelled out, integral weights without decimals, others with
      one decimal. */
  function FormatPlateWeight(w: real): (t: string)
    ensures w == 2.5 ==> t == "2.5"
    ensures w == 1.25 ==> t == "1.25"
    ensures w != 2.5 && w != 1.25 ==> t == FormatWeight(w)
    ensures ',' !in t
  {
    if w == 2.5 then "2.5"
    else if w == 1.25 then "1.25"
    else FormatWeight(w)
  }

  /** `String(format: "%.1f", w)`: the weight rounded to a whole number of tenths (`Numeric.Round1`)
      and written with one decimal. */
  function OneDecimal(w: real): (t: string)
    ensures ',' !in t && |t| >= 3 && t[|t| - 2] == '.'
  {
    var tenths := (Numeric.Round1(Numeric.Abs(w)) * 10.0).Floor;
    var body := NatToString(tenths / 10) + "." + [DigitChar(tenths % 10)];
    NoComma(NatToString(tenths / 10));
    if w < 0.0 then "-" + body else body
  }

  lemma NoComma(s: string)
    requires AllDigits(s)
    ensures ',' !in s
  {
    forall i | 0 <= i < |s| ensures s[i] != ',' {
      assert IsDigit(s[i]);
    }
  }

  /** "count × weight". */
  function EntryText(e: Entry): (t: string)
    ensures ',' !in t
  {
    NoComma(NatToString(e.count));
    NatToString(e.count) + " × " + FormatPlateWeight(e.weight)
  }

  /** `joined(separator: ", ")`. */
  function JoinEntries(r: seq<Entry>): string
  {
    if r == [] then "" else if |r| == 1 then EntryText(r[0]) else EntryText(r[0]) + ", " + JoinEntries(r[1..])
  }

  /** The text's fixed start. */
  const EachSide: string := "Each side: "

  /** "Each side: " followed by the entries, which are separated by exactly one comma each: for a
      non-empty plate list the text holds one comma fewer than there are distinct weights. */
  function BreakdownText(s: seq<real>): (t: string)
    ensures |t| >= |EachSide| && t[..|EachSide|] == EachSide
    ensures s != [] ==> CountChar(t, ',') == |Breakdown(s)| - 1
  {
    BreakdownTextEntries(s);
    EachSide + JoinEntries(Breakdown(s))
  }

  /** The entries of the text are separated by `|r| - 1` commas: every comma is a separator. */
  lemma {:induction false} JoinEntriesCommas(r: seq<Entry>)
    requires r != []
    ensures CountChar(JoinEntries(r), ',') == |r| - 1
  {
    CountCharAbsent(EntryText(r[0]), ',');
    if |r| > 1 {
      JoinEntriesCommas(r[1..]);
      CountCharAppend(EntryText(r[0]), ", ", ',');
      CountCharAppend(EntryText(r[0]) + ", ", JoinEntries(r[1..]), ',');
      assert CountChar(", ", ',') == 1 by {
        assert ", "[..1] == ",";
        assert ","[..0] == [];
      }
    }
  }

  lemma {:induction false} TextCommas(r: seq<Entry>)
    requires r != []
    ensures CountChar(EachSide + JoinEntries(r), ',') == |r| - 1
  {
    JoinEntriesCommas(r);
    CountCharAppend(EachSide, JoinEntries(r), ',');
    CountCharAbsent(EachSide, ',');
  }

  /** The text has one entry per distinct weight. */
  lemma BreakdownTextEntries(s: seq<real>)
    ensures s != [] ==> CountChar(EachSide + JoinEntries(Breakdown(s)), ',') == |Breakdown(s)| - 1
  {
    if s != [] {
      var r := Breakdown(s);
      assert exists i :: 0 <= i < |r| && r[i].weight == s[0];
      TextCommas(r);
    }
  }

  /** The list the breakdown describes: calculated plates in input mode, selected plates in
      reverse mode; the section shows the breakdown only when that list is not empty. */
  function DisplayedPlates(inputMode: bool, calculated: seq<real>, selected: seq<real>): seq<real>
  {
    if inputMode then calculated else selected
  }

  predicate ShowsBreakdown(inputMode: bool, calculated: seq<real>, selected: seq<real>)
  {
    DisplayedPlates(inputMode, calculated, selected) != []
  }

  /** The breakdown is shown exactly when it has at least one entry. */
  lemma ShownIffEntries(inputMode: bool, calculated: seq<real>, selected: seq<real>)
    ensures ShowsBreakdown(inputMode, calculated, selected)
      <==> Breakdown(DisplayedPlates(inputMode, calculated, selected)) != []
  {
    var s := DisplayedPlates(inputMode, calculated, selected);
    if s != [] {
      assert s[0] in s;
    }
  }

  lemma ExampleEntries()
    ensures EntryText(Entry(45.0, 2)) == "2 × 45"
    ensures EntryText(Entry(25.0, 1)) == "1 × 25"
    ensures EntryText(Entry(10.0, 1)) == "1 × 10"
  {
    assert NatToString(45) == NatToString(4) + [DigitChar(5)];
    assert NatToString(25) == NatToString(2) + [DigitChar(5)];
    assert NatToString(10) == NatToString(1) + [DigitChar(0)];
    assert 45.0.Floor == 45 && 25.0.Floor == 25 && 10.0.Floor == 10;
  }

  /** The last two entries of the example below. */
  lemma ExampleJoinTail()
    ensures JoinEntries([Entry(25.0, 1), Entry(10.0, 1)]) == "1 × 25, 1 × 10"
  {
    ExampleEntries();
    var r := [Entry(25.0, 1), Entry(10.0, 1)];
    assert r[1..] == [Entry(10.0, 1)];
    assert JoinEntries(r) == "1 × 25" + ", " + "1 × 10";
  }

  /** The rendering of the example in the source comment: two 45s, a 25 and a 10 per side. */
  lemma ExampleJoin()
    ensures JoinEntries([Entry(45.0, 2), Entry(25.0, 1), Entry(10.0, 1)]) == "2 × 45, 1 × 25, 1 × 10"
  {
    ExampleEntries();
    ExampleJoinTail();
    var r := [Entry(45.0, 2), Entry(25.0, 1), Entry(10.0, 1)];
    assert r[1..] == [Entry(25.0, 1), Entry(10.0, 1)];
    assert JoinEntries(r) == "2 × 45" + ", " + "1 × 25, 1 × 10";
  }
}

=== FILE: plate_calculator_view.dfy ===
/** The stand-alone plate calculator screen: its own copy of the target/bar fields, the input and
    reverse modes, the unit toggle, and `reducePlateCount`, which trades groups of small plates for
    one larger plate. */
module PlateCalculator {
  import opened Wrappers
  import opened Numeric
  import opened Plates

  /** `CalculatorMode`: plates computed from a target, or plates picked by hand. */
  datatype CalculatorMode = Input | Reverse

  class PlateCalculatorView {
    var targetWeight: Option<real>
    var barWeight: Option<real>
    var isKgMode: bool
    var result: seq<real>
    var mode: CalculatorMode
    var selectedPlates: seq<real>

    /** Target "0", bar "45", pounds, input mode, nothing loaded. */
    constructor()
      ensures targetWeight == Some(0.0) && barWeight == Some(45.0) && !isKgMode
      ensures result == [] && mode == Input && selectedPlates == []
      ensures Consistent()
    {
      targetWeight := Some(0.0);
      barWeight := Some(45.0);
      isKgMode := false;
      result := [];
      mode := Input;
      selectedPlates := [];
    }

    /** `result` is what `calculate()` gives for the current fields; every handler that touches a
        field `calculate()` reads restores this. */
    predicate Consistent()
      reads this
    {
      result == PlatesFor(targetWeight, barWeight, Registry(isKgMode))
    }

    /** `calculatedWeight()`: the plates of the current mode on both sides plus the bar, a bar that
        does not parse counting as 0. */
    function CalculatedWeight(): real
      reads this
    {
      LoadedTotal(if mode == Input then result else selectedPlates, barWeight.GetOr(0.0))
    }

    /** `calculate()`. */
    method Calculate()
      modifies this`result
      ensures result == PlatesFor(targetWeight, barWeight, Registry(isKgMode))
      ensures Consistent()
    {
      if targetWeight.None? || barWeight.None? || targetWeight.value <= barWeight.value {
        result := [];
        return;
      }
      result := GreedyLoad(targetWeight.value, barWeight.value, Registry(isKgMode));
    }

    /** `convertUnits(toKg:)`: in input mode any target that parses (with no check that it is
        positive) is converted and rounded up to one decimal; the bar is reset either way. */
    method ConvertUnits(toKg: bool)
      modifies this`targetWeight, this`barWeight
      ensures barWeight == Some(if toKg then 20.0 else 45.0)
      ensures mode == Input && old(targetWeight).Some? ==>
        targetWeight == Some(ConvertTarget(old(targetWeight).value, toKg))
      ensures !(mode == Input && old(targetWeight).Some?) ==> targetWeight == old(targetWeight)
    {
      if mode == Input && targetWeight.Some? {
        targetWeight := Some(ConvertTarget(targetWeight.value, toKg));
      }
      barWeight := if toKg then Some(20.0) else Some(45.0);
    }

    /** `convertSelectedPlates(toKg:)`: each selected plate converted and snapped to the nearest plate
        of the registry of the new unit. */
    method ConvertSelectedPlates(toKg: bool)
      modifies this`selectedPlates
      ensures selectedPlates == ConvertPlates(old(selectedPlates), toKg)
    {
      selectedPlates := ConvertPlates(selectedPlates, toKg);
    }

    /** The "Use KG mode" toggle: convert the selected plates in reverse mode only, always convert
        the fields, then switch unit and recalculate. */
    method SetKgMode(newValue: bool)
      modifies this`targetWeight, this`barWeight, this`selectedPlates, this`isKgMode, this`result
      ensures isKgMode == newValue && barWeight == Some(if newValue then 20.0 else 45.0)
      ensures mode == Reverse ==> selectedPlates == ConvertPlates(old(selectedPlates), newValue)
      ensures mode == Input ==> selectedPlates == old(selectedPlates)
      ensures mode == Input && old(targetWeight).Some? ==>
        targetWeight == Some(ConvertTarget(old(targetWeight).value, newValue))
      ensures !(mode == Input && old(targetWeight).Some?) ==> targetWeight == old(targetWeight)
      ensures Consistent()
    {
      ConvertForUnit(newValue);
      isKgMode := newValue;
      Calculate();
    }

    /** The conversions the toggle makes before switching: the selected plates in reverse mode, the
        fields always. */
    method ConvertForUnit(toKg: bool)
      modifies this`targetWeight, this`barWeight, this`selectedPlates
      ensures barWeight == Some(if toKg then 20.0 else 45.0)
      ensures mode == Reverse ==> selectedPlates == ConvertPlates(old(selectedPlates), toKg)
      ensures mode == Input ==> selectedPlates == old(selectedPlates)
      ensures mode == Input && old(targetWeight).Some? ==>
        targetWeight == Some(ConvertTarget(old(targetWeight).value, toKg))
      ensures !(mode == Input && old(targetWeight).Some?) ==> targetWeight == old(targetWeight)
    {
      if mode == Reverse {
        ConvertSelectedPlates(toKg);
      }
      ConvertUnits(toKg);
    }

    /** Editing the target field recalculates (`onChange(of: targetWeight)`). */
    method SetTargetWeight(target: Option<real>)
      modifies this`targetWeight, this`result
      ensures targetWeight == target && Consistent()
    {
      targetWeight := target;
      Calculate();
    }

    /** Editing the bar field recalculates (`onChange(of: barWeight)`). */
    method SetBarWeight(bar: Option<real>)
      modifies this`barWeight, this`result
      ensures barWeight == bar && Consistent()
    {
      barWeight := bar;
      Calculate();
    }

    /** The mode picker: a change to reverse starts from an empty selection. */
    method SetMode(newMode: CalculatorMode)
      modifies this`mode, this`selectedPlates
      ensures mode == newMode
      ensures old(mode) != Reverse && newMode == Reverse ==> selectedPlates == []
      ensures !(old(mode) != Reverse && newMode == Reverse) ==> selectedPlates == old(selectedPlates)
    {
      if newMode != mode {
        mode := newMode;
        if newMode == Reverse {
          selectedPlates := [];
        }
      }
    }

    /** "Clear All Plates". */
    method ClearAllPlates()
      modifies this`selectedPlates
      ensures selectedPlates == []
    {
      selectedPlates := [];
    }
  }

  /** Whenever the result is up to date in input mode and the target is above a bar that parses,
      the displayed weight is the target to within the remainder tolerance below and less than two
      smallest plates above. */
  lemma ConsistentWeightBounds(view: PlateCalculatorView)
    requires view.Consistent() && view.mode == Input
    requires view.targetWeight.Some? && view.barWeight.Some? && view.targetWeight.value > view.barWeight.value
    ensures view.targetWeight.value - 2.0 * RemainderEpsilon <= view.CalculatedWeight()
    ensures view.CalculatedWeight() < view.targetWeight.value + 2.0 * Last(Registry(view.isKgMode))
  {
    DecomposeBounds(view.targetWeight.value, view.barWeight.value, Registry(view.isKgMode));
  }

  /** A larger plate is worth at least one smaller one: `Int(larger / smaller) >= 1`, and never
      more than the larger plate. */
  lemma NeededPositive(larger: real, smaller: real)
    requires larger > smaller > 0.0
    ensures 1 <= Trunc(larger / smaller)
    ensures Trunc(larger / smaller) as real * smaller <= larger
  {
    var q := larger / smaller;
    assert q * smaller == larger;
    assert (q - 1.0) * smaller == larger - smaller;
    assert q >= 1.0;
    var n := Trunc(q);
    assert n as real * smaller <= q * smaller;
  }

  /** Taking `k` copies of `x` out of a multiset shrinks it by `k`. */
  lemma TakeCopies(m: multiset<real>, x: real, k: nat)
    requires k <= m[x]
    ensures |m[x := m[x] - k]| + k == |m|
  {
    var rest := m[x := m[x] - k];
    var copies := multiset(Repeat(x, k));
    RepeatCopies(x, k);
    assert rest + copies == m;
    assert |copies| == k;
  }

  /** Adding one copy of `x` grows a multiset by one. */
  lemma AddCopy(m: multiset<real>, x: real)
    ensures |m[x := m[x] + 1]| == |m| + 1
  {
    assert m[x := m[x] + 1] == m + multiset{x};
  }

  /** A multiset with a positive size holds something. */
  lemma NonEmptyHasPlate(m: multiset<real>)
    requires |m| > 0
    ensures exists x :: x in m
  {
    if forall x :: x !in m {
      assert false;
    }
  }

  /** The copies in `Repeat(x, n)`. */
  lemma {:induction false} RepeatCopies(x: real, n: nat)
    ensures multiset(Repeat(x, n)) == multiset{}[x := n]
  {
    if n > 0 {
      RepeatCopies(x, n - 1);
      assert Repeat(x, n) == Repeat(x, n - 1) + [x];
    }
  }

  /** Each plate's copies stand together: nothing else comes between two copies of one plate. */
  predicate CopiesTogether(r: seq<real>)
  {
    forall i, j, k :: 0 <= i < j < k < |r| && r[i] == r[k] ==> r[j] == r[i]
  }

  /** Appending a run of a plate not yet present keeps every plate's copies together. */
  lemma AppendRun(r: seq<real>, p: real, n: nat)
    requires CopiesTogether(r) && p !in r
    ensures CopiesTogether(r + Repeat(p, n))
  {
    var t := r + Repeat(p, n);
    forall i, j, k | 0 <= i < j < k < |t| && t[i] == t[k]
      ensures t[j] == t[i]
    {
      if k < |r| {
        assert t[i] == r[i] && t[j] == r[j] && t[k] == r[k];
      } else if j >= |r| {
        assert t[j] == p && t[k] == p;
      } else {
        assert false;
      }
    }
  }

  /** `flatMap { plate, count in Array(repeating: plate, count: count) }` over the counts: every
      plate's copies together, the plates in an order the dictionary does not fix. */
  method Flatten(counts: multiset<real>) returns (r: seq<real>)
    ensures multiset(r) == counts
    ensures CopiesTogether(r)
  {
    r := [];
    var rest := counts;
    while |rest| > 0
      invariant multiset(r) + rest == counts
      invariant CopiesTogether(r)
      invariant forall i :: 0 <= i < |r| ==> r[i] !in rest
      decreases |rest|
    {
      NonEmptyHasPlate(rest);
      var p :| p in rest;
      RepeatCopies(p, rest[p]);
      TakeCopies(rest, p, rest[p]);
      AppendRun(r, p, rest[p]);
      r := r + Repeat(p, rest[p]);
      rest := rest[p := 0];
    }
  }

  /** `reducePlateCount(_:availablePlates:)`: for each plate from the smallest up, and each larger
      plate from the next one up, trade `Int(larger / smaller)` of the smaller plate for one larger
      plate while enough are left. It stops (each trade uses up at least one plate) because the
      registry is positive and strictly descending, and it never adds plates: the result holds no
      more plates than the input and nothing that is neither an input plate nor a registry plate. */
  method ReducePlateCount(platesUsed: seq<real>, availablePlates: seq<real>) returns (r: seq<real>)
    requires Registered(availablePlates)
    ensures |r| <= |platesUsed|
    ensures forall p :: p in r ==> p in platesUsed || p in availablePlates
  {
    var counts := multiset(platesUsed);
    var n := |availablePlates|;
    for i := 0 to n
      invariant |counts| <= |platesUsed|
      invariant forall p :: p in counts ==> p in platesUsed || p in availablePlates
    {
      var smaller := availablePlates[n - 1 - i];
      var j := n - 1 - i;
      while j > 0
        invariant 0 <= j <= n - 1 - i
        invariant |counts| <= |platesUsed|
        invariant forall p :: p in counts ==> p in platesUsed || p in availablePlates
      {
        j := j - 1;
        var larger := availablePlates[j];
        NeededPositive(larger, smaller);
        var needed := Trunc(larger / smaller);
        while counts[smaller] >= needed
          invariant |counts| <= |platesUsed|
          invariant forall p :: p in counts ==> p in platesUsed || p in availablePlates
          decreases counts[smaller]
        {
          TakeCopies(counts, smaller, needed);
          counts := counts[smaller := counts[smaller] - needed];
          AddCopy(counts, larger);
          counts := counts[larger := counts[larger] + 1];
        }
      }
    }
    r := Flatten(counts);
  }
}

=== FILE: plates.dfy ===
/** The plate registries and the plate arithmetic shared by the plate calculator screens:
    greedy decomposition of a target weight into per-side plates, the loaded total,
    unit conversion of a target weight and snapping a converted plate to the nearest registry plate. */
module Plates {
  import opened Wrappers
  import opened Numeric

  const LbPlates: seq<real> := [45.0, 35.0, 25.0, 10.0, 5.0, 2.5]
  const KgPlates: seq<real> := [25.0, 20.0, 15.0, 10.0, 5.0, 2.5, 1.25]

  /** Pounds per kilogram, as the plate calculator uses it. */
  const ConversionFactor: real := 2.20462

  /** A remainder per side above this gets one extra smallest plate. */
  const RemainderEpsilon: real := 0.01

  /** `availablePlates`: the registry of the active unit. */
  function Registry(isKg: bool): (r: seq<real>)
    ensures Registered(r) && |r| >= 1
    ensures isKg ==> r[|r| - 1] == 1.25
    ensures !isKg ==> r[|r| - 1] == 2.5
  {
    if isKg then KgPlates else LbPlates
  }

  predicate AllPositive(plates: seq<real>) { forall i :: 0 <= i < |plates| ==> plates[i] > 0.0 }

  predicate StrictlyDescending(plates: seq<real>)
  {
    forall i, j :: 0 <= i < j < |plates| ==> plates[i] > plates[j]
  }

  predicate NonIncreasing(s: seq<real>)
  {
    forall i, j :: 0 <= i < j < |s| ==> s[i] >= s[j]
  }

  /** What the greedy algorithm relies on: positive plates, largest first. */
  predicate Registered(plates: seq<real>) { AllPositive(plates) && StrictlyDescending(plates) }

  function Last(plates: seq<real>): real
    requires plates != []
  {
    plates[|plates| - 1]
  }

  /** `totalWeight` / `calculatedWeight()`: both sides of the bar plus the bar. */
  function LoadedTotal(perSide: seq<real>, bar: real): real
  {
    Sum(perSide) * 2.0 + bar
  }

  /** One step of the loop: how many copies of `plate` fit in what is left of one side. */
  lemma FitStep(rest: real, plate: real)
    requires rest >= 0.0 && plate > 0.0
    ensures var c := Trunc(rest / plate);
      c >= 0 && 0.0 <= rest - c as real * plate < plate
  {
    var q := rest / plate;
    var c := Trunc(q);
    var d := q - c as real;
    assert 0.0 <= d < 1.0;
    assert q * plate == rest;
    assert rest - c as real * plate == d * plate;
    assert d * plate >= 0.0;
    assert plate - d * plate == (1.0 - d) * plate;
    assert (1.0 - d) * plate > 0.0;
    assert d * plate < plate;
    assert c >= 0 && 0.0 <= rest - c as real * plate < plate;
  }

  /** `Int(remaining / plate)`: how many copies of a plate fit in what is left of one side. */
  function FitCount(rest: real, plate: real): (c: nat)
    requires rest >= 0.0 && plate > 0.0
    ensures c as real * plate <= rest
  {
    FitStep(rest, plate);
    Trunc(rest / plate)
  }

  /** What is left of one side after loading `FitCount` copies of a plate: below that plate. */
  function Leftover(rest: real, plate: real): (r: real)
    requires rest >= 0.0 && plate > 0.0
    ensures 0.0 <= r < plate && r <= rest
  {
    FitStep(rest, plate);
    rest - FitCount(rest, plate) as real * plate
  }

  /** The copies loaded and what is left make up the whole side. */
  lemma LoadPlusLeftover(rest: real, plate: real)
    requires rest >= 0.0 && plate > 0.0
    ensures Sum(Repeat(plate, FitCount(rest, plate))) + Leftover(rest, plate) == rest
  {
    var c := FitCount(rest, plate);
    SumRepeat(plate, c);
    assert Leftover(rest, plate) == rest - c as real * plate;
  }

  lemma LeftoverOfFit(rest: real, plate: real, count: int)
    requires rest >= 0.0 && plate > 0.0 && count == FitCount(rest, plate)
    ensures Leftover(rest, plate) == (if count > 0 then rest - count as real * plate else rest)
  {
  }

  /** The greedy pass over the first `n` plates of the registry: the plates loaded on one side
      and what is left of it, which is never negative and, after a plate, below that plate. */
  function Loaded(rest: real, plates: seq<real>, n: nat): (g: (seq<real>, real))
    requires rest >= 0.0 && AllPositive(plates) && n <= |plates|
    ensures forall x :: x in g.0 ==> x in plates[..n]
    ensures Sum(g.0) + g.1 == rest
    ensures 0.0 <= g.1 <= rest
    ensures n > 0 ==> g.1 < plates[n - 1]
  {
    if n == 0 then ([], rest)
    else
      var prev := Loaded(rest, plates, n - 1);
      var plate := plates[n - 1];
      var head := Repeat(plate, FitCount(prev.1, plate));
      LoadPlusLeftover(prev.1, plate);
      SumAppend(prev.0, head);
      assert forall x :: x in plates[..n - 1] ==> x in plates[..n];
      (prev.0 + head, Leftover(prev.1, plate))
  }

  /** One more plate of the pass: its copies are loaded when at least one fits; otherwise
      nothing changes. */
  lemma LoadedStep(rest: real, plates: seq<real>, i: nat)
    requires rest >= 0.0 && AllPositive(plates) && i < |plates|
    ensures var prev := Loaded(rest, plates, i);
      var count := FitCount(prev.1, plates[i]);
      && (count > 0 ==> Loaded(rest, plates, i + 1) == (prev.0 + Repeat(plates[i], count), Leftover(prev.1, plates[i])))
      && (count == 0 ==> Loaded(rest, plates, i + 1) == prev)
  {
    var prev := Loaded(rest, plates, i);
    var count := FitCount(prev.1, plates[i]);
    if count == 0 {
      LeftoverOfFit(prev.1, plates[i], count);
      assert prev.0 + Repeat(plates[i], count) == prev.0;
    }
  }

  /** The whole greedy pass; the remainder is below the smallest plate. */
  function Greedy(rest: real, plates: seq<real>): (g: (seq<real>, real))
    requires rest >= 0.0 && AllPositive(plates)
    ensures forall x :: x in g.0 ==> x in plates
    ensures Sum(g.0) + g.1 == rest
    ensures 0.0 <= g.1 <= rest
    ensures plates != [] ==> g.1 < Last(plates)
  {
    assert plates[..|plates|] == plates;
    Loaded(rest, plates, |plates|)
  }

  /** The plates for one side when the target exceeds the bar: the greedy pass, plus one
      smallest plate if more than the epsilon is left over. */
  function Decompose(total: real, bar: real, plates: seq<real>): seq<real>
    requires total > bar && AllPositive(plates)
  {
    var g := Greedy((total - bar) / 2.0, plates);
    if g.1 > RemainderEpsilon && plates != [] then g.0 + [Last(plates)] else g.0
  }

  /** `calculatePlates()` / `calculate()`: nothing when either text does not parse or the
      target does not exceed the bar. */
  function PlatesFor(target: Option<real>, bar: Option<real>, plates: seq<real>): seq<real>
    requires AllPositive(plates)
  {
    if target.Some? && bar.Some? && target.value > bar.value then Decompose(target.value, bar.value, plates)
    else []
  }

  /** The loop of `calculatePlates()` and `calculate()`, proved to compute `Decompose`. */
  method GreedyLoad(total: real, bar: real, plates: seq<real>) returns (usedPlates: seq<real>)
    requires total > bar && AllPositive(plates)
    ensures usedPlates == Decompose(total, bar, plates)
  {
    var perSide := (total - bar) / 2.0;
    ghost var start := perSide;
    usedPlates := [];
    for i := 0 to |plates|
      invariant (usedPlates, perSide) == Loaded(start, plates, i)
    {
      var plate := plates[i];
      var count := FitCount(perSide, plate);
      LoadedStep(start, plates, i);
      if count > 0 {
        usedPlates := usedPlates + Repeat(plate, count);
        perSide := Leftover(perSide, plate);
      }
    }
    if perSide > RemainderEpsilon && |plates| > 0 {
      usedPlates := usedPlates + [plates[|plates| - 1]];
    }
  }

  /** Everything the decomposition loads comes from the registry. */
  lemma DecomposeFromRegistry(total: real, bar: real, plates: seq<real>)
    requires total > bar && AllPositive(plates)
    ensures forall x :: x in Decompose(total, bar, plates) ==> x in plates
  {
  }

  lemma {:induction false} LoadedNonIncreasing(rest: real, plates: seq<real>, n: nat)
    requires rest >= 0.0 && Registered(plates) && n <= |plates|
    ensures NonIncreasing(Loaded(rest, plates, n).0)
  {
    if n > 0 {
      var prev := Loaded(rest, plates, n - 1);
      var plate := plates[n - 1];
      LoadedNonIncreasing(rest, plates, n - 1);
      forall x | x in prev.0 ensures x >= plate {
        var k :| 0 <= k < n - 1 && plates[..n - 1][k] == x;
      }
      ConcatNonIncreasing(prev.0, Repeat(plate, FitCount(prev.1, plate)));
    }
  }

  lemma ConcatNonIncreasing(a: seq<real>, b: seq<real>)
    requires NonIncreasing(a) && NonIncreasing(b)
    requires forall x, y :: x in a && y in b ==> x >= y
    ensures NonIncreasing(a + b)
  {
    var r := a + b;
    forall i, j | 0 <= i < j < |r| ensures r[i] >= r[j] {
      if i < |a| && j >= |a| {
        assert r[i] in a && r[j] in b;
      }
    }
  }

  /** The decomposition is in registry order: non-increasing, the optional extra plate being
      the smallest one. */
  lemma DecomposeNonIncreasing(total: real, bar: real, plates: seq<real>)
    requires total > bar && Registered(plates)
    ensures NonIncreasing(Decompose(total, bar, plates))
  {
    var g := Greedy((total - bar) / 2.0, plates);
    assert plates[..|plates|] == plates;
    LoadedNonIncreasing((total - bar) / 2.0, plates, |plates|);
    if g.1 > RemainderEpsilon && plates != [] {
      forall x | x in g.0 ensures x >= Last(plates) {
        var k :| 0 <= k < |plates| && plates[k] == x;
      }
      ConcatNonIncreasing(g.0, [Last(plates)]);
    }
  }

  /** In exact arithmetic the loaded total is at most 0.02 under the target (the epsilon on both
      sides) and less than two smallest plates over it. */
  lemma DecomposeBounds(total: real, bar: real, plates: seq<real>)
    requires total > bar && AllPositive(plates) && plates != []
    ensures total - 2.0 * RemainderEpsilon <= LoadedTotal(Decompose(total, bar, plates), bar)
    ensures LoadedTotal(Decompose(total, bar, plates), bar) < total + 2.0 * Last(plates)
  {
    var g := Greedy((total - bar) / 2.0, plates);
    if g.1 > RemainderEpsilon {
      SumAppend(g.0, [Last(plates)]);
      SumSingle(Last(plates));
    }
  }

  /** A plate expressed in the other unit (`plate / 2.20462` to kilograms, `* 2.20462` to pounds). */
  function ConvertWeight(w: real, toKg: bool): real
  {
    if toKg then w / ConversionFactor else w * ConversionFactor
  }

  /** The target after a unit switch: the converted value rounded up to one decimal
      (`ceil(x * 10) / 10`), so never below the exact converted weight. */
  function ConvertTarget(target: real, toKg: bool): (r: real)
    ensures ConvertWeight(target, toKg) <= r < ConvertWeight(target, toKg) + 0.1
    ensures (r * 10.0).Floor as real == r * 10.0
  {
    var x := ConvertWeight(target, toKg) * 10.0;
    var c := Ceil(x);
    assert c as real / 10.0 * 10.0 == c as real;
    c as real / 10.0
  }

  /** `min(by:)` over the registry by distance to `w`, scanning from index `i` with the best so far
      at `best`: the result is a nearest plate, and the first one among equally near plates. */
  function NearestFrom(w: real, reg: seq<real>, best: nat, i: nat): (k: nat)
    requires best < i <= |reg|
    requires forall j :: 0 <= j < i ==> Abs(reg[j] - w) >= Abs(reg[best] - w)
    requires forall j :: 0 <= j < best ==> Abs(reg[j] - w) > Abs(reg[best] - w)
    ensures k < |reg|
    ensures forall j :: 0 <= j < |reg| ==> Abs(reg[j] - w) >= Abs(reg[k] - w)
    ensures forall j :: 0 <= j < k ==> Abs(reg[j] - w) > Abs(reg[k] - w)
    decreases |reg| - i
  {
    if i == |reg| then best
    else if Abs(reg[i] - w) < Abs(reg[best] - w) then NearestFrom(w, reg, i, i + 1)
    else NearestFrom(w, reg, best, i + 1)
  }

  /** Snap to the closest registry plate; `?? convertedWeight` when the registry is empty. */
  function Snap(w: real, reg: seq<real>): (r: real)
    ensures reg != [] ==> r in reg && forall j :: 0 <= j < |reg| ==> Abs(reg[j] - w) >= Abs(r - w)
    ensures reg == [] ==> r == w
  {
    if reg == [] then w else reg[NearestFrom(w, reg, 0, 1)]
  }

  /** Ties go to the plate that comes first in the registry. */
  lemma SnapPrefersFirst(w: real, reg: seq<real>)
    requires reg != []
    ensures exists k :: 0 <= k < |reg| && reg[k] == Snap(w, reg) &&
                        forall j :: 0 <= j < k ==> Abs(reg[j] - w) > Abs(reg[k] - w)
  {
    var k := NearestFrom(w, reg, 0, 1);
    assert reg[k] == Snap(w, reg);
  }

  /** `convertSelectedPlates`: each plate converted and snapped into the target registry. */
  function ConvertPlates(plates: seq<real>, toKg: bool): (r: seq<real>)
    ensures |r| == |plates|
    ensures forall i :: 0 <= i < |r| ==> r[i] in Registry(toKg)
    ensures forall i, j :: 0 <= i < |r| && 0 <= j < |Registry(toKg)| ==>
      Abs(Registry(toKg)[j] - ConvertWeight(plates[i], toKg)) >= Abs(r[i] - ConvertWeight(plates[i], toKg))
  {
    seq(|plates|, i requires 0 <= i < |plates| => Snap(ConvertWeight(plates[i], toKg), Registry(toKg)))
  }

  /** `plateCount(_:)`: how many copies of `p` the list holds. */
  function Count(s: seq<real>, p: real): (n: nat)
    ensures n == multiset(s)[p]
  {
    if s == [] then 0
    else
      assert s == s[..|s| - 1] + [s[|s| - 1]];
      Count(s[..|s| - 1], p) + (if s[|s| - 1] == p then 1 else 0)
  }

  /** `firstIndex(of:)` followed by `remove(at:)`; no change when `p` is absent. */
  function RemoveFirst(s: seq<real>, p: real): (r: seq<real>)
    ensures p in s ==> multiset(r) == multiset(s) - multiset{p}
    ensures p !in s ==> r == s
  {
    if s == [] then []
    else if s[0] == p then
      assert s == [s[0]] + s[1..];
      s[1..]
    else
      assert s == [s[0]] + s[1..];
      [s[0]] + RemoveFirst(s[1..], p)
  }
}

=== FILE: progress_views.dfy ===
/** The two history screens, `ProgressView` and `WorkoutProgressView`: the completed sessions, the
    sort options of the second one, its duration text, and deleting listed sessions. */
module Progress {
  import opened Wrappers
  import opened Numeric
  import opened Text
  import opened Lists
  import opened Sorting
  import opened Workouts
  import opened Analytics
  import opened SessionStore

  // ---------------------------------------------------------------------------------------------
  // Sorting the history
  // ---------------------------------------------------------------------------------------------

  /** The sort menu of `WorkoutProgressView`. */
  datatype SortOption =
    | DateDescending
    | DateAscending
    | DurationDescending
    | DurationAscending
    | VolumeDescending
    | VolumeAscending

  /** `analytics.totalVolume` of a session: Σ weight·reps over all its sets. */
  function SessionVolume(s: WorkoutSession): real
  {
    Volume(AllSets(s.exerciseEntries))
  }

  /** The closure each option passes to `sort`. */
  function Comparator(option: SortOption): (WorkoutSession, WorkoutSession) -> bool
  {
    match option
    case DateDescending => (a: WorkoutSession, b: WorkoutSession) => a.date > b.date
    case DateAscending => (a: WorkoutSession, b: WorkoutSession) => a.date < b.date
    case DurationDescending => (a: WorkoutSession, b: WorkoutSession) => a.duration > b.duration
    case DurationAscending => (a: WorkoutSession, b: WorkoutSession) => a.duration < b.duration
    case VolumeDescending => (a: WorkoutSession, b: WorkoutSession) => SessionVolume(a) > SessionVolume(b)
    case VolumeAscending => (a: WorkoutSession, b: WorkoutSession) => SessionVolume(a) < SessionVolume(b)
  }

  /** The key an option compares by and whether larger keys come first. */
  function SortKey(option: SortOption, s: WorkoutSession): real
  {
    match option
    case DateDescending | DateAscending => s.date
    case DurationDescending | DurationAscending => s.duration
    case VolumeDescending | VolumeAscending => SessionVolume(s)
  }

  predicate Descending(option: SortOption)
  {
    option.DateDescending? || option.DurationDescending? || option.VolumeDescending?
  }

  /** Every option compares its key strictly, in its direction; hence each is a strict weak
      ordering, as `sort(by:)` requires. */
  lemma ComparatorOrder(option: SortOption)
    ensures forall a, b :: Comparator(option)(a, b) <==>
      if Descending(option) then SortKey(option, a) > SortKey(option, b)
      else SortKey(option, a) < SortKey(option, b)
    ensures StrictWeakOrder(Comparator(option))
  {
  }

  /** A list sorted by an option has its keys in that direction. */
  lemma SortedKeys(s: seq<WorkoutSession>, option: SortOption)
    requires SortedBy(s, Comparator(option))
    ensures forall i, j :: 0 <= i < j < |s| ==>
      if Descending(option) then SortKey(option, s[i]) >= SortKey(option, s[j])
      else SortKey(option, s[i]) <= SortKey(option, s[j])
  {
    ComparatorOrder(option);
    forall i, j | 0 <= i < j < |s|
      ensures if Descending(option) then SortKey(option, s[i]) >= SortKey(option, s[j])
              else SortKey(option, s[i]) <= SortKey(option, s[j])
    {
      assert !Comparator(option)(s[j], s[i]);
    }
  }

  /** `sortedAndFilteredSessions`: the completed sessions, narrowed by the search text and the date
      filter, then sorted by the chosen option. `keep` is the predicate the search text and the date
      filter select by; with an empty search and the "All" filter it keeps every session. */
  function SortedAndFiltered(sessions: seq<WorkoutSession>, keep: WorkoutSession -> bool, option: SortOption)
    : (r: seq<WorkoutSession>)
    ensures SortedBy(r, Comparator(option))
    ensures multiset(r) == multiset(Filter(CompletedSessions(sessions), keep))
    ensures forall s :: s in r <==> s in sessions && s.isCompleted && keep(s)
  {
    var sessions' := Filter(CompletedSessions(sessions), keep);
    FilterMembers(CompletedSessions(sessions), keep);
    ComparatorOrder(option);
    SortBySorted(sessions', Comparator(option));
    SameElements(SortBy(sessions', Comparator(option)), sessions');
    SortBy(sessions', Comparator(option))
  }

  /** The "All" filter with no search text keeps every completed session. */
  function KeepAll(): WorkoutSession -> bool
  {
    (s: WorkoutSession) => true
  }

  lemma AllFilterKeepsCompleted(sessions: seq<WorkoutSession>, option: SortOption)
    ensures multiset(SortedAndFiltered(sessions, KeepAll(), option)) == multiset(CompletedSessions(sessions))
  {
    var completed := CompletedSessions(sessions);
    FilterAll(completed, KeepAll());
  }

  // ---------------------------------------------------------------------------------------------
  // Duration text
  // ---------------------------------------------------------------------------------------------

  /** `formatDuration(_:)`: "h:mm:ss" when there is at least one whole hour, "m:ss" otherwise, from
      `Int(duration)` seconds. */
  function FormatDuration(duration: real): (r: string)
    ensures Trunc(duration) >= 3600 ==> r == HmsText(Trunc(duration))
    ensures 0 <= Trunc(duration) < 3600 ==> r == MsText(Trunc(duration))
  {
    var t := Trunc(duration);
    var hours := SwiftDiv(t, 3600);
    var minutes := SwiftRem(SwiftDiv(t, 60), 60);
    var seconds := SwiftRem(t, 60);
    NonNegativeClock(t);
    if hours > 0 then
      IntToString(hours) + ":" + Pad2(minutes) + ":" + Pad2(seconds)
    else
      IntToString(minutes) + ":" + Pad2(seconds)
  }

  /** For a non-negative count, Swift's truncating `/` and `%` are the Euclidean ones. */
  lemma NonNegativeClock(t: int)
    ensures t >= 0 ==> SwiftDiv(t, 3600) == t / 3600 && SwiftRem(SwiftDiv(t, 60), 60) == t / 60 % 60
                       && SwiftRem(t, 60) == t % 60
    ensures t >= 0 ==> (SwiftDiv(t, 3600) > 0 <==> t >= 3600)
  {
  }

  /** The two layouts, for a whole number of seconds. */
  function HmsText(t: nat): string
  {
    NatToString(t / 3600) + ":" + Pad2(t / 60 % 60) + ":" + Pad2(t % 60)
  }

  function MsText(t: nat): string
  {
    NatToString(t / 60) + ":" + Pad2(t % 60)
  }

  /** Hours, minutes and seconds of a whole number of seconds add back up to it. */
  lemma ClockFields(t: nat)
    ensures 3600 * (t / 3600) + 60 * (t / 60 % 60) + t % 60 == t
    ensures t / 60 % 60 < 60 && t % 60 < 60
    ensures t < 3600 ==> t / 60 < 60 && t / 60 % 60 == t / 60
  {
    var q := t / 60;
    assert t == 60 * q + t % 60;
    assert q == 60 * (q / 60) + q % 60;
    assert q / 60 == t / 3600;
  }

  /** Where the colons fall in "a:bb:cc" and "a:bb". */
  lemma ColonFields(a: string, b: string, c: string)
    requires |b| == 2 && |c| == 2
    ensures var r := a + ":" + b + ":" + c;
      |r| == |a| + 6 && r[|r| - 6] == ':' && r[|r| - 3] == ':'
      && r[..|r| - 6] == a && r[|r| - 5..|r| - 3] == b && r[|r| - 2..] == c
    ensures var r := a + ":" + c;
      |r| == |a| + 3 && r[|r| - 3] == ':' && r[..|r| - 3] == a && r[|r| - 2..] == c
  {
  }

  /** "h:mm:ss" denoting `t` seconds: digits around two colons, a positive hour count, minutes and
      seconds below 60. */
  predicate ReadsAsHms(r: string, t: int)
  {
    |r| >= 7 && r[|r| - 3] == ':' && r[|r| - 6] == ':'
    && AllDigits(r[..|r| - 6]) && AllDigits(r[|r| - 5..|r| - 3]) && AllDigits(r[|r| - 2..])
    && DigitsValue(r[..|r| - 6]) > 0
    && DigitsValue(r[|r| - 5..|r| - 3]) < 60 && DigitsValue(r[|r| - 2..]) < 60
    && 3600 * DigitsValue(r[..|r| - 6]) + 60 * DigitsValue(r[|r| - 5..|r| - 3]) + DigitsValue(r[|r| - 2..]) == t
  }

  /** "m:ss" denoting `t` seconds: digits around one colon, minutes and seconds below 60. */
  predicate ReadsAsMs(r: string, t: int)
  {
    |r| >= 4 && r[|r| - 3] == ':' && AllDigits(r[..|r| - 3]) && AllDigits(r[|r| - 2..])
    && DigitsValue(r[..|r| - 3]) < 60 && DigitsValue(r[|r| - 2..]) < 60
    && 60 * DigitsValue(r[..|r| - 3]) + DigitsValue(r[|r| - 2..]) == t
  }

  lemma HmsReadsBack(t: nat)
    requires t >= 3600
    ensures ReadsAsHms(HmsText(t), t)
  {
    ClockFields(t);
    ColonFields(NatToString(t / 3600), Pad2(t / 60 % 60), Pad2(t % 60));
    NatToStringRoundTrip(t / 3600);
  }

  lemma MsReadsBack(t: nat)
    requires t < 3600
    ensures ReadsAsMs(MsText(t), t)
  {
    ClockFields(t);
    ColonFields(NatToString(t / 60), Pad2(t / 60 % 60), Pad2(t % 60));
    NatToStringRoundTrip(t / 60);
  }

  /** The duration text reads back as `Int(duration)` seconds: "h:mm:ss" from one hour on, "m:ss"
      below, with the minutes and seconds fields under 60. */
  lemma FormatDurationReadsBack(duration: real)
    requires duration >= 0.0
    ensures Trunc(duration) >= 3600 ==> ReadsAsHms(FormatDuration(duration), Trunc(duration))
    ensures Trunc(duration) < 3600 ==> ReadsAsMs(FormatDuration(duration), Trunc(duration))
  {
    var t: nat := Trunc(duration);
    if t >= 3600 {
      HmsReadsBack(t);
    } else {
      MsReadsBack(t);
    }
  }

  /** 3725 seconds show as "1:02:05", 125 seconds as "2:05". */
  lemma ExampleFormatDuration()
    ensures FormatDuration(3725.0) == "1:02:05"
    ensures FormatDuration(125.0) == "2:05"
  {
    assert Trunc(3725.0) == 3725 && Trunc(125.0) == 125;
    assert NatToString(1) == "1" && NatToString(2) == "2";
    assert Pad2(2) == "02" && Pad2(5) == "05";
  }

  // ---------------------------------------------------------------------------------------------
  // Deleting listed sessions
  // ---------------------------------------------------------------------------------------------

  /** The offsets a swipe hands over: an `IndexSet`, iterated in increasing order, each a row of the
      shown list. */
  predicate ValidOffsets(shown: seq<WorkoutSession>, offsets: seq<nat>)
  {
    (forall k :: 0 <= k < |offsets| ==> offsets[k] < |shown|)
    && (forall k, l :: 0 <= k < l < |offsets| ==> offsets[k] < offsets[l])
  }

  /** No two sessions of the history share an id. */
  predicate UniqueIds(sessions: seq<WorkoutSession>)
  {
    forall i, j :: 0 <= i < j < |sessions| ==> sessions[i].id != sessions[j].id
  }

  /** The ids of the shown sessions at the given rows. */
  function IdsAt(shown: seq<WorkoutSession>, offsets: seq<nat>): set<nat>
    requires forall k :: 0 <= k < |offsets| ==> offsets[k] < |shown|
  {
    if offsets == [] then {} else {shown[offsets[0]].id} + IdsAt(shown, offsets[1..])
  }

  /** Keeps the sessions whose id is not among `ids`. */
  function IdNotIn(ids: set<nat>): WorkoutSession -> bool
  {
    (s: WorkoutSession) => s.id !in ids
  }

  /** `deleteWorkout(at:)` as written in both screens: every index is looked up in `all`, the list
      as it was before the first removal, but removed from `live`, the list being shrunk. `None`
      stands for the trap of `remove(at:)` with an index past the end. */
  function DeleteAsWritten(all: seq<WorkoutSession>, live: seq<WorkoutSession>, shown: seq<WorkoutSession>,
                           offsets: seq<nat>): (r: Option<seq<WorkoutSession>>)
    requires forall k :: 0 <= k < |offsets| ==> offsets[k] < |shown|
    ensures r.Some? ==> |r.value| <= |live|
  {
    if offsets == [] then Some(live)
    else
      var index := FirstIndexWhere(all, SessionHasId(shown[offsets[0]].id));
      if index.None? then DeleteAsWritten(all, live, shown, offsets[1..])
      else if index.value < |live| then DeleteAsWritten(all, RemoveAt(live, index.value), shown, offsets[1..])
      else None
  }

  /** The deletion the screens mean: each index is looked up in the list as it currently is. */
  function DeleteByLiveLookup(live: seq<WorkoutSession>, shown: seq<WorkoutSession>, offsets: seq<nat>)
    : (r: seq<WorkoutSession>)
    requires forall k :: 0 <= k < |offsets| ==> offsets[k] < |shown|
    ensures |r| <= |live|
  {
    if offsets == [] then live
    else
      var index := FirstIndexWhere(live, SessionHasId(shown[offsets[0]].id));
      DeleteByLiveLookup(if index.Some? then RemoveAt(live, index.value) else live, shown, offsets[1..])
  }

  /** With one offset the two agree: the snapshot is still the live list. */
  lemma SingleOffsetAgrees(live: seq<WorkoutSession>, shown: seq<WorkoutSession>, offset: nat)
    requires offset < |shown|
    ensures DeleteAsWritten(live, live, shown, [offset]) == Some(DeleteByLiveLookup(live, shown, [offset]))
  {
    assert [offset][1..] == [];
  }

  /** In a history with distinct ids, removing the first session with id `d` is dropping every
      session with that id, and the rest keep their order. */
  lemma RemoveUniqueId(live: seq<WorkoutSession>, d: nat)
    requires UniqueIds(live)
    ensures var index := FirstIndexWhere(live, SessionHasId(d));
      (index.Some? ==> RemoveAt(live, index.value) == Filter(live, IdNotIn({d})))
      && (index.None? ==> live == Filter(live, IdNotIn({d})))
  {
    var index := FirstIndexWhere(live, SessionHasId(d));
    if index.Some? {
      var k := index.value;
      forall i | 0 <= i < |live| && i != k ensures IdNotIn({d})(live[i]) {
        if i < k {
          assert !SessionHasId(d)(live[i]);
        }
      }
      FilterDropsOne(live, k, IdNotIn({d}));
    } else {
      FilterAll(live, IdNotIn({d}));
    }
  }

  /** Filtering keeps ids distinct. */
  lemma {:induction false} FilterKeepsUniqueIds(s: seq<WorkoutSession>, p: WorkoutSession -> bool)
    requires UniqueIds(s)
    ensures UniqueIds(Filter(s, p))
  {
    if s != [] {
      var init, last := s[..|s| - 1], s[|s| - 1];
      FilterKeepsUniqueIds(init, p);
      var r := Filter(s, p);
      FilterMembers(init, p);
      if p(last) {
        forall i | 0 <= i < |r| - 1 ensures r[i].id != last.id {
          assert r[i] in Filter(init, p);
          var m :| 0 <= m < |init| && init[m] == r[i];
          assert s[m] == r[i];
        }
      }
    }
  }

  /** The intended behaviour, proved of the corrected deletion: in a history with distinct ids it
      drops exactly the sessions whose ids were shown at the given rows, and every other session —
      completed or not — stays, in its order. */
  lemma {:induction false} LiveLookupDeletesIds(live: seq<WorkoutSession>, shown: seq<WorkoutSession>,
                                                offsets: seq<nat>)
    requires UniqueIds(live)
    requires forall k :: 0 <= k < |offsets| ==> offsets[k] < |shown|
    ensures DeleteByLiveLookup(live, shown, offsets) == Filter(live, IdNotIn(IdsAt(shown, offsets)))
  {
    if offsets == [] {
      FilterAll(live, IdNotIn({}));
    } else {
      var d := shown[offsets[0]].id;
      var rest := IdsAt(shown, offsets[1..]);
      var index := FirstIndexWhere(live, SessionHasId(d));
      var live' := if index.Some? then RemoveAt(live, index.value) else live;
      RemoveUniqueId(live, d);
      FilterKeepsUniqueIds(live, IdNotIn({d}));
      LiveLookupDeletesIds(live', shown, offsets[1..]);
      FilterFilter(live, IdNotIn({d}), IdNotIn(rest), IdNotIn({d} + rest));
    }
  }

  /** One row deleted from a history with distinct ids, which lists it: the session with that id is
      the only one gone, as in both versions. */
  lemma SingleOffsetDelete(live: seq<WorkoutSession>, shown: seq<WorkoutSession>, offset: nat)
    requires UniqueIds(live)
    requires offset < |shown| && shown[offset] in live
    ensures DeleteAsWritten(live, live, shown, [offset]) == Some(Filter(live, IdNotIn({shown[offset].id})))
    ensures |Filter(live, IdNotIn({shown[offset].id}))| == |live| - 1
  {
    SingleOffsetAgrees(live, shown, offset);
    LiveLookupDeletesIds(live, shown, [offset]);
    assert IdsAt(shown, [offset]) == {shown[offset].id} by {
      assert [offset][1..] == [];
    }
    var index := FirstIndexWhere(live, SessionHasId(shown[offset].id));
    var k :| 0 <= k < |live| && live[k] == shown[offset];
    assert SessionHasId(shown[offset].id)(live[k]);
    RemoveUniqueId(live, shown[offset].id);
  }

  /** A single swiped row, deleted as written from a history with distinct ids: exactly the
      sessions with that row's id are gone. */
  lemma OneOffsetDeletesId(live: seq<WorkoutSession>, shown: seq<WorkoutSession>, offsets: seq<nat>)
    requires UniqueIds(live)
    requires |offsets| == 1 && offsets[0] < |shown|
    ensures DeleteAsWritten(live, live, shown, offsets) == Some(Filter(live, IdNotIn(IdsAt(shown, offsets))))
  {
    assert offsets == [offsets[0]];
    SingleOffsetAgrees(live, shown, offsets[0]);
    LiveLookupDeletesIds(live, shown, offsets);
  }

  /** Three completed sessions, newest first, for the counterexample below. */
  const SessionA := WorkoutSession(1, 0, "A", 3.0, [], 60.0, true)
  const SessionB := WorkoutSession(2, 0, "B", 2.0, [], 60.0, true)
  const SessionC := WorkoutSession(3, 0, "C", 1.0, [], 60.0, true)

  /** All three are listed, in stored order. */
  lemma ExampleListed()
    ensures CompletedSessions([SessionA, SessionB, SessionC]) == [SessionA, SessionB, SessionC]
  {
    var all := [SessionA, SessionB, SessionC];
    assert forall i :: 0 <= i < |all| ==> IsCompleted()(all[i]);
    FilterAll(all, IsCompleted());
  }

  /** Rows 0 and 1 deleted as written: row 1's session, B, is found at index 1 of the snapshot,
      and index 1 of the already shrunk list [B, C] is C; so A and C go and B stays. */
  lemma DeleteAsWrittenCounterexample()
    ensures DeleteAsWritten([SessionA, SessionB, SessionC], [SessionA, SessionB, SessionC],
                            [SessionA, SessionB, SessionC], [0, 1]) == Some([SessionB])
  {
    var all := [SessionA, SessionB, SessionC];
    var offsets: seq<nat> := [0, 1];
    assert offsets[1..] == [1];
    var rest: seq<nat> := [1];
    assert rest[1..] == [];
    assert FirstIndexWhere(all, SessionHasId(1)) == Some(0);
    assert FirstIndexWhere(all, SessionHasId(2)) == Some(1) by {
      assert all[1..] == [SessionB, SessionC];
    }
    assert RemoveAt(all, 0) == [SessionB, SessionC];
    assert RemoveAt([SessionB, SessionC], 1) == [SessionB];
    assert DeleteAsWritten(all, [SessionB], all, []) == Some([SessionB]);
    assert DeleteAsWritten(all, [SessionB, SessionC], all, rest) == Some([SessionB]);
  }

  /** The same rows deleted by live lookup leave C, the session the user did not swipe. */
  lemma DeleteByLiveLookupExample()
    ensures DeleteByLiveLookup([SessionA, SessionB, SessionC], [SessionA, SessionB, SessionC], [0, 1])
            == [SessionC]
  {
    var all := [SessionA, SessionB, SessionC];
    var offsets: seq<nat> := [0, 1];
    assert offsets[1..] == [1];
    var rest: seq<nat> := [1];
    assert rest[1..] == [];
    assert FirstIndexWhere(all, SessionHasId(1)) == Some(0);
    assert RemoveAt(all, 0) == [SessionB, SessionC];
    assert FirstIndexWhere([SessionB, SessionC], SessionHasId(2)) == Some(0);
    assert RemoveAt([SessionB, SessionC], 0) == [SessionC];
    assert DeleteByLiveLookup([SessionC], all, []) == [SessionC];
    assert DeleteByLiveLookup([SessionB, SessionC], all, rest) == [SessionC];
  }

  /** With two sessions and the same rows, index 1 is past the end of the shrunk list [B] and
      `remove(at:)` traps. */
  lemma DeleteAsWrittenTraps()
    ensures DeleteAsWritten([SessionA, SessionB], [SessionA, SessionB], [SessionA, SessionB], [0, 1]).None?
  {
    var all := [SessionA, SessionB];
    var offsets: seq<nat> := [0, 1];
    assert offsets[1..] == [1];
    assert FirstIndexWhere(all, SessionHasId(1)) == Some(0);
    assert FirstIndexWhere(all, SessionHasId(2)) == Some(1) by {
      assert all[1..] == [SessionB];
    }
    assert RemoveAt(all, 0) == [SessionB];
  }

  /** The corrected `for offset in offsets` loop over the history: each row's session is looked up
      in the list as it now is and removed there. */
  method DeleteShown(store: WorkoutSessionViewModel, shown: seq<WorkoutSession>, offsets: seq<nat>)
    requires forall k :: 0 <= k < |offsets| ==> offsets[k] < |shown|
    modifies store
    ensures store.workoutSessions == DeleteByLiveLookup(old(store.workoutSessions), shown, offsets)
  {
    for i := 0 to |offsets|
      invariant DeleteByLiveLookup(store.workoutSessions, shown, offsets[i..])
                == DeleteByLiveLookup(old(store.workoutSessions), shown, offsets)
    {
      assert offsets[i..][1..] == offsets[i + 1..];
      var index := FirstIndexWhere(store.workoutSessions, SessionHasId(shown[offsets[i]].id));
      if index.Some? {
        store.workoutSessions := RemoveAt(store.workoutSessions, index.value);
      }
    }
    assert offsets[|offsets|..] == [];
  }

  /** The `for offset in offsets` loop as both screens write it: `all` is the history before the
      first removal, each row's session is looked up there and removed at that position from the
      history as it now is. The source traps when a position is past the end; that input is
      excluded here (see `DeleteAsWrittenTraps`). */
  method DeleteShownAsWritten(store: WorkoutSessionViewModel, shown: seq<WorkoutSession>, offsets: seq<nat>)
    requires forall k :: 0 <= k < |offsets| ==> offsets[k] < |shown|
    requires DeleteAsWritten(store.workoutSessions, store.workoutSessions, shown, offsets).Some?
    modifies store
    ensures store.workoutSessions
      == DeleteAsWritten(old(store.workoutSessions), old(store.workoutSessions), shown, offsets).value
  {
    var all := store.workoutSessions;
    for i := 0 to |offsets|
      invariant DeleteAsWritten(all, store.workoutSessions, shown, offsets[i..])
                == DeleteAsWritten(all, all, shown, offsets)
    {
      assert offsets[i..][1..] == offsets[i + 1..];
      var index := FirstIndexWhere(all, SessionHasId(shown[offsets[i]].id));
      if index.Some? {
        store.workoutSessions := RemoveAt(store.workoutSessions, index.value);
      }
    }
    assert offsets[|offsets|..] == [];
  }

  /** `ProgressView`: the completed sessions in stored order, with swipe-to-delete. */
  class ProgressView {
    const store: WorkoutSessionViewModel

    constructor(store: WorkoutSessionViewModel)
      ensures this.store == store
    {
      this.store := store;
    }

    /** `filteredSessions`. */
    function FilteredSessions(): (r: seq<WorkoutSession>)
      reads store
      ensures forall s :: s in r <==> s in store.workoutSessions && s.isCompleted
    {
      CompletedSessions(store.workoutSessions)
    }

    /** `deleteWorkout(at:)` as written: positions found in the history before the first removal
        are removed from the shrinking history. With one row and distinct ids, exactly that
        row's session is gone. */
    method DeleteWorkout(offsets: seq<nat>)
      requires ValidOffsets(FilteredSessions(), offsets)
      requires DeleteAsWritten(store.workoutSessions, store.workoutSessions, FilteredSessions(), offsets).Some?
      modifies store
      ensures store.workoutSessions
        == DeleteAsWritten(old(store.workoutSessions), old(store.workoutSessions), old(FilteredSessions()), offsets).value
      ensures |offsets| == 1 && old(UniqueIds(store.workoutSessions)) ==>
        store.workoutSessions
        == Filter(old(store.workoutSessions), IdNotIn(IdsAt(old(FilteredSessions()), offsets)))
    {
      ghost var before := store.workoutSessions;
      DeleteShownAsWritten(store, FilteredSessions(), offsets);
      if |offsets| == 1 && UniqueIds(before) {
        OneOffsetDeletesId(before, CompletedSessions(before), offsets);
      }
    }
  }

  /** `WorkoutProgressView`: the searchable, sortable history with a confirmation before
      deleting. */
  class WorkoutProgressView {
    const store: WorkoutSessionViewModel
    var sortOption: SortOption
    /** What the search text and the date filter select. */
    var keep: WorkoutSession -> bool
    var itemsToDelete: Option<seq<nat>>
    var showDeleteConfirmation: bool

    constructor(store: WorkoutSessionViewModel)
      ensures this.store == store && sortOption == DateDescending && keep == KeepAll()
      ensures itemsToDelete.None? && !showDeleteConfirmation
    {
      this.store := store;
      sortOption := DateDescending;
      keep := KeepAll();
      itemsToDelete := None;
      showDeleteConfirmation := false;
    }

    /** `sortedAndFilteredSessions`. */
    function Shown(): seq<WorkoutSession>
      reads this, store
    {
      SortedAndFiltered(store.workoutSessions, keep, sortOption)
    }

    /** `confirmDelete(at:)`: remember the rows and ask; nothing is deleted yet. */
    method ConfirmDelete(offsets: seq<nat>)
      modifies this`itemsToDelete, this`showDeleteConfirmation
      ensures itemsToDelete == Some(offsets) && showDeleteConfirmation
    {
      itemsToDelete := Some(offsets);
      showDeleteConfirmation := true;
    }

    /** The alert's Cancel button: forget the rows; the history is untouched. */
    method Cancel()
      modifies this`itemsToDelete, this`showDeleteConfirmation
      ensures itemsToDelete.None? && !showDeleteConfirmation
      ensures store.workoutSessions == old(store.workoutSessions)
    {
      itemsToDelete := None;
      showDeleteConfirmation := false;
    }

    /** The alert's Delete button: delete the remembered rows, if any, then forget them. */
    method Delete()
      requires itemsToDelete.Some? ==> ValidOffsets(Shown(), itemsToDelete.value)
      requires itemsToDelete.Some? ==>
        DeleteAsWritten(store.workoutSessions, store.workoutSessions, Shown(), itemsToDelete.value).Some?
      modifies store, this`itemsToDelete, this`showDeleteConfirmation
      ensures itemsToDelete.None? && !showDeleteConfirmation
      ensures old(itemsToDelete).None? ==> store.workoutSessions == old(store.workoutSessions)
      ensures old(itemsToDelete).Some? ==>
        store.workoutSessions
        == DeleteAsWritten(old(store.workoutSessions), old(store.workoutSessions), old(Shown()),
                           old(itemsToDelete).value).value
    {
      if itemsToDelete.Some? {
        DeleteWorkout(itemsToDelete.value);
      }
      itemsToDelete := None;
      showDeleteConfirmation := false;
    }

    /** `deleteWorkout(at:)` as written, over the sorted and filtered rows: positions found in the
        history before the first removal are removed from the shrinking history. With one row and
        distinct ids, exactly that row's session is gone. */
    method DeleteWorkout(offsets: seq<nat>)
      requires ValidOffsets(Shown(), offsets)
      requires DeleteAsWritten(store.workoutSessions, store.workoutSessions, Shown(), offsets).Some?
      modifies store
      ensures store.workoutSessions
        == DeleteAsWritten(old(store.workoutSessions), old(store.workoutSessions), old(Shown()), offsets).value
      ensures |offsets| == 1 && old(UniqueIds(store.workoutSessions)) ==>
        store.workoutSessions == Filter(old(store.workoutSessions), IdNotIn(IdsAt(old(Shown()), offsets)))
    {
      ghost var before := store.workoutSessions;
      ghost var shown := Shown();
      DeleteShownAsWritten(store, Shown(), offsets);
      if |offsets| == 1 && UniqueIds(before) {
        OneOffsetDeletesId(before, shown, offsets);
      }
    }
  }
}

=== FILE: rest_timer.dfy ===
/** The rest timer between sets: a countdown over wall-clock anchors that can be paused and
    resumed, and its `m:ss` display. */
module RestTimers {
  import opened Wrappers
  import opened Numeric
  import opened Text

  /** `RestTimer`. `ticking` stands for a scheduled repeating timer (`timer != nil`): only then do
      ticks arrive. Every reading of the clock is a `now` parameter. */
  class RestTimer {
    var isRunning: bool
    var timeRemaining: real
    var totalRestTime: real
    var ticking: bool
    var startTime: Option<real>
    var pausedTime: real

    /** Idle: nothing running, nothing left, no anchor. */
    constructor()
      ensures Stopped() && totalRestTime == 0.0 && Valid()
    {
      isRunning := false;
      timeRemaining := 0.0;
      totalRestTime := 0.0;
      ticking := false;
      startTime := None;
      pausedTime := 0.0;
    }

    /** What a well-behaved timer keeps: what is left lies between 0 and the full rest time, the
        time already run is not negative, and a running timer is anchored and ticking. */
    predicate Valid()
      reads this
    {
      0.0 <= timeRemaining <= totalRestTime && pausedTime >= 0.0
      && (isRunning ==> startTime.Some? && ticking)
    }

    /** The state `stop()` leaves behind. */
    predicate Stopped()
      reads this
    {
      !isRunning && !ticking && timeRemaining == 0.0 && startTime == None && pausedTime == 0.0
    }

    /** The clock has not gone back before the anchor. */
    predicate ClockAfterStart(now: real)
      reads this
    {
      startTime.Some? ==> now >= startTime.value
    }

    /** `duration`. */
    function Duration(): real
      reads this
    {
      totalRestTime
    }

    /** Elapsed running time at `now`: since the anchor plus what ran before the last pause. */
    function Elapsed(now: real): real
      reads this
      requires startTime.Some?
    {
      now - startTime.value + pausedTime
    }

    /** `start(duration:)`: full countdown from `now`. */
    method Start(duration: real, now: real)
      requires duration >= 0.0
      modifies this
      ensures isRunning && ticking && totalRestTime == duration && timeRemaining == duration
      ensures startTime == Some(now) && pausedTime == 0.0
      ensures Valid()
    {
      totalRestTime := duration;
      timeRemaining := duration;
      isRunning := true;
      startTime := Some(now);
      pausedTime := 0.0;
      ticking := true;
    }

    /** The repeating timer's callback at `now`: recompute what is left from the anchors, never
        below 0, and stop once nothing is left. Without a scheduled timer or an anchor nothing
        happens. */
    method Tick(now: real)
      modifies this
      ensures !old(ticking) || old(startTime).None? ==> unchanged(this)
      ensures old(ticking) && old(startTime).Some? ==>
        var left := MaxReal(0.0, old(totalRestTime) - old(Elapsed(now)));
        && (left > 0.0 ==> timeRemaining == left && isRunning == old(isRunning) && ticking
                           && startTime == old(startTime) && pausedTime == old(pausedTime))
        && (left <= 0.0 ==> Stopped())
      ensures totalRestTime == old(totalRestTime)
      ensures old(Valid()) && old(ClockAfterStart(now)) ==> Valid()
    {
      if !ticking || startTime.None? {
        return;
      }
      var elapsed := now - startTime.value + pausedTime;
      timeRemaining := MaxReal(0.0, totalRestTime - elapsed);
      if timeRemaining <= 0.0 {
        Stop();
      }
    }

    /** `pause()`: a running timer banks the time run since the anchor and stops ticking; what is
        left stays as it is. A timer that is not running is left alone. */
    method Pause(now: real)
      modifies this
      ensures !old(isRunning) ==> unchanged(this)
      ensures old(isRunning) ==>
        pausedTime == old(pausedTime) + (now - old(startTime).GetOr(now))
        && !isRunning && !ticking && timeRemaining == old(timeRemaining)
        && startTime == old(startTime) && totalRestTime == old(totalRestTime)
      ensures old(Valid()) && old(ClockAfterStart(now)) ==> Valid()
    {
      if isRunning {
        pausedTime := pausedTime + (now - startTime.GetOr(now));
        ticking := false;
        isRunning := false;
      }
    }

    /** `resume()`: a paused timer with time left re-anchors at `now` and keeps the banked time,
        so the countdown carries on where it stopped. */
    method Resume(now: real)
      modifies this
      ensures old(isRunning) || old(timeRemaining) <= 0.0 ==> unchanged(this)
      ensures !old(isRunning) && old(timeRemaining) > 0.0 ==>
        startTime == Some(now) && isRunning && ticking && pausedTime == old(pausedTime)
        && timeRemaining == old(timeRemaining) && totalRestTime == old(totalRestTime)
      ensures old(Valid()) ==> Valid()
    {
      if !isRunning && timeRemaining > 0.0 {
        startTime := Some(now);
        isRunning := true;
        ticking := true;
      }
    }

    /** `stop()`: everything cleared except the rest time that was set. Stopping a stopped timer
        changes nothing. */
    method Stop()
      modifies this
      ensures Stopped() && totalRestTime == old(totalRestTime)
      ensures old(Stopped()) ==> unchanged(this)
      ensures old(Valid()) ==> Valid()
    {
      ticking := false;
      isRunning := false;
      timeRemaining := 0.0;
      startTime := None;
      pausedTime := 0.0;
    }

    /** `reset()`: `stop()` and forget the rest time. */
    method Reset()
      modifies this
      ensures Stopped() && totalRestTime == 0.0 && Valid()
    {
      Stop();
      totalRestTime := 0.0;
    }
  }

  /** `formatTime(_:)`: `Int(time) / 60` minutes, a colon and `Int(time) % 60` seconds on two digits.
      For a non-negative time the text reads back as the same whole number of seconds, with fewer
      than 60 seconds after the colon. */
  function FormatTime(time: real): (r: string)
    ensures time >= 0.0 ==>
      |r| >= 4 && r[|r| - 3] == ':' && AllDigits(r[..|r| - 3]) && AllDigits(r[|r| - 2..])
      && DigitsValue(r[|r| - 2..]) < 60
      && 60 * DigitsValue(r[..|r| - 3]) + DigitsValue(r[|r| - 2..]) == Trunc(time)
  {
    var t := Trunc(time);
    var minutes := SwiftDiv(t, 60);
    var seconds := SwiftRem(t, 60);
    var r := IntToString(minutes) + ":" + Pad2(seconds);
    if time >= 0.0 then
      assert r[..|r| - 3] == NatToString(minutes);
      assert r[|r| - 2..] == Pad2(seconds);
      NatToStringRoundTrip(minutes);
      r
    else r
  }

  /** 125 seconds show as "2:05". */
  lemma ExampleFormatTime()
    ensures FormatTime(125.0) == "2:05"
  {
    assert Trunc(125.0) == 125;
    assert NatToString(2) == "2";
    assert Pad2(5) == "05";
  }
}

=== FILE: rest_timer_settings.dfy ===
/** The rest-timer settings sheet: preset buttons and minute/second pickers bound to the rest
    duration. */
module RestTimerSettings {
  import opened Numeric
  import opened Text
  import RestTimers

  /** `presetDurations`, in seconds. */
  const PresetDurations: seq<real> := [30.0, 60.0, 90.0, 120.0, 180.0]

  /** `minutes * 60 + seconds` as a duration. */
  function DurationOf(minutes: int, seconds: int): real
  {
    (minutes * 60 + seconds) as real
  }

  /** `Int(duration) / 60` and `Int(duration) % 60`; for a non-negative duration the seconds are
      below 60 and the two recombine into `Int(duration)`. */
  function Split(duration: real): (ms: (int, int))
    ensures ms.0 * 60 + ms.1 == Trunc(duration)
    ensures duration >= 0.0 ==> ms.0 >= 0 && 0 <= ms.1 < 60
  {
    (SwiftDiv(Trunc(duration), 60), SwiftRem(Trunc(duration), 60))
  }

  /** Picking minutes and seconds and reading them back from the duration gives the same
      minutes and seconds whenever the seconds are below 60. */
  lemma SplitDurationOf(minutes: int, seconds: int)
    requires minutes >= 0 && 0 <= seconds < 60
    ensures Split(DurationOf(minutes, seconds)) == (minutes, seconds)
  {
    var t := minutes * 60 + seconds;
    assert Trunc(t as real) == t;
    var ms := Split(DurationOf(minutes, seconds));
    assert ms.0 * 60 + ms.1 == minutes * 60 + seconds;
  }

  /** `formatPreset(_:)`: whole minutes as "Nm", anything else as the timer's "m:ss". For a
      non-negative duration the "Nm" form is chosen exactly when the seconds are 0, and it reads
      back as the whole number of seconds. */
  function FormatPreset(duration: real): (r: string)
    ensures Split(duration).1 != 0 ==> r == RestTimers.FormatTime(duration)
    ensures |r| >= 2
    ensures duration >= 0.0 ==> (r[|r| - 1] == 'm' <==> Split(duration).1 == 0)
    ensures duration >= 0.0 && Split(duration).1 == 0 ==>
      AllDigits(r[..|r| - 1]) && 60 * DigitsValue(r[..|r| - 1]) == Trunc(duration)
  {
    var minutes := Split(duration).0;
    var seconds := Split(duration).1;
    if seconds == 0 then
      var r := IntToString(minutes) + "m";
      assert r[..|r| - 1] == IntToString(minutes);
      NatToStringRoundTrip(if minutes >= 0 then minutes else 0);
      r
    else
      var r := IntToString(minutes) + ":" + Pad2(seconds);
      assert r == RestTimers.FormatTime(duration);
      r
  }

  /** The preset buttons read "0:30", "1m", "1:30", "2m", "3m". */
  lemma ExamplePresets()
    ensures FormatPreset(30.0) == "0:30" && FormatPreset(60.0) == "1m" && FormatPreset(90.0) == "1:30"
    ensures FormatPreset(120.0) == "2m" && FormatPreset(180.0) == "3m"
  {
    assert Trunc(30.0) == 30 && Trunc(60.0) == 60 && Trunc(90.0) == 90;
    assert Trunc(120.0) == 120 && Trunc(180.0) == 180;
    assert NatToString(0) == "0" && NatToString(1) == "1" && NatToString(2) == "2" && NatToString(3) == "3";
    assert Pad2(30) == "30" by { assert NatToString(30) == NatToString(3) + [DigitChar(0)]; }
  }

  /** `RestTimerSettingsView`: the bound duration and the two pickers. */
  class RestTimerSettingsView {
    var restTimerDuration: real
    var minutes: int
    var seconds: int

    /** The pickers start at 1:30 until the sheet appears. */
    constructor(duration: real)
      ensures restTimerDuration == duration && minutes == 1 && seconds == 30
    {
      restTimerDuration := duration;
      minutes := 1;
      seconds := 30;
    }

    /** `updateDuration()`: the pickers write the duration. */
    method UpdateDuration()
      modifies this`restTimerDuration
      ensures restTimerDuration == DurationOf(minutes, seconds)
    {
      restTimerDuration := (minutes * 60 + seconds) as real;
    }

    /** `updateMinutesSeconds()`: the duration sets the pickers; for a non-negative duration the
        seconds are below 60 and the pickers add up to the whole seconds of the duration. */
    method UpdateMinutesSeconds()
      modifies this`minutes, this`seconds
      ensures (minutes, seconds) == Split(restTimerDuration)
      ensures minutes * 60 + seconds == Trunc(restTimerDuration)
      ensures restTimerDuration >= 0.0 ==> 0 <= seconds < 60
    {
      minutes := SwiftDiv(Trunc(restTimerDuration), 60);
      seconds := SwiftRem(Trunc(restTimerDuration), 60);
    }

    /** A preset button: set the duration and move the pickers to it. */
    method SelectPreset(duration: real)
      modifies this
      ensures restTimerDuration == duration && (minutes, seconds) == Split(duration)
    {
      restTimerDuration := duration;
      UpdateMinutesSeconds();
    }

    /** Moving a picker (`onChange`) writes the duration; reading it back gives the pickers' values
        when the seconds are below 60. */
    method SetPickers(newMinutes: int, newSeconds: int)
      modifies this
      ensures minutes == newMinutes && seconds == newSeconds
      ensures restTimerDuration == DurationOf(newMinutes, newSeconds)
      ensures newMinutes >= 0 && 0 <= newSeconds < 60 ==> Split(restTimerDuration) == (newMinutes, newSeconds)
    {
      minutes, seconds := newMinutes, newSeconds;
      UpdateDuration();
      if newMinutes >= 0 && 0 <= newSeconds < 60 {
        SplitDurationOf(newMinutes, newSeconds);
      }
    }
  }
}

=== FILE: rpe.dfy ===
/** The RPE (rate of perceived exertion) table shared by the RPE calculators, and the estimates
    computed from it: an estimated one-rep max from a set, and a set weight from that estimate. */
module Rpe {
  import opened Wrappers

  /** Pounds per kilogram, as the RPE calculators use it. */
  const LbPerKg: real := 2.2046226218

  /** `rpeTable`, one row per RPE: the fraction of the one-rep max for 1, 2, ..., 10 reps. */
  const Rpe10: seq<real> := [1.00, 0.955, 0.922, 0.892, 0.866, 0.84, 0.816, 0.793, 0.771, 0.749]
  const Rpe95: seq<real> := [0.978, 0.939, 0.907, 0.879, 0.853, 0.828, 0.804, 0.782, 0.760, 0.739]
  const Rpe9: seq<real> := [0.955, 0.922, 0.892, 0.866, 0.840, 0.816, 0.793, 0.771, 0.749, 0.728]
  const Rpe85: seq<real> := [0.939, 0.907, 0.879, 0.853, 0.828, 0.804, 0.782, 0.760, 0.739, 0.718]
  const Rpe8: seq<real> := [0.922, 0.892, 0.866, 0.840, 0.816, 0.793, 0.771, 0.749, 0.728, 0.707]
  const Rpe75: seq<real> := [0.907, 0.879, 0.853, 0.828, 0.804, 0.782, 0.760, 0.739, 0.718, 0.698]

  /** `rpeTable[rpe]`: the row of an RPE, absent for an RPE the table does not list. */
  function Row(rpe: real): (row: Option<seq<real>>)
    ensures row.Some? ==> |row.value| == 10
    ensures row.Some? ==> forall i :: 0 <= i < 10 ==> 0.0 < row.value[i] <= 1.0
  {
    if rpe == 10.0 then Some(Rpe10)
    else if rpe == 9.5 then Some(Rpe95)
    else if rpe == 9.0 then Some(Rpe9)
    else if rpe == 8.5 then Some(Rpe85)
    else if rpe == 8.0 then Some(Rpe8)
    else if rpe == 7.5 then Some(Rpe75)
    else None
  }

  /** The RPE values the table has a row for. */
  predicate IsTableRpe(rpe: real)
  {
    rpe == 10.0 || rpe == 9.5 || rpe == 9.0 || rpe == 8.5 || rpe == 8.0 || rpe == 7.5
  }

  /** The guard of `calculate1RM`, `calculateNextSetWeight` and `calculate`: reps in 1...10, then
      `rpeTable[rpe]?[reps]`. Present exactly for a table RPE and 1 to 10 reps, and then a
      fraction in (0, 1]. */
  function Percent(rpe: real, reps: int): (p: Option<real>)
    ensures p.Some? <==> IsTableRpe(rpe) && 1 <= reps <= 10
    ensures p.Some? ==> 0.0 < p.value <= 1.0
  {
    if 1 <= reps <= 10 && Row(rpe).Some? then Some(Row(rpe).value[reps - 1]) else None
  }

  /** Within a row, the fraction strictly decreases as the reps increase. */
  lemma RowsDecrease(rpe: real, reps: int)
    requires IsTableRpe(rpe) && 1 <= reps < 10
    ensures Percent(rpe, reps).value > Percent(rpe, reps + 1).value
  {
  }

  /** For a fixed rep count the fraction strictly increases with the RPE (rows are half a point
      apart). */
  lemma ColumnsIncrease(rpe: real, reps: int)
    requires IsTableRpe(rpe) && rpe < 10.0 && 1 <= reps <= 10
    ensures Percent(rpe, reps).value < Percent(rpe + 0.5, reps).value
  {
  }

  /** `weightInLb / percent`, with the kilogram input converted to pounds and the result back. */
  function EstimateFrom(weight: real, percent: real, isKg: bool): (e: real)
    requires percent > 0.0
    ensures e == weight / percent
  {
    var weightInLb := if isKg then weight * LbPerKg else weight;
    var estimateLb := weightInLb / percent;
    if isKg then estimateLb / LbPerKg else estimateLb
  }

  /** `e1RMLb * percent`, again through pounds. */
  function SetWeightFrom(e1rm: real, percent: real, isKg: bool): (w: real)
    ensures w == e1rm * percent
  {
    var e1rmLb := if isKg then e1rm * LbPerKg else e1rm;
    var weightLb := e1rmLb * percent;
    if isKg then weightLb / LbPerKg else weightLb
  }

  /** `calculate1RM` / `calculate`: absent unless the weight, reps and RPE texts parse, the reps are
      1 to 10 and the RPE is a table row; otherwise the weight over the table fraction, the same
      number in either unit. */
  function Estimate1RM(weight: Option<real>, reps: Option<int>, rpe: Option<real>, isKg: bool): (e: Option<real>)
    ensures e.Some? <==> weight.Some? && reps.Some? && rpe.Some? && Percent(rpe.value, reps.value).Some?
    ensures e.Some? ==> e.value == weight.value / Percent(rpe.value, reps.value).value
  {
    if weight.Some? && reps.Some? && rpe.Some? && Percent(rpe.value, reps.value).Some? then
      Some(EstimateFrom(weight.value, Percent(rpe.value, reps.value).value, isKg))
    else None
  }

  /** The kilogram path multiplies and divides by the same factor: the estimate does not depend
      on the unit. */
  lemma EstimateUnitIndependent(weight: Option<real>, reps: Option<int>, rpe: Option<real>)
    ensures Estimate1RM(weight, reps, rpe, true) == Estimate1RM(weight, reps, rpe, false)
  {
  }

  /** `calculateNextSetWeight`: absent unless there is an estimate and the reps and RPE parse into
      the table; otherwise the estimate times the table fraction. */
  function NextSetWeight(e1rm: Option<real>, reps: Option<int>, rpe: Option<real>, isKg: bool): (w: Option<real>)
    ensures w.Some? <==> e1rm.Some? && reps.Some? && rpe.Some? && Percent(rpe.value, reps.value).Some?
    ensures w.Some? ==> w.value == e1rm.value * Percent(rpe.value, reps.value).value
  {
    if e1rm.Some? && reps.Some? && rpe.Some? && Percent(rpe.value, reps.value).Some? then
      Some(SetWeightFrom(e1rm.value, Percent(rpe.value, reps.value).value, isKg))
    else None
  }

  /** `isRPEValid`: the last-set inputs parse, the weight is positive and the table has the entry. */
  predicate IsRpeValid(weight: Option<real>, reps: Option<int>, rpe: Option<real>)
  {
    weight.Some? && weight.value > 0.0 && reps.Some? && 1 <= reps.value <= 10
    && rpe.Some? && Percent(rpe.value, reps.value).Some?
  }

  /** `isNextSetValid`: the next-set inputs parse into the table and there is an estimate. */
  predicate IsNextSetValid(reps: Option<int>, rpe: Option<real>, e1rm: Option<real>)
  {
    reps.Some? && 1 <= reps.value <= 10 && rpe.Some? && Percent(rpe.value, reps.value).Some? && e1rm.Some?
  }

  /** Valid last-set inputs always produce an estimate. */
  lemma ValidHasEstimate(weight: Option<real>, reps: Option<int>, rpe: Option<real>, isKg: bool)
    requires IsRpeValid(weight, reps, rpe)
    ensures Estimate1RM(weight, reps, rpe, isKg).Some?
  {
  }

  /** A non-negative weight never estimates below itself, since the fraction is at most 1. */
  lemma EstimateAtLeastWeight(weight: real, reps: int, rpe: real, isKg: bool)
    requires weight >= 0.0
    requires Estimate1RM(Some(weight), Some(reps), Some(rpe), isKg).Some?
    ensures Estimate1RM(Some(weight), Some(reps), Some(rpe), isKg).value >= weight
  {
    var p := Percent(rpe, reps).value;
    assert weight / p * p == weight;
    assert weight * (1.0 / p - 1.0) >= 0.0;
  }

  /** One rep at RPE 10 estimates the weight itself (the test's 300 → 300). */
  lemma TopSingleIsMax(weight: real, isKg: bool)
    ensures Estimate1RM(Some(weight), Some(1), Some(10.0), isKg) == Some(weight)
  {
    assert Percent(10.0, 1) == Some(1.0);
  }

  /** 225 for 5 at RPE 9 estimates about 268 (225 / 0.840). */
  lemma ExampleFiveAtNine()
    ensures var e := Estimate1RM(Some(225.0), Some(5), Some(9.0), false);
      e.Some? && 267.8 < e.value < 267.9
  {
    assert Percent(9.0, 5) == Some(0.840);
  }

  /** Planning the next set at the reps and RPE of the last set gives back the last set's weight. */
  lemma NextSetRoundTrip(weight: real, reps: int, rpe: real, isKg: bool)
    requires Estimate1RM(Some(weight), Some(reps), Some(rpe), isKg).Some?
    ensures NextSetWeight(Estimate1RM(Some(weight), Some(reps), Some(rpe), isKg), Some(reps), Some(rpe), isKg)
      == Some(weight)
  {
    var p := Percent(rpe, reps).value;
    assert weight / p * p == weight;
  }
}

=== FILE: rpe_calculator_view.dfy ===
/** The stand-alone RPE calculator screen: weight, reps and RPE fields, a unit toggle and the
    estimated one-rep max it shows. */
module RpeCalculator {
  import opened Wrappers
  import Rpe

  class RpeCalculatorView {
    var weight: Option<real>
    var reps: Option<int>
    var rpe: Option<real>
    var isKgMode: bool
    var estimated1RM: Option<real>

    /** All fields empty (their text does not parse), pounds, no estimate. */
    constructor()
      ensures weight == None && reps == None && rpe == None && !isKgMode && estimated1RM == None
    {
      weight, reps, rpe := None, None, None;
      isKgMode := false;
      estimated1RM := None;
    }

    /** `calculate()`: absent unless the three fields parse, the reps are 1 to 10 and the table has
        the RPE; otherwise the weight over the table fraction, converted through pounds and back. */
    method Calculate()
      modifies this`estimated1RM
      ensures estimated1RM == Rpe.Estimate1RM(weight, reps, rpe, isKgMode)
      ensures estimated1RM.Some? ==> estimated1RM == Rpe.Estimate1RM(weight, reps, rpe, !isKgMode)
    {
      if weight.None? || reps.None? || rpe.None? || !(1 <= reps.value <= 10) || Rpe.Row(rpe.value).None? {
        estimated1RM := None;
        return;
      }
      var percent := Rpe.Row(rpe.value).value[reps.value - 1];
      assert Rpe.Percent(rpe.value, reps.value) == Some(percent);
      var weightInLb := if isKgMode then weight.value * Rpe.LbPerKg else weight.value;
      var estimated1RMLb := weightInLb / percent;
      estimated1RM := Some(if isKgMode then estimated1RMLb / Rpe.LbPerKg else estimated1RMLb);
      assert estimated1RM.value == Rpe.EstimateFrom(weight.value, percent, isKgMode);
      Rpe.EstimateUnitIndependent(weight, reps, rpe);
    }
  }
}

=== FILE: sorting.dfy ===
/** Swift's `sort(by:)` / `sorted(by:)`: the caller passes `areInIncreasingOrder`, a strict
    "comes before" relation. The library's algorithm is not part of the app; it is modelled here by
    an insertion sort, of which the app relies only on the result being ordered and a permutation. */
module Sorting {

  /** What Swift requires of `areInIncreasingOrder`: a strict weak ordering. Asymmetry, and
      "if a comes before c then, for any b, a comes before b or b comes before c". */
  ghost predicate StrictWeakOrder<T(!new)>(lt: (T, T) -> bool)
  {
    (forall a, b :: lt(a, b) ==> !lt(b, a))
    && (forall a, b, c {:trigger lt(a, b), lt(b, c)} :: lt(a, c) ==> lt(a, b) || lt(b, c))
  }

  /** No element comes strictly before an element that precedes it. */
  predicate SortedBy<T>(s: seq<T>, lt: (T, T) -> bool)
  {
    forall i, j :: 0 <= i < j < |s| ==> !lt(s[j], s[i])
  }

  /** Inserts `x` in front of the first element that does not come strictly before it. */
  function Insert<T>(x: T, s: seq<T>, lt: (T, T) -> bool): (r: seq<T>)
    ensures |r| == |s| + 1
    ensures multiset(r) == multiset(s) + multiset{x}
  {
    if s == [] || !lt(s[0], x) then [x] + s
    else
      var rest := Insert(x, s[1..], lt);
      assert s == [s[0]] + s[1..];
      [s[0]] + rest
  }

  function SortBy<T>(s: seq<T>, lt: (T, T) -> bool): (r: seq<T>)
    ensures |r| == |s|
    ensures multiset(r) == multiset(s)
  {
    if s == [] then []
    else
      var rest := SortBy(s[1..], lt);
      assert s == [s[0]] + s[1..];
      Insert(s[0], rest, lt)
  }

  lemma {:induction false} InsertSorted<T(!new)>(x: T, s: seq<T>, lt: (T, T) -> bool)
    requires StrictWeakOrder(lt) && SortedBy(s, lt)
    ensures SortedBy(Insert(x, s, lt), lt)
  {
    if s == [] || !lt(s[0], x) {
      var r := [x] + s;
      forall i, j | 0 <= i < j < |r| ensures !lt(r[j], r[i]) {
        if i == 0 {
          if j > 1 {
            assert !lt(s[j - 1], s[0]);
          }
        }
      }
    } else {
      var rest := Insert(x, s[1..], lt);
      InsertSorted(x, s[1..], lt);
      var r := [s[0]] + rest;
      forall j | 0 < j < |r| ensures !lt(r[j], s[0]) {
        var e := r[j];
        assert e in multiset(rest);
        assert e in multiset(s[1..]) + multiset{x};
        if e != x {
          assert e in s[1..];
          var k :| 0 <= k < |s[1..]| && s[1..][k] == e;
          assert s[k + 1] == e;
        }
      }
      assert r == Insert(x, s, lt);
    }
  }

  lemma {:induction false} SortBySorted<T(!new)>(s: seq<T>, lt: (T, T) -> bool)
    requires StrictWeakOrder(lt)
    ensures SortedBy(SortBy(s, lt), lt)
  {
    if s != [] {
      SortBySorted(s[1..], lt);
      InsertSorted(s[0], SortBy(s[1..], lt), lt);
    }
  }

  /** The element sets agree when the multisets do. */
  lemma SameElements<T>(a: seq<T>, b: seq<T>)
    requires multiset(a) == multiset(b)
    ensures forall x :: x in a <==> x in b
  {
    forall x ensures x in a <==> x in b {
      assert x in a <==> x in multiset(a);
      assert x in b <==> x in multiset(b);
    }
  }
}

=== FILE: templates.dfy ===
/** Workout templates: the exercise library, the saved templates, and the two screens that build a
    template from a selection of exercises — `CreateWorkoutView` for a new one and
    `EditWorkoutTemplateView` for an existing one. */
module Templates {
  import opened Wrappers
  import opened Lists
  import opened Text
  import opened Workouts

  // ---------------------------------------------------------------------------------------------
  // Selecting exercises
  // ---------------------------------------------------------------------------------------------

  /** `{ $0.id == id }` on exercises. */
  function ExerciseHasId(id: nat): Exercise -> bool
  {
    (e: Exercise) => e.id == id
  }

  /** Some selected exercise has this id (`contains(where:)`, the checkmark). */
  predicate Selected(selection: seq<Exercise>, id: nat)
  {
    exists i :: 0 <= i < |selection| && selection[i].id == id
  }

  /** No two selected exercises share an id. */
  predicate UniqueIds(selection: seq<Exercise>)
  {
    forall i, j :: 0 <= i < j < |selection| ==> selection[i].id != selection[j].id
  }

  /** `toggleExerciseSelection(exercise:)`: the first selected exercise with the same id is
      removed; if there is none, the exercise is appended. */
  function Toggle(selection: seq<Exercise>, exercise: Exercise): (r: seq<Exercise>)
  {
    var index := FirstIndexWhere(selection, ExerciseHasId(exercise.id));
    if index.Some? then RemoveAt(selection, index.value) else selection + [exercise]
  }

  /** Tapping an exercise that is not selected appends it. */
  lemma ToggleAppends(selection: seq<Exercise>, exercise: Exercise)
    requires !Selected(selection, exercise.id)
    ensures Toggle(selection, exercise) == selection + [exercise]
  {
    forall i | 0 <= i < |selection| ensures !ExerciseHasId(exercise.id)(selection[i]) {
    }
  }

  /** Tapping a selected exercise removes the first exercise with its id; the others keep their
      order. */
  lemma ToggleRemovesFirst(selection: seq<Exercise>, exercise: Exercise, k: nat)
    requires k < |selection| && selection[k].id == exercise.id
    requires forall i :: 0 <= i < k ==> selection[i].id != exercise.id
    ensures Toggle(selection, exercise) == RemoveAt(selection, k)
  {
    assert ExerciseHasId(exercise.id)(selection[k]);
    assert forall i :: 0 <= i < k ==> !ExerciseHasId(exercise.id)(selection[i]);
  }

  /** With distinct ids, a toggle flips whether the exercise's id is selected and never creates a
      duplicate id. */
  lemma ToggleFlips(selection: seq<Exercise>, exercise: Exercise)
    requires UniqueIds(selection)
    ensures UniqueIds(Toggle(selection, exercise))
    ensures Selected(Toggle(selection, exercise), exercise.id) <==> !Selected(selection, exercise.id)
  {
    var r := Toggle(selection, exercise);
    var index := FirstIndexWhere(selection, ExerciseHasId(exercise.id));
    if index.Some? {
      var k := index.value;
      assert selection[k].id == exercise.id;
      assert r == RemoveAt(selection, k);
      forall i | 0 <= i < |r| ensures r[i].id != exercise.id {
        if i < k {
          assert r[i] == selection[i];
        } else {
          assert r[i] == selection[i + 1];
        }
      }
      forall i, j | 0 <= i < j < |r| ensures r[i].id != r[j].id {
        var i' := if i < k then i else i + 1;
        var j' := if j < k then j else j + 1;
        assert r[i] == selection[i'] && r[j] == selection[j'];
      }
    } else {
      assert !Selected(selection, exercise.id) by {
        forall i | 0 <= i < |selection| ensures selection[i].id != exercise.id {
          assert !ExerciseHasId(exercise.id)(selection[i]);
        }
      }
      assert r == selection + [exercise];
      forall i, j | 0 <= i < j < |r| ensures r[i].id != r[j].id {
        if j == |selection| {
          assert r[i] == selection[i];
        }
      }
      assert r[|selection|] == exercise;
    }
  }

  /** Tapping an unselected exercise twice gives back the selection. */
  lemma ToggleTwice(selection: seq<Exercise>, exercise: Exercise)
    requires !Selected(selection, exercise.id)
    ensures Toggle(Toggle(selection, exercise), exercise) == selection
  {
    ToggleAppends(selection, exercise);
    var once := selection + [exercise];
    ToggleRemovesFirst(once, exercise, |selection|);
    assert RemoveAt(once, |selection|) == selection;
  }

  /** `remove(atOffsets:)` on the selection keeps exactly the positions not listed, in order. */
  lemma RemoveOffsetsKeepsRest(selection: seq<Exercise>, offsets: set<nat>)
    ensures forall j :: 0 <= j < |RemoveOffsets(selection, offsets)| ==>
      RemoveOffsets(selection, offsets)[j] == selection[Kept(|selection|, offsets)[j]]
    ensures forall i :: 0 <= i < |selection| && i !in offsets ==>
      exists j :: 0 <= j < |Kept(|selection|, offsets)| && Kept(|selection|, offsets)[j] == i
    ensures forall j :: 0 <= j < |Kept(|selection|, offsets)| ==> Kept(|selection|, offsets)[j] !in offsets
    ensures forall a, b :: 0 <= a < b < |Kept(|selection|, offsets)| ==>
      Kept(|selection|, offsets)[a] < Kept(|selection|, offsets)[b]
  {
    KeptPositions(|selection|, offsets);
    var k := Kept(|selection|, offsets);
    forall i | 0 <= i < |selection| && i !in offsets
      ensures exists j :: 0 <= j < |k| && k[j] == i
    {
      assert i in k;
    }
  }

  // ---------------------------------------------------------------------------------------------
  // Saving an edited template
  // ---------------------------------------------------------------------------------------------

  /** Why `saveTemplate()` refused to save. */
  datatype TemplateError = EmptyName | NoExercises

  /** The alert text of each refusal. */
  function Message(e: TemplateError): string
  {
    match e
    case EmptyName => "Workout name cannot be empty."
    case NoExercises => "Please select at least one exercise."
  }

  /** The two guards of `saveTemplate()`: the trimmed name, or why it is refused. */
  function ValidateTemplate(workoutName: string, selection: seq<Exercise>): (r: Result<string, TemplateError>)
    ensures r.Success? <==> !AllWhitespace(workoutName) && selection != []
    ensures r.Success? ==>
      r.value == Trim(workoutName) && r.value != []
      && !IsWhitespace(r.value[0]) && !IsWhitespace(r.value[|r.value| - 1])
    ensures r.Failure? ==> (r.error == EmptyName <==> AllWhitespace(workoutName))
  {
    var trimmedName := Trim(workoutName);
    if trimmedName == [] then Failure(EmptyName)
    else if selection == [] then Failure(NoExercises)
    else Success(trimmedName)
  }

  /** A name made only of an em space (U+2003) trims to nothing, so it is refused as empty even
      with exercises selected. */
  lemma ExampleEmSpaceName(exercise: Exercise)
    ensures ValidateTemplate("\U{2003}", [exercise]) == Failure(EmptyName)
  {
    assert AllWhitespace("\U{2003}");
  }

  /** Some saved template has this id. */
  predicate HasTemplate(templates: seq<WorkoutTemplate>, id: nat)
  {
    exists i :: 0 <= i < |templates| && templates[i].id == id
  }

  /** `{ $0.id == id }` on templates. */
  function TemplateHasId(id: nat): WorkoutTemplate -> bool
  {
    (t: WorkoutTemplate) => t.id == id
  }

  /** The saved templates after an edit: the first template with the same id is overwritten,
      every other one is kept; with no such template the list is unchanged. */
  lemma ReplaceTemplate(templates: seq<WorkoutTemplate>, template: WorkoutTemplate)
    ensures |ReplaceFirst(templates, TemplateHasId(template.id), template)| == |templates|
    ensures (forall i :: 0 <= i < |templates| ==> templates[i].id != template.id) ==>
      ReplaceFirst(templates, TemplateHasId(template.id), template) == templates
    ensures forall k :: 0 <= k < |templates| && templates[k].id == template.id
                        && (forall i :: 0 <= i < k ==> templates[i].id != template.id) ==>
      ReplaceFirst(templates, TemplateHasId(template.id), template)[k] == template
      && forall i :: 0 <= i < |templates| && i != k ==>
           ReplaceFirst(templates, TemplateHasId(template.id), template)[i] == templates[i]
  {
    var r := ReplaceFirst(templates, TemplateHasId(template.id), template);
    forall k | 0 <= k < |templates| && templates[k].id == template.id
                && (forall i :: 0 <= i < k ==> templates[i].id != template.id)
      ensures r[k] == template && forall i :: 0 <= i < |templates| && i != k ==> r[i] == templates[i]
    {
      assert TemplateHasId(template.id)(templates[k]);
      assert forall i :: 0 <= i < k ==> !TemplateHasId(template.id)(templates[i]);
    }
  }

  // ---------------------------------------------------------------------------------------------
  // The stores and the screens
  // ---------------------------------------------------------------------------------------------

  /** `ExerciseLibraryViewModel` (saving is not modelled). */
  class ExerciseLibrary {
    var exercises: seq<Exercise>

    constructor(exercises: seq<Exercise>)
      ensures this.exercises == exercises
    {
      this.exercises := exercises;
    }

    /** `addExercise(name:)`; `id` is the new exercise's fresh `UUID`. */
    method AddExercise(name: string, id: nat)
      modifies this
      ensures exercises == old(exercises) + [Exercise(id, name)]
    {
      exercises := exercises + [Exercise(id, name)];
    }

    /** `removeExercise(at:)`. */
    method RemoveExercise(offsets: set<nat>)
      modifies this
      ensures exercises == RemoveOffsets(old(exercises), offsets)
    {
      exercises := RemoveOffsets(exercises, offsets);
    }
  }

  /** `WorkoutTemplateViewModel` (saving is not modelled). */
  class TemplateStore {
    var workoutTemplates: seq<WorkoutTemplate>

    constructor(workoutTemplates: seq<WorkoutTemplate>)
      ensures this.workoutTemplates == workoutTemplates
    {
      this.workoutTemplates := workoutTemplates;
    }

    /** `addWorkoutTemplate(_:)`. */
    method AddWorkoutTemplate(template: WorkoutTemplate)
      modifies this
      ensures workoutTemplates == old(workoutTemplates) + [template]
    {
      workoutTemplates := workoutTemplates + [template];
    }
  }

  /** `CreateWorkoutView`. */
  class CreateWorkoutView {
    const store: TemplateStore
    const library: ExerciseLibrary
    var workoutName: string
    var selectedExercises: seq<Exercise>
    var newExerciseName: string
    var dismissed: bool

    constructor(store: TemplateStore, library: ExerciseLibrary)
      ensures this.store == store && this.library == library
      ensures workoutName == [] && selectedExercises == [] && newExerciseName == [] && !dismissed
      ensures UniqueIds(selectedExercises)
    {
      this.store := store;
      this.library := library;
      workoutName := [];
      selectedExercises := [];
      newExerciseName := [];
      dismissed := false;
    }

    /** The plus button: a non-empty name goes into the library and the field is cleared; an
        empty field does nothing. `id` is the fresh `UUID`. */
    method AddNewExercise(id: nat)
      modifies library, this`newExerciseName
      ensures old(newExerciseName) != [] ==>
        library.exercises == old(library.exercises) + [Exercise(id, old(newExerciseName))]
        && newExerciseName == []
      ensures old(newExerciseName) == [] ==>
        library.exercises == old(library.exercises) && newExerciseName == old(newExerciseName)
    {
      if newExerciseName != [] {
        library.AddExercise(newExerciseName, id);
        newExerciseName := [];
      }
    }

    /** `toggleExerciseSelection(exercise:)`. */
    method ToggleExerciseSelection(exercise: Exercise)
      modifies this`selectedExercises
      ensures selectedExercises == Toggle(old(selectedExercises), exercise)
      ensures old(UniqueIds(selectedExercises)) ==> UniqueIds(selectedExercises)
    {
      ToggleKeepsUniqueIds(selectedExercises, exercise);
      var index := FirstIndexWhere(selectedExercises, ExerciseHasId(exercise.id));
      if index.Some? {
        selectedExercises := RemoveAt(selectedExercises, index.value);
      } else {
        selectedExercises := selectedExercises + [exercise];
      }
    }

    /** `removeExercise(at:)`. */
    method RemoveExercise(offsets: set<nat>)
      modifies this`selectedExercises
      ensures selectedExercises == RemoveOffsets(old(selectedExercises), offsets)
    {
      selectedExercises := RemoveOffsets(selectedExercises, offsets);
    }

    /** `.disabled(workoutName.isEmpty || selectedExercises.isEmpty)`. */
    predicate SaveDisabled()
      reads this
    {
      workoutName == [] || selectedExercises == []
    }

    /** `saveWorkoutTemplate()`: a new template with the name exactly as typed (not trimmed) and the
        current selection, appended to the saved templates; then the screen closes. `id` is the
        fresh `UUID`. */
    method SaveWorkoutTemplate(id: nat)
      modifies store, this`dismissed
      ensures store.workoutTemplates == old(store.workoutTemplates) + [WorkoutTemplate(id, workoutName, selectedExercises)]
      ensures dismissed
    {
      store.AddWorkoutTemplate(WorkoutTemplate(id, workoutName, selectedExercises));
      dismissed := true;
    }

    /** The "Save Workout" button, which only fires while it is enabled. */
    method SaveButton(id: nat)
      modifies store, this`dismissed
      ensures SaveDisabled() ==> store.workoutTemplates == old(store.workoutTemplates) && dismissed == old(dismissed)
      ensures !SaveDisabled() ==>
        store.workoutTemplates == old(store.workoutTemplates) + [WorkoutTemplate(id, workoutName, selectedExercises)]
        && workoutName != [] && selectedExercises != [] && dismissed
    {
      if !SaveDisabled() {
        SaveWorkoutTemplate(id);
      }
    }
  }

  /** Helper for the toggle methods: the facts `ToggleFlips` gives, when its precondition holds. */
  lemma ToggleKeepsUniqueIds(selection: seq<Exercise>, exercise: Exercise)
    ensures UniqueIds(selection) ==> UniqueIds(Toggle(selection, exercise))
  {
    if UniqueIds(selection) {
      ToggleFlips(selection, exercise);
    }
  }

  /** `EditWorkoutTemplateView`. */
  class EditWorkoutTemplateView {
    const store: TemplateStore
    const library: ExerciseLibrary
    var template: WorkoutTemplate
    var workoutName: string
    var selectedExercises: seq<Exercise>
    var showErrorAlert: bool
    var errorMessage: string
    var showDeleteExerciseConfirmation: bool
    var exerciseToDelete: Option<set<nat>>
    var dismissed: bool

    /** `init(workoutTemplateViewModel:exerciseLibraryViewModel:template:)`: the fields start from
        the template. */
    constructor(store: TemplateStore, library: ExerciseLibrary, template: WorkoutTemplate)
      ensures this.store == store && this.library == library && this.template == template
      ensures workoutName == template.name && selectedExercises == template.exercises
      ensures !showErrorAlert && errorMessage == [] && !showDeleteExerciseConfirmation
      ensures exerciseToDelete.None? && !dismissed
    {
      this.store := store;
      this.library := library;
      this.template := template;
      workoutName := template.name;
      selectedExercises := template.exercises;
      showErrorAlert := false;
      errorMessage := [];
      showDeleteExerciseConfirmation := false;
      exerciseToDelete := None;
      dismissed := false;
    }

    /** `toggleExerciseSelection(exercise:)`. */
    method ToggleExerciseSelection(exercise: Exercise)
      modifies this`selectedExercises
      ensures selectedExercises == Toggle(old(selectedExercises), exercise)
      ensures old(UniqueIds(selectedExercises)) ==> UniqueIds(selectedExercises)
    {
      ToggleKeepsUniqueIds(selectedExercises, exercise);
      var index := FirstIndexWhere(selectedExercises, ExerciseHasId(exercise.id));
      if index.Some? {
        selectedExercises := RemoveAt(selectedExercises, index.value);
      } else {
        selectedExercises := selectedExercises + [exercise];
      }
    }

    /** `removeExercise(at:)`. */
    method RemoveExercise(offsets: set<nat>)
      modifies this`selectedExercises
      ensures selectedExercises == RemoveOffsets(old(selectedExercises), offsets)
    {
      selectedExercises := RemoveOffsets(selectedExercises, offsets);
    }

    /** `.disabled(workoutName.isEmpty || selectedExercises.isEmpty)`: the untrimmed name is
        checked, so a name of spaces gets through to `saveTemplate()`. */
    predicate SaveDisabled()
      reads this
    {
      workoutName == [] || selectedExercises == []
    }

    /** `saveTemplate()`. A blank name or an empty selection shows its message and changes nothing
        else. Otherwise the template takes the trimmed name and the selection, and overwrites the
        saved template with its id, after which the screen closes; with no such saved template
        nothing is stored and the screen stays. */
    method SaveTemplate()
      modifies store, this`template, this`errorMessage, this`showErrorAlert, this`dismissed
      ensures ValidateTemplate(old(workoutName), old(selectedExercises)).Failure? ==>
        errorMessage == Message(ValidateTemplate(old(workoutName), old(selectedExercises)).error)
        && showErrorAlert
        && template == old(template) && store.workoutTemplates == old(store.workoutTemplates)
        && dismissed == old(dismissed)
      ensures ValidateTemplate(old(workoutName), old(selectedExercises)).Success? ==>
        template == old(template).(name := Trim(workoutName), exercises := selectedExercises)
        && store.workoutTemplates == ReplaceFirst(old(store.workoutTemplates), TemplateHasId(template.id), template)
        && errorMessage == old(errorMessage) && showErrorAlert == old(showErrorAlert)
        && dismissed == (old(dismissed) || HasTemplate(old(store.workoutTemplates), template.id))
    {
      var validated := ValidateTemplate(workoutName, selectedExercises);
      match validated
      case Failure(reason) =>
        ShowError(reason);
      case Success(trimmedName) =>
        UpdateTemplate(trimmedName);
    }

    /** `errorMessage = ...; showErrorAlert = true`. */
    method ShowError(reason: TemplateError)
      modifies this`errorMessage, this`showErrorAlert
      ensures errorMessage == Message(reason) && showErrorAlert
    {
      errorMessage := Message(reason);
      showErrorAlert := true;
    }

    /** The part of `saveTemplate()` after the guards: the template takes the name and the
        selection and overwrites the saved template with its id, closing the screen if there was
        one. */
    method UpdateTemplate(trimmedName: string)
      modifies store, this`template, this`dismissed
      ensures template == old(template).(name := trimmedName, exercises := selectedExercises)
      ensures store.workoutTemplates == ReplaceFirst(old(store.workoutTemplates), TemplateHasId(template.id), template)
      ensures dismissed == (old(dismissed) || HasTemplate(old(store.workoutTemplates), template.id))
    {
      template := template.(name := trimmedName);
      template := template.(exercises := selectedExercises);
      var index := FirstIndexWhere(store.workoutTemplates, TemplateHasId(template.id));
      if index.Some? {
        assert store.workoutTemplates[index.value].id == template.id;
        store.workoutTemplates := store.workoutTemplates[index.value := template];
        dismissed := true;
      } else {
        assert !HasTemplate(store.workoutTemplates, template.id) by {
          forall i | 0 <= i < |store.workoutTemplates| ensures store.workoutTemplates[i].id != template.id {
            assert !TemplateHasId(template.id)(store.workoutTemplates[i]);
          }
        }
      }
    }

    /** Swiping a library exercise asks first. */
    method ConfirmExerciseDelete(offsets: set<nat>)
      modifies this`exerciseToDelete, this`showDeleteExerciseConfirmation
      ensures exerciseToDelete == Some(offsets) && showDeleteExerciseConfirmation
    {
      exerciseToDelete := Some(offsets);
      showDeleteExerciseConfirmation := true;
    }

    /** The alert's Cancel button: the library is untouched. */
    method CancelExerciseDelete()
      modifies this`exerciseToDelete, this`showDeleteExerciseConfirmation
      ensures exerciseToDelete.None? && !showDeleteExerciseConfirmation
      ensures library.exercises == old(library.exercises)
    {
      exerciseToDelete := None;
      showDeleteExerciseConfirmation := false;
    }

    /** The alert's Delete button: the remembered rows leave the library (the selection keeps its
        copies). */
    method DeleteExercise()
      modifies library, this`exerciseToDelete, this`showDeleteExerciseConfirmation
      ensures exerciseToDelete.None? && !showDeleteExerciseConfirmation
      ensures old(exerciseToDelete).Some? ==>
        library.exercises == RemoveOffsets(old(library.exercises), old(exerciseToDelete).value)
      ensures old(exerciseToDelete).None? ==> library.exercises == old(library.exercises)
      ensures selectedExercises == old(selectedExercises)
    {
      if exerciseToDelete.Some? {
        library.RemoveExercise(exerciseToDelete.value);
      }
      exerciseToDelete := None;
      showDeleteExerciseConfirmation := false;
    }
  }
}

=== FILE: text.dfy ===
/** String helpers: decimal rendering of integers (Swift's `"\(n)"` and `%d`, `%02d`),
    substring search, whitespace trimming and line counting. */
module Text {

  predicate IsDigit(c: char) { '0' <= c <= '9' }

  predicate AllDigits(s: string) { forall i :: 0 <= i < |s| ==> IsDigit(s[i]) }

  function DigitChar(d: nat): (c: char)
    requires d < 10
    ensures IsDigit(c) && (c as int) - ('0' as int) == d
  {
    (('0' as int) + d) as char
  }

  /** Decimal digits of a natural number, without leading zeros. */
  function NatToString(n: nat): (s: string)
    ensures |s| >= 1 && AllDigits(s)
    ensures n < 10 <==> |s| == 1
  {
    if n < 10 then [DigitChar(n)] else NatToString(n / 10) + [DigitChar(n % 10)]
  }

  /** The number a string of digits denotes: the inverse of NatToString. */
  function DigitsValue(s: string): nat
    requires AllDigits(s)
  {
    if s == [] then 0 else 10 * DigitsValue(s[..|s| - 1]) + ((s[|s| - 1] as int) - ('0' as int))
  }

  lemma {:induction false} NatToStringRoundTrip(n: nat)
    ensures DigitsValue(NatToString(n)) == n
  {
    if n >= 10 {
      var s := NatToString(n);
      assert s[..|s| - 1] == NatToString(n / 10);
      NatToStringRoundTrip(n / 10);
    }
  }

  /** Swift's `"\(n)"` and `String(format: "%d", n)` for an Int. */
  function IntToString(n: int): (s: string)
    ensures n >= 0 ==> s == NatToString(n)
    ensures n < 0 ==> s == "-" + NatToString(-n)
  {
    if n < 0 then "-" + NatToString(-n) else NatToString(n)
  }

  /** `String(format: "%02d", n)`: at least two characters, zero-padded. */
  function Pad2(n: int): (s: string)
    ensures 0 <= n < 100 ==> |s| == 2 && AllDigits(s) && DigitsValue(s) == n
    ensures n < 0 || n >= 10 ==> s == IntToString(n)
  {
    if 0 <= n < 10 then
      assert DigitsValue("0" + NatToString(n)) == n by {
        assert ("0" + NatToString(n))[..1] == "0";
        assert "0"[..0] == [];
      }
      "0" + NatToString(n)
    else if 0 <= n < 100 then
      NatToStringRoundTrip(n);
      IntToString(n)
    else
      IntToString(n)
  }

  /** `s.contains(sub)` for strings. */
  predicate Contains(s: string, sub: string)
  {
    exists i | 0 <= i <= |s| - |sub| :: OccursAt(s, sub, i)
  }

  predicate OccursAt(s: string, sub: string, i: int)
  {
    0 <= i <= |s| - |sub| && s[i..i + |sub|] == sub
  }

  /** The characters `trimmingCharacters(in: .whitespacesAndNewlines)` removes: the Unicode space
      separators (general category Zs), the line and paragraph separators, and the control
      characters U+0009 to U+000D and U+0085. */
  predicate IsWhitespace(c: char)
  {
    c == ' ' || c == '\t' || c == '\n' || c == '\r' || c == '\U{0B}' || c == '\U{0C}'
    || c == '\U{85}' || c == '\U{A0}' || c == '\U{1680}' || '\U{2000}' <= c <= '\U{200A}'
    || c == '\U{2028}' || c == '\U{2029}' || c == '\U{202F}' || c == '\U{205F}' || c == '\U{3000}'
  }

  predicate AllWhitespace(s: string) { forall i :: 0 <= i < |s| ==> IsWhitespace(s[i]) }

  function TrimStart(s: string): (r: string)
    ensures |r| <= |s| && r == s[|s| - |r|..]
    ensures AllWhitespace(s[..|s| - |r|])
    ensures r != [] ==> !IsWhitespace(r[0])
  {
    if s == [] || !IsWhitespace(s[0]) then s
    else
      var r := TrimStart(s[1..]);
      assert s[1..][..|s| - 1 - |r|] == s[1..|s| - |r|];
      r
  }

  function TrimEnd(s: string): (r: string)
    ensures |r| <= |s| && r == s[..|r|]
    ensures AllWhitespace(s[|r|..])
    ensures r != [] ==> !IsWhitespace(r[|r| - 1])
  {
    if s == [] || !IsWhitespace(s[|s| - 1]) then s
    else
      var r := TrimEnd(s[..|s| - 1]);
      r
  }

  /** `trimmingCharacters(in: .whitespacesAndNewlines)`: the text between the leading and trailing
      whitespace; empty exactly when the input is all whitespace. */
  function Trim(s: string): (r: string)
    ensures r != [] ==> !IsWhitespace(r[0]) && !IsWhitespace(r[|r| - 1])
    ensures OccursAt(s, r, |s| - |TrimStart(s)|)
    ensures r == [] <==> AllWhitespace(s)
  {
    var t := TrimStart(s);
    var r := TrimEnd(t);
    TrimSlice(s, |s| - |t|, t, r);
    r
  }

  lemma TrimSlice(s: string, k: nat, t: string, r: string)
    requires k <= |s| && t == s[k..] && AllWhitespace(s[..k])
    requires |r| <= |t| && r == t[..|r|] && AllWhitespace(t[|r|..])
    requires r != [] ==> !IsWhitespace(r[0])
    ensures OccursAt(s, r, k)
    ensures r == [] <==> AllWhitespace(s)
  {
    assert s[k..k + |r|] == r;
    if r == [] {
      forall i | 0 <= i < |s| ensures IsWhitespace(s[i]) {
        if i < k {
          assert s[i] == s[..k][i];
        } else {
          assert s[i] == t[i - k];
        }
      }
    } else {
      assert r[0] == s[k];
    }
  }

  /** How many times `c` occurs in `s`. */
  function CountChar(s: string, c: char): nat
  {
    if s == [] then 0 else CountChar(s[..|s| - 1], c) + (if s[|s| - 1] == c then 1 else 0)
  }

  lemma {:induction false} CountCharAppend(a: string, b: string, c: char)
    ensures CountChar(a + b, c) == CountChar(a, c) + CountChar(b, c)
    decreases |b|
  {
    if b == [] {
      assert a + b == a;
    } else {
      assert (a + b)[..|a + b| - 1] == a + b[..|b| - 1];
      CountCharAppend(a, b[..|b| - 1], c);
    }
  }

  lemma {:induction false} CountCharAbsent(s: string, c: char)
    requires c !in s
    ensures CountChar(s, c) == 0
  {
    if s != [] {
      assert forall x :: x in s[..|s| - 1] ==> x in s;
      CountCharAbsent(s[..|s| - 1], c);
    }
  }

  /** `String`'s `<`: lexicographic on characters, a proper prefix first. Unicode normalisation is
      not modelled. */
  predicate StringLess(a: string, b: string)
  {
    if a == [] then b != []
    else if b == [] then false
    else a[0] < b[0] || (a[0] == b[0] && StringLess(a[1..], b[1..]))
  }

  /** No string comes before itself. */
  lemma {:induction false} StringLessIrreflexive(a: string)
    ensures !StringLess(a, a)
  {
    if a != [] {
      StringLessIrreflexive(a[1..]);
    }
  }

  /** Of two different strings exactly one comes first. */
  lemma {:induction false} StringLessTotal(a: string, b: string)
    ensures StringLess(a, b) ==> !StringLess(b, a)
    ensures a != b ==> StringLess(a, b) || StringLess(b, a)
  {
    if a != [] && b != [] {
      StringLessTotal(a[1..], b[1..]);
      if a[0] == b[0] && a[1..] == b[1..] {
        assert a == [a[0]] + a[1..] && b == [b[0]] + b[1..];
      }
    }
  }

  lemma {:induction false} StringLessTransitive(a: string, b: string, c: string)
    requires StringLess(a, b) && StringLess(b, c)
    ensures StringLess(a, c)
  {
    if a != [] && a[0] == b[0] && b[0] == c[0] {
      StringLessTransitive(a[1..], b[1..], c[1..]);
    }
  }
}

=== FILE: workout_analytics.dfy ===
/** `WorkoutAnalytics`: per-session totals, personal records per exercise, overall statistics and
    the history of one exercise. */
module Analytics {
  import opened Wrappers
  import opened Numeric
  import opened Text
  import opened Lists
  import opened Sorting
  import opened Workouts

  datatype WorkoutAnalytics = WorkoutAnalytics(
    totalVolume: real,
    averageWeight: real,
    maxWeight: real,
    totalSets: int,
    totalReps: int,
    averageReps: real)

  datatype ExercisePR = ExercisePR(
    exercise: Exercise,
    maxWeight: real,
    maxReps: int,
    maxVolume: real,
    estimated1RM: Option<real>,
    date: real)

  datatype WorkoutStatistics = WorkoutStatistics(
    totalWorkouts: int,
    totalVolume: real,
    averageWorkoutDuration: real,
    totalDuration: real,
    exercisesPerformed: int,
    uniqueExercises: seq<Exercise>)

  // ---------------------------------------------------------------------------------------------
  // Folds over sets

  /** The sets of all entries, entry after entry. */
  function AllSets(entries: seq<ExerciseEntry>): seq<SetEntry>
  {
    if entries == [] then []
    else AllSets(entries[..|entries| - 1]) + entries[|entries| - 1].sets
  }

  lemma {:induction false} AllSetsAppend(a: seq<ExerciseEntry>, b: seq<ExerciseEntry>)
    ensures AllSets(a + b) == AllSets(a) + AllSets(b)
    decreases |b|
  {
    if b == [] {
      assert a + b == a;
    } else {
      assert (a + b)[..|a + b| - 1] == a + b[..|b| - 1];
      AllSetsAppend(a, b[..|b| - 1]);
    }
  }

  /** `set.weight * Double(set.reps)`. */
  function SetVolume(s: SetEntry): real
  {
    s.weight * s.reps as real
  }

  /** Σ weight·reps. */
  function Volume(sets: seq<SetEntry>): real
  {
    if sets == [] then 0.0 else Volume(sets[..|sets| - 1]) + SetVolume(sets[|sets| - 1])
  }

  /** Σ weight. */
  function WeightSum(sets: seq<SetEntry>): real
  {
    if sets == [] then 0.0 else WeightSum(sets[..|sets| - 1]) + sets[|sets| - 1].weight
  }

  /** Σ reps. */
  function RepsSum(sets: seq<SetEntry>): int
  {
    if sets == [] then 0 else RepsSum(sets[..|sets| - 1]) + sets[|sets| - 1].reps
  }

  /** The running maximum of the weights, starting from 0. */
  function MaxWeight(sets: seq<SetEntry>): real
  {
    if sets == [] then 0.0
    else
      var m := MaxWeight(sets[..|sets| - 1]);
      if sets[|sets| - 1].weight > m then sets[|sets| - 1].weight else m
  }

  /** The running maximum of the reps, starting from 0. */
  function MaxReps(sets: seq<SetEntry>): int
  {
    if sets == [] then 0
    else
      var m := MaxReps(sets[..|sets| - 1]);
      if sets[|sets| - 1].reps > m then sets[|sets| - 1].reps else m
  }

  /** The running maximum of the set volumes, starting from 0. */
  function MaxVolume(sets: seq<SetEntry>): real
  {
    if sets == [] then 0.0
    else
      var m := MaxVolume(sets[..|sets| - 1]);
      if SetVolume(sets[|sets| - 1]) > m then SetVolume(sets[|sets| - 1]) else m
  }

  /** The maximum weight is at least 0 and every weight, and it is either 0 or one of the weights:
      the largest weight when some weight is positive, 0 otherwise. The same holds for reps. */
  lemma {:induction false} MaximaBounds(sets: seq<SetEntry>)
    ensures MaxWeight(sets) >= 0.0 && MaxReps(sets) >= 0
    ensures forall i :: 0 <= i < |sets| ==> sets[i].weight <= MaxWeight(sets) && sets[i].reps <= MaxReps(sets)
    ensures MaxWeight(sets) == 0.0 || exists i :: 0 <= i < |sets| && sets[i].weight == MaxWeight(sets)
    ensures MaxReps(sets) == 0 || exists i :: 0 <= i < |sets| && sets[i].reps == MaxReps(sets)
  {
    if sets != [] {
      var init := sets[..|sets| - 1];
      MaximaBounds(init);
      assert forall i :: 0 <= i < |init| ==> sets[i] == init[i];
      if MaxWeight(sets) != 0.0 && MaxWeight(sets) == MaxWeight(init) {
        var i :| 0 <= i < |init| && init[i].weight == MaxWeight(init);
        assert sets[i].weight == MaxWeight(sets);
      }
      if MaxReps(sets) != 0 && MaxReps(sets) == MaxReps(init) {
        var i :| 0 <= i < |init| && init[i].reps == MaxReps(init);
        assert sets[i].reps == MaxReps(sets);
      }
    }
  }

  lemma {:induction false} VolumeAppend(a: seq<SetEntry>, b: seq<SetEntry>)
    ensures Volume(a + b) == Volume(a) + Volume(b)
    decreases |b|
  {
    if b == [] {
      assert a + b == a;
    } else {
      assert (a + b)[..|a + b| - 1] == a + b[..|b| - 1];
      VolumeAppend(a, b[..|b| - 1]);
    }
  }

  /** The maximum over two runs of sets is the larger of their maxima. */
  lemma {:induction false} MaximaAppend(a: seq<SetEntry>, b: seq<SetEntry>)
    ensures MaxWeight(a + b) == MaxReal(MaxWeight(a), MaxWeight(b))
    ensures MaxReps(a + b) == MaxInt(MaxReps(a), MaxReps(b))
    decreases |b|
  {
    if b == [] {
      assert a + b == a;
      MaximaBounds(a);
    } else {
      assert (a + b)[..|a + b| - 1] == a + b[..|b| - 1];
      MaximaAppend(a, b[..|b| - 1]);
    }
  }

  /** The sum of the weights is at most their number times the largest weight. */
  lemma {:induction false} WeightSumAtMostMax(sets: seq<SetEntry>)
    ensures WeightSum(sets) <= |sets| as real * MaxWeight(sets)
  {
    if sets != [] {
      var init := sets[..|sets| - 1];
      var n, m, m' := |init| as real, MaxWeight(init), MaxWeight(sets);
      WeightSumAtMostMax(init);
      assert m <= m' && sets[|sets| - 1].weight <= m';
      ScaleStep(n, m, m');
    }
  }

  /** `n·m ≤ n·m'` for `m ≤ m'`, and `n·m' + m' = (n + 1)·m'`. */
  lemma ScaleStep(n: real, m: real, m': real)
    requires n >= 0.0 && m <= m'
    ensures n * m <= n * m' && n * m' + m' == (n + 1.0) * m'
  {
  }

  // ---------------------------------------------------------------------------------------------
  // `WorkoutSession.analytics`

  /** The running totals of the `analytics` loop. */
  datatype Totals = Totals(volume: real, weight: real, count: int, reps: int, maxWeight: real)

  /** `t` holds the totals of `done`. */
  predicate Summarises(t: Totals, done: seq<SetEntry>)
  {
    t.volume == Volume(done) && t.weight == WeightSum(done) && t.count == |done|
    && t.reps == RepsSum(done) && t.maxWeight == MaxWeight(done)
  }

  /** The inner loop of `analytics`: one entry's sets added to the totals. */
  method AddSets(t: Totals, ghost before: seq<SetEntry>, sets: seq<SetEntry>) returns (r: Totals)
    requires Summarises(t, before)
    ensures Summarises(r, before + sets)
  {
    r := t;
    assert before + sets[..0] == before;
    for j := 0 to |sets|
      invariant Summarises(r, before + sets[..j])
    {
      var s := sets[j];
      ghost var next := before + sets[..j + 1];
      assert next[..|next| - 1] == before + sets[..j] && next[|next| - 1] == s;
      r := r.(volume := r.volume + SetVolume(s), weight := r.weight + s.weight,
              count := r.count + 1, reps := r.reps + s.reps,
              maxWeight := if s.weight > r.maxWeight then s.weight else r.maxWeight);
    }
    assert sets[..|sets|] == sets;
  }

  /** `analytics`: the totals over every set of every entry; the averages are 0 for a session
      without sets. */
  method SessionAnalytics(session: WorkoutSession) returns (a: WorkoutAnalytics)
    ensures var sets := AllSets(session.exerciseEntries);
      && a.totalVolume == Volume(sets) && a.maxWeight == MaxWeight(sets)
      && a.totalSets == |sets| && a.totalReps == RepsSum(sets)
      && a.averageWeight == (if |sets| > 0 then WeightSum(sets) / |sets| as real else 0.0)
      && a.averageReps == (if |sets| > 0 then RepsSum(sets) as real / |sets| as real else 0.0)
  {
    var entries := session.exerciseEntries;
    var t := Totals(0.0, 0.0, 0, 0, 0.0);
    for i := 0 to |entries|
      invariant Summarises(t, AllSets(entries[..i]))
    {
      assert entries[..i + 1][..i] == entries[..i];
      t := AddSets(t, AllSets(entries[..i]), entries[i].sets);
    }
    assert entries[..|entries|] == entries;
    var averageWeight := if t.count > 0 then t.weight / t.count as real else 0.0;
    var averageReps := if t.count > 0 then t.reps as real / t.count as real else 0.0;
    a := WorkoutAnalytics(t.volume, averageWeight, t.maxWeight, t.count, t.reps, averageReps);
  }

  /** The sets of one entry. */
  function OneEntry(sets: seq<SetEntry>): seq<ExerciseEntry>
  {
    [ExerciseEntry(0, Exercise(0, "Bench Press"), sets)]
  }

  /** 10×135 + 8×155 + 6×175 = 3640. */
  lemma ExampleVolume()
    ensures Volume(AllSets(OneEntry([SetEntry(0, 10, 135.0), SetEntry(1, 8, 155.0), SetEntry(2, 6, 175.0)]))) == 3640.0
  {
    var s := [SetEntry(0, 10, 135.0), SetEntry(1, 8, 155.0), SetEntry(2, 6, 175.0)];
    assert AllSets(OneEntry(s)) == s by {
      assert OneEntry(s)[..0] == [];
    }
    assert s[..1][..0] == [];
    assert Volume(s[..1]) == 1350.0;
    assert s[..2][..1] == s[..1];
    assert Volume(s[..2]) == 2590.0;
    assert s[..|s| - 1] == s[..2];
  }

  /** The average weight never exceeds the maximum weight. */
  lemma AverageAtMostMax(sets: seq<SetEntry>)
    requires |sets| > 0
    ensures WeightSum(sets) / |sets| as real <= MaxWeight(sets)
  {
    WeightSumAtMostMax(sets);
    DivideBound(WeightSum(sets), |sets| as real, MaxWeight(sets));
  }

  lemma DivideBound(x: real, n: real, m: real)
    requires n > 0.0 && x <= n * m
    ensures x / n <= m
  {
    assert x / n * n == x;
  }

  // ---------------------------------------------------------------------------------------------
  // `getExercisePRs`

  /** One exercise entry of a completed session, with that session's date. */
  datatype Contribution = Contribution(entry: ExerciseEntry, date: real)

  /** The entries of a session, each with the session's date. */
  function EntriesOf(session: WorkoutSession): (r: seq<Contribution>)
    ensures |r| == |session.exerciseEntries|
    ensures forall i :: 0 <= i < |r| ==> r[i] == Contribution(session.exerciseEntries[i], session.date)
  {
    seq(|session.exerciseEntries|, i requires 0 <= i < |session.exerciseEntries| =>
      Contribution(session.exerciseEntries[i], session.date))
  }

  /** Every entry of every session, in the order the loops visit them. */
  function Contributions(sessions: seq<WorkoutSession>): seq<Contribution>
  {
    if sessions == [] then []
    else Contributions(sessions[..|sessions| - 1]) + EntriesOf(sessions[|sessions| - 1])
  }

  /** Epley's estimate from an entry's best weight and reps; none without weight. */
  function Epley(weight: real, reps: int): Option<real>
  {
    if weight > 0.0 then Some(weight * (1.0 + reps as real / 30.0)) else None
  }

  /** The record one entry sets on its own. */
  function EntryPR(c: Contribution): ExercisePR
  {
    var sets := c.entry.sets;
    ExercisePR(c.entry.exercise, MaxWeight(sets), MaxReps(sets), MaxVolume(sets),
      Epley(MaxWeight(sets), MaxReps(sets)), c.date)
  }

  /** The dictionary update for one entry: an existing record is replaced when the entry beats it
      in weight, reps or volume, keeping the larger of each maximum and taking the entry's estimate
      and date; a new record is made only when the entry has some weight or some reps. */
  function Merge(prs: map<nat, ExercisePR>, c: Contribution): map<nat, ExercisePR>
  {
    var cand := EntryPR(c);
    var id := c.entry.exercise.id;
    if id in prs then
      var existing := prs[id];
      if cand.maxWeight > existing.maxWeight || cand.maxReps > existing.maxReps
         || cand.maxVolume > existing.maxVolume then
        prs[id := ExercisePR(c.entry.exercise, MaxReal(cand.maxWeight, existing.maxWeight),
          MaxInt(cand.maxReps, existing.maxReps), MaxReal(cand.maxVolume, existing.maxVolume),
          cand.estimated1RM, c.date)]
      else prs
    else if cand.maxWeight > 0.0 || cand.maxReps > 0 then prs[id := cand]
    else prs
  }

  /** The records after visiting the contributions in order. */
  function PRsOf(cs: seq<Contribution>): map<nat, ExercisePR>
  {
    if cs == [] then map[] else Merge(PRsOf(cs[..|cs| - 1]), cs[|cs| - 1])
  }

  /** Every set recorded for exercise `id`, in visiting order. */
  function SetsOf(cs: seq<Contribution>, id: nat): seq<SetEntry>
  {
    if cs == [] then []
    else
      var last := cs[|cs| - 1];
      SetsOf(cs[..|cs| - 1], id) + (if last.entry.exercise.id == id then last.entry.sets else [])
  }

  /** What a record means: exercise `id` has one exactly when one of its sets has weight or reps;
      its weight and reps are the maxima over all of that exercise's sets; and it is keyed by its own
      exercise. */
  lemma {:induction false} PRsAreMaxima(cs: seq<Contribution>, id: nat)
    ensures id in PRsOf(cs) <==> MaxWeight(SetsOf(cs, id)) > 0.0 || MaxReps(SetsOf(cs, id)) > 0
    ensures id in PRsOf(cs) ==>
      && PRsOf(cs)[id].maxWeight == MaxWeight(SetsOf(cs, id))
      && PRsOf(cs)[id].maxReps == MaxReps(SetsOf(cs, id))
      && PRsOf(cs)[id].exercise.id == id
  {
    if cs != [] {
      var init := cs[..|cs| - 1];
      var c := cs[|cs| - 1];
      PRsAreMaxima(init, id);
      var before := SetsOf(init, id);
      MaximaBounds(before);
      if c.entry.exercise.id == id {
        assert SetsOf(cs, id) == before + c.entry.sets;
        MaximaBounds(c.entry.sets);
        MaximaAppend(before, c.entry.sets);
      } else {
        assert SetsOf(cs, id) == before;
      }
    }
  }

  /** A record's estimate and date are those of one entry of its exercise: the last entry that
      made or beat it. */
  lemma {:induction false} PRFromOneEntry(cs: seq<Contribution>, id: nat)
    requires id in PRsOf(cs)
    ensures exists k :: 0 <= k < |cs| && cs[k].entry.exercise.id == id
                        && PRsOf(cs)[id].date == cs[k].date
                        && PRsOf(cs)[id].estimated1RM == EntryPR(cs[k]).estimated1RM
  {
    var init := cs[..|cs| - 1];
    var c := cs[|cs| - 1];
    var prev := PRsOf(init);
    if id in prev && PRsOf(cs)[id] == prev[id] {
      PRFromOneEntry(init, id);
      var k :| 0 <= k < |init| && init[k].entry.exercise.id == id
        && prev[id].date == init[k].date && prev[id].estimated1RM == EntryPR(init[k]).estimated1RM;
      assert cs[k] == init[k];
    } else {
      assert c.entry.exercise.id == id;
      assert PRsOf(cs)[id].date == cs[|cs| - 1].date;
    }
  }

  /** `{ $0.exercise.name < $1.exercise.name }`. */
  function ByName(): (ExercisePR, ExercisePR) -> bool
  {
    (a: ExercisePR, b: ExercisePR) => StringLess(a.exercise.name, b.exercise.name)
  }

  lemma ByNameOrder()
    ensures StrictWeakOrder(ByName())
  {
    forall a: ExercisePR, b: ExercisePR ensures ByName()(a, b) ==> !ByName()(b, a) {
      StringLessTotal(a.exercise.name, b.exercise.name);
    }
    forall a: ExercisePR, b: ExercisePR, c: ExercisePR
      ensures ByName()(a, c) ==> ByName()(a, b) || ByName()(b, c)
    {
      var x, y, z := a.exercise.name, b.exercise.name, c.exercise.name;
      StringLessTotal(x, y);
      if StringLess(x, z) && !StringLess(x, y) && y != x {
        StringLessTransitive(y, x, z);
      }
    }
  }

  /** Visiting one more contribution merges it into the records. */
  lemma PRsOfSnoc(cs: seq<Contribution>, c: Contribution)
    ensures PRsOf(cs + [c]) == Merge(PRsOf(cs), c)
  {
    assert (cs + [c])[..|cs|] == cs;
  }

  /** The records of all entries of `sessions`, keyed by exercise id. */
  method BuildPRs(sessions: seq<WorkoutSession>) returns (prs: map<nat, ExercisePR>)
    ensures prs == PRsOf(Contributions(sessions))
  {
    prs := map[];
    for i := 0 to |sessions|
      invariant prs == PRsOf(Contributions(sessions[..i]))
    {
      prs := MergeSession(prs, sessions[i], Contributions(sessions[..i]));
      assert sessions[..i + 1][..i] == sessions[..i];
    }
    assert sessions[..|sessions|] == sessions;
  }

  /** The loop over one session's entries, continuing the records of the contributions `before`. */
  method MergeSession(prs: map<nat, ExercisePR>, session: WorkoutSession, ghost before: seq<Contribution>)
    returns (updated: map<nat, ExercisePR>)
    requires prs == PRsOf(before)
    ensures updated == PRsOf(before + EntriesOf(session))
  {
    updated := prs;
    var entries := session.exerciseEntries;
    assert before + EntriesOf(session)[..0] == before;
    for j := 0 to |entries|
      invariant updated == PRsOf(before + EntriesOf(session)[..j])
    {
      ghost var done := before + EntriesOf(session)[..j];
      ghost var c := Contribution(entries[j], session.date);
      updated := MergeEntry(updated, entries[j], session.date);
      PRsOfSnoc(done, c);
      assert done + [c] == before + EntriesOf(session)[..j + 1];
    }
    assert EntriesOf(session)[..|entries|] == EntriesOf(session);
  }

  /** The loop body for one entry: its best values, then the dictionary update. */
  method MergeEntry(prs: map<nat, ExercisePR>, entry: ExerciseEntry, date: real)
    returns (updated: map<nat, ExercisePR>)
    ensures updated == Merge(prs, Contribution(entry, date))
  {
    updated := prs;
    var best := BestOfEntry(entry, date);
    var exerciseId := entry.exercise.id;
    if exerciseId in prs {
      var existingPR := prs[exerciseId];
      if best.maxWeight > existingPR.maxWeight || best.maxReps > existingPR.maxReps
         || best.maxVolume > existingPR.maxVolume {
        updated := prs[exerciseId := ExercisePR(entry.exercise,
          MaxReal(best.maxWeight, existingPR.maxWeight), MaxInt(best.maxReps, existingPR.maxReps),
          MaxReal(best.maxVolume, existingPR.maxVolume), best.estimated1RM, best.date)];
      }
    } else if best.maxWeight > 0.0 || best.maxReps > 0 {
      updated := prs[exerciseId := best];
    }
  }

  /** The inner loop over one entry's sets: its best weight, reps and volume and the estimate
      from them, dated with the session. */
  method BestOfEntry(entry: ExerciseEntry, date: real) returns (best: ExercisePR)
    ensures best == EntryPR(Contribution(entry, date))
  {
    var maxWeight, maxReps, maxVolume := 0.0, 0, 0.0;
    var maxWeightDate := date;
    var sets := entry.sets;
    for k := 0 to |sets|
      invariant maxWeight == MaxWeight(sets[..k]) && maxReps == MaxReps(sets[..k])
      invariant maxVolume == MaxVolume(sets[..k]) && maxWeightDate == date
    {
      var s := sets[k];
      assert sets[..k + 1][..k] == sets[..k];
      var volume := SetVolume(s);
      if s.weight > maxWeight {
        maxWeight := s.weight;
        maxWeightDate := date;
      }
      if s.reps > maxReps {
        maxReps := s.reps;
      }
      if volume > maxVolume {
        maxVolume := volume;
      }
    }
    assert sets[..|sets|] == sets;
    var estimated1RM := Epley(maxWeight, maxReps);
    best := ExercisePR(entry.exercise, maxWeight, maxReps, maxVolume, estimated1RM, maxWeightDate);
  }

  /** `Array(prs.values).sorted(by: name)`: the dictionary's records, each once (in an order the
      dictionary picks), then ordered by exercise name. */
  method SortedValues(prs: map<nat, ExercisePR>) returns (r: seq<ExercisePR>)
    ensures SortedBy(r, ByName())
    ensures |r| == |prs|
    ensures forall id :: id in prs ==> prs[id] in r
    ensures forall pr :: pr in r ==> exists id :: id in prs && prs[id] == pr
  {
    var values: seq<ExercisePR> := [];
    var remaining := prs.Keys;
    while remaining != {}
      invariant remaining <= prs.Keys
      invariant |values| + |remaining| == |prs|
      invariant forall id :: id in prs && id !in remaining ==> prs[id] in values
      invariant forall pr :: pr in values ==> exists id :: id in prs && prs[id] == pr
      decreases |remaining|
    {
      var id :| id in remaining;
      values := values + [prs[id]];
      remaining := remaining - {id};
    }
    r := SortBy(values, ByName());
    ByNameOrder();
    SortBySorted(values, ByName());
    SameElements(r, values);
  }

  /** `getExercisePRs()`: one record per exercise met in a completed session, sorted by exercise
      name; together with `PRsAreMaxima` each record holds that exercise's best weight and reps. */
  method ExercisePRs(workoutSessions: seq<WorkoutSession>) returns (r: seq<ExercisePR>)
    ensures var prs := PRsOf(Contributions(CompletedSessions(workoutSessions)));
      && SortedBy(r, ByName()) && |r| == |prs|
      && (forall id :: id in prs ==> prs[id] in r)
      && (forall pr :: pr in r ==> exists id :: id in prs && prs[id] == pr)
  {
    var prs := BuildPRs(CompletedSessions(workoutSessions));
    r := SortedValues(prs);
  }

  // ---------------------------------------------------------------------------------------------
  // `getStatistics`

  /** Σ of the sessions' volumes. */
  function TotalVolume(sessions: seq<WorkoutSession>): real
  {
    if sessions == [] then 0.0
    else TotalVolume(sessions[..|sessions| - 1]) + Volume(AllSets(sessions[|sessions| - 1].exerciseEntries))
  }

  /** Σ of the sessions' durations. */
  function TotalDuration(sessions: seq<WorkoutSession>): real
  {
    if sessions == [] then 0.0
    else TotalDuration(sessions[..|sessions| - 1]) + sessions[|sessions| - 1].duration
  }

  /** `flatMap { $0.exerciseEntries }`. */
  function FlatEntries(sessions: seq<WorkoutSession>): seq<ExerciseEntry>
  {
    if sessions == [] then []
    else FlatEntries(sessions[..|sessions| - 1]) + sessions[|sessions| - 1].exerciseEntries
  }

  /** The distinct exercise ids of a list of entries. */
  function IdsOf(entries: seq<ExerciseEntry>): set<nat>
  {
    if entries == [] then {}
    else IdsOf(entries[..|entries| - 1]) + {entries[|entries| - 1].exercise.id}
  }

  /** An id is in `IdsOf` exactly when some entry has it, and there are no more ids than entries. */
  lemma {:induction false} IdsOfMembers(entries: seq<ExerciseEntry>)
    ensures forall id :: id in IdsOf(entries) <==> exists k :: 0 <= k < |entries| && entries[k].exercise.id == id
    ensures |IdsOf(entries)| <= |entries|
  {
    if entries != [] {
      var init := entries[..|entries| - 1];
      IdsOfMembers(init);
      assert forall k :: 0 <= k < |init| ==> entries[k] == init[k];
    }
  }

  /** The total volume of the sessions is the volume of all their sets taken together. */
  lemma {:induction false} TotalVolumeIsAllSets(sessions: seq<WorkoutSession>)
    ensures TotalVolume(sessions) == Volume(AllSets(FlatEntries(sessions)))
  {
    if sessions != [] {
      var init := sessions[..|sessions| - 1];
      TotalVolumeIsAllSets(init);
      AllSetsAppend(FlatEntries(init), sessions[|sessions| - 1].exerciseEntries);
      VolumeAppend(AllSets(FlatEntries(init)), AllSets(sessions[|sessions| - 1].exerciseEntries));
    }
  }

  /** `{ $0.exercise.id == id }` on entries. */
  function EntryHasExercise(id: nat): ExerciseEntry -> bool
  {
    (e: ExerciseEntry) => e.exercise.id == id
  }

  /** `entries.first { $0.exercise.id == id }?.exercise`. */
  function FirstExercise(entries: seq<ExerciseEntry>, id: nat): Option<Exercise>
  {
    if entries == [] then None
    else if entries[0].exercise.id == id then Some(entries[0].exercise)
    else FirstExercise(entries[1..], id)
  }

  /** `FirstExercise` finds an exercise exactly when some entry has the id, and then it is the
      exercise of the first such entry, which carries that id. */
  lemma {:induction false} FirstExerciseIsFirst(entries: seq<ExerciseEntry>, id: nat)
    ensures var k := FirstIndexWhere(entries, EntryHasExercise(id));
      && (k.None? ==> FirstExercise(entries, id) == None)
      && (k.Some? ==> FirstExercise(entries, id) == Some(entries[k.value].exercise))
    ensures FirstExercise(entries, id).Some? ==> FirstExercise(entries, id).value.id == id
  {
    if entries != [] && entries[0].exercise.id != id {
      FirstExerciseIsFirst(entries[1..], id);
      var k := FirstIndexWhere(entries, EntryHasExercise(id));
      var k' := FirstIndexWhere(entries[1..], EntryHasExercise(id));
      assert !EntryHasExercise(id)(entries[0]);
      if k'.Some? {
        assert k == Some(k'.value + 1);
      } else {
        assert k.None? by {
          forall i | 0 <= i < |entries| ensures !EntryHasExercise(id)(entries[i]) {
            if i > 0 {
              assert entries[i] == entries[1..][i - 1];
            }
          }
        }
      }
    } else if entries != [] {
      assert EntryHasExercise(id)(entries[0]);
    }
  }

  /** `Array(exerciseSet.compactMap { id in entries.first { $0.exercise.id == id }?.exercise })`:
      for each id of the set (in an order the set picks) the exercise of the first entry with that
      id; every id has one, so there is one exercise per id. */
  method UniqueExercises(entries: seq<ExerciseEntry>, exerciseSet: set<nat>) returns (r: seq<Exercise>)
    requires forall id :: id in exerciseSet <==> exists k :: 0 <= k < |entries| && entries[k].exercise.id == id
    ensures |r| == |exerciseSet|
    ensures forall id :: id in exerciseSet ==> exists e :: e in r && e.id == id
    ensures forall i :: 0 <= i < |r| ==> FirstExercise(entries, r[i].id) == Some(r[i])
    ensures forall i, j :: 0 <= i < j < |r| ==> r[i].id != r[j].id
  {
    r := [];
    var remaining := exerciseSet;
    while remaining != {}
      invariant remaining <= exerciseSet
      invariant |r| + |remaining| == |exerciseSet|
      invariant forall id :: id in exerciseSet && id !in remaining ==> exists e :: e in r && e.id == id
      invariant forall i :: 0 <= i < |r| ==>
        r[i].id !in remaining && FirstExercise(entries, r[i].id) == Some(r[i])
      invariant forall i, j :: 0 <= i < j < |r| ==> r[i].id != r[j].id
      decreases |remaining|
    {
      var exerciseId :| exerciseId in remaining;
      var found := FirstExercise(entries, exerciseId);
      FirstExerciseFound(entries, exerciseId);
      if found.Some? {
        assert forall i :: 0 <= i < |r| ==> r[i].id != exerciseId;
        r := r + [found.value];
      }
      remaining := remaining - {exerciseId};
    }
  }

  /** An id some entry has is found, with that id. */
  lemma FirstExerciseFound(entries: seq<ExerciseEntry>, id: nat)
    requires exists k :: 0 <= k < |entries| && entries[k].exercise.id == id
    ensures FirstExercise(entries, id).Some? && FirstExercise(entries, id).value.id == id
  {
    var k :| 0 <= k < |entries| && entries[k].exercise.id == id;
    assert EntryHasExercise(id)(entries[k]);
    FirstExerciseIsFirst(entries, id);
  }

  /** The inner loop of `getStatistics()`: `exerciseSet.insert` of each entry's exercise id. */
  method InsertIds(exerciseSet: set<nat>, entries: seq<ExerciseEntry>, ghost before: seq<ExerciseEntry>)
    returns (updated: set<nat>)
    requires exerciseSet == IdsOf(before)
    ensures updated == IdsOf(before + entries)
  {
    updated := exerciseSet;
    assert before + entries[..0] == before;
    for j := 0 to |entries|
      invariant updated == IdsOf(before + entries[..j])
    {
      ghost var next := before + entries[..j + 1];
      assert next[..|next| - 1] == before + entries[..j];
      updated := updated + {entries[j].exercise.id};
    }
    assert entries[..|entries|] == entries;
  }

  /** `getStatistics()`: over the completed sessions, their number, total volume and duration, the
      average duration (0 when there are none), and one exercise per distinct exercise id — the
      exercise of the first entry with that id. */
  method Statistics(workoutSessions: seq<WorkoutSession>) returns (st: WorkoutStatistics)
    ensures var completed := CompletedSessions(workoutSessions);
      var ids := IdsOf(FlatEntries(completed));
      && st.totalWorkouts == |completed|
      && st.totalVolume == TotalVolume(completed) && st.totalDuration == TotalDuration(completed)
      && st.averageWorkoutDuration
         == (if |completed| > 0 then TotalDuration(completed) / |completed| as real else 0.0)
      && st.exercisesPerformed == |ids| == |st.uniqueExercises|
      && (forall id :: id in ids ==> exists e :: e in st.uniqueExercises && e.id == id)
      && (forall i :: 0 <= i < |st.uniqueExercises| ==>
            FirstExercise(FlatEntries(completed), st.uniqueExercises[i].id) == Some(st.uniqueExercises[i]))
      && (forall i, j :: 0 <= i < j < |st.uniqueExercises| ==>
            st.uniqueExercises[i].id != st.uniqueExercises[j].id)
  {
    var completedWorkouts := CompletedSessions(workoutSessions);
    var totalWorkouts := |completedWorkouts|;
    var totalVolume, totalDuration := 0.0, 0.0;
    var exerciseSet: set<nat> := {};
    for i := 0 to |completedWorkouts|
      invariant totalVolume == TotalVolume(completedWorkouts[..i])
      invariant totalDuration == TotalDuration(completedWorkouts[..i])
      invariant exerciseSet == IdsOf(FlatEntries(completedWorkouts[..i]))
    {
      var workout := completedWorkouts[i];
      assert completedWorkouts[..i + 1][..i] == completedWorkouts[..i];
      var analytics := SessionAnalytics(workout);
      totalVolume := totalVolume + analytics.totalVolume;
      totalDuration := totalDuration + workout.duration;
      exerciseSet := InsertIds(exerciseSet, workout.exerciseEntries, FlatEntries(completedWorkouts[..i]));
    }
    assert completedWorkouts[..|completedWorkouts|] == completedWorkouts;
    var averageWorkoutDuration := if totalWorkouts > 0 then totalDuration / totalWorkouts as real else 0.0;

    IdsOfMembers(FlatEntries(completedWorkouts));
    var uniqueExercises := UniqueExercises(FlatEntries(completedWorkouts), exerciseSet);
    st := WorkoutStatistics(totalWorkouts, totalVolume, averageWorkoutDuration, totalDuration,
      |uniqueExercises|, uniqueExercises);
  }

  // ---------------------------------------------------------------------------------------------
  // `getExerciseHistory`

  /** `session.exerciseEntries.contains { $0.exercise.id == id }`. */
  predicate HasExercise(s: WorkoutSession, id: nat)
  {
    exists k :: 0 <= k < |s.exerciseEntries| && s.exerciseEntries[k].exercise.id == id
  }

  /** `{ session in session.isCompleted && session.exerciseEntries.contains { ... } }`. */
  function CompletedWith(id: nat): WorkoutSession -> bool
  {
    (s: WorkoutSession) => s.isCompleted && HasExercise(s, id)
  }

  /** `getExerciseHistory(for:)`: exactly the completed sessions that include the exercise, each
      as often as it is stored, newest first. */
  function ExerciseHistory(workoutSessions: seq<WorkoutSession>, exercise: Exercise): (r: seq<WorkoutSession>)
    ensures SortedBy(r, NewerFirst())
    ensures forall i, j :: 0 <= i < j < |r| ==> r[i].date >= r[j].date
    ensures multiset(r) == multiset(Filter(workoutSessions, CompletedWith(exercise.id)))
    ensures forall s :: s in r <==> s in workoutSessions && s.isCompleted && HasExercise(s, exercise.id)
  {
    var matching := Filter(workoutSessions, CompletedWith(exercise.id));
    NewerFirstOrder();
    SortBySorted(matching, NewerFirst());
    var r := SortBy(matching, NewerFirst());
    NewestFirstDates(r);
    SameElements(r, matching);
    FilterMembers(workoutSessions, CompletedWith(exercise.id));
    r
  }
}

=== FILE: workout_detail_view.dfy ===
/** `WorkoutDetailView`: logging a workout started from a template. A one-second timer counts the
    elapsed time while the workout runs; stopping folds it into the session's duration and marks
    the session completed; leaving the screen saves the session into the history. */
module WorkoutDetail {
  import opened Wrappers
  import opened Workouts
  import opened SessionStore

  class WorkoutDetailView {
    const store: WorkoutSessionViewModel
    const template: WorkoutTemplate
    var workoutSession: WorkoutSession
    /** `timer != nil`: a scheduled one-second timer, whose ticks are `Tick()` calls. */
    var ticking: bool
    var timerRunning: bool
    var timeElapsed: real

    /** What the buttons keep: the timer is scheduled exactly while the workout runs, and a stopped
        workout has no elapsed time left to fold in. */
    predicate Valid()
      reads this
    {
      ticking == timerRunning && timeElapsed >= 0.0 && (!timerRunning ==> timeElapsed == 0.0)
    }

    /** `init(workoutSessionViewModel:template:)`: a fresh session from the template, dated `now`,
        with the timer stopped. `id` and `entryIds` are the fresh `UUID`s. */
    constructor(store: WorkoutSessionViewModel, template: WorkoutTemplate, id: nat, entryIds: seq<nat>, now: real)
      requires |entryIds| == |template.exercises|
      ensures this.store == store && this.template == template
      ensures workoutSession == NewSession(template, id, entryIds, now)
      ensures !timerRunning && timeElapsed == 0.0 && Valid()
    {
      this.store := store;
      this.template := template;
      workoutSession := NewSession(template, id, entryIds, now);
      ticking := false;
      timerRunning := false;
      timeElapsed := 0.0;
    }

    /** `startTimer()`: schedule the timer. */
    method StartTimer()
      modifies this`ticking
      ensures ticking
    {
      ticking := true;
    }

    /** The timer's callback: one more second, only while the timer is scheduled. */
    method Tick()
      modifies this`timeElapsed
      ensures old(ticking) ==> timeElapsed == old(timeElapsed) + 1.0
      ensures !old(ticking) ==> timeElapsed == old(timeElapsed)
      ensures old(Valid()) ==> Valid()
    {
      if ticking {
        timeElapsed := timeElapsed + 1.0;
      }
    }

    /** `stopTimer()`: cancel the timer, fold the elapsed time into the duration, mark the session
        completed and start the count again from 0. */
    method StopTimer()
      modifies this`ticking, this`workoutSession, this`timeElapsed
      ensures !ticking && timeElapsed == 0.0
      ensures workoutSession == old(workoutSession).(
        duration := old(workoutSession.duration) + old(timeElapsed), isCompleted := true)
    {
      ticking := false;
      workoutSession := workoutSession.(duration := workoutSession.duration + timeElapsed);
      workoutSession := workoutSession.(isCompleted := true);
      timeElapsed := 0.0;
    }

    /** `toggleTimer()`: the start/stop button. */
    method ToggleTimer()
      modifies this`timerRunning, this`ticking, this`workoutSession, this`timeElapsed
      ensures timerRunning == !old(timerRunning)
      ensures timerRunning ==>
        ticking && timeElapsed == old(timeElapsed) && workoutSession == old(workoutSession)
      ensures !timerRunning ==>
        !ticking && timeElapsed == 0.0
        && workoutSession == old(workoutSession).(
             duration := old(workoutSession.duration) + old(timeElapsed), isCompleted := true)
      ensures old(Valid()) ==> Valid()
    {
      timerRunning := !timerRunning;
      if timerRunning {
        StartTimer();
      } else {
        StopTimer();
      }
    }

    /** `saveWorkout()`: add the elapsed time to the duration, hand the session to the history, and
        only then mark it completed — the stored copy keeps the completion it had. */
    method SaveWorkout()
      modifies this`workoutSession, store
      ensures store.workoutSessions == WithSession(old(store.workoutSessions),
        old(workoutSession).(duration := old(workoutSession.duration) + timeElapsed))
      ensures workoutSession == old(workoutSession).(
        duration := old(workoutSession.duration) + timeElapsed, isCompleted := true)
    {
      workoutSession := workoutSession.(duration := workoutSession.duration + timeElapsed);
      store.AddWorkoutSession(workoutSession);
      workoutSession := workoutSession.(isCompleted := true);
    }

    /** `onDisappear`: stop a running workout, then save. The elapsed time reaches the stored
        session exactly once, and the stored session is completed exactly when it already was or
        the workout was still running. */
    method OnDisappear()
      requires Valid()
      modifies this, store
      ensures store.workoutSessions == WithSession(old(store.workoutSessions),
        old(workoutSession).(duration := old(workoutSession.duration) + old(timeElapsed),
                             isCompleted := old(workoutSession.isCompleted) || old(timerRunning)))
      ensures workoutSession.isCompleted && workoutSession.duration == old(workoutSession.duration) + old(timeElapsed)
    {
      if timerRunning {
        StopTimer();
      }
      SaveWorkout();
    }

    /** `addSet(to:)`. */
    method AddSet(exerciseIndex: nat, setId: nat)
      requires exerciseIndex < |workoutSession.exerciseEntries|
      modifies this`workoutSession
      ensures workoutSession == Workouts.AddSet(old(workoutSession), exerciseIndex, setId)
    {
      var entries := workoutSession.exerciseEntries;
      var entry := entries[exerciseIndex];
      var sets := entry.sets + [SetEntry(setId, 0, 0.0)];
      workoutSession := workoutSession.(exerciseEntries := entries[exerciseIndex := entry.(sets := sets)]);
    }

    /** The "Add Set" button: disabled unless the workout is running. */
    method AddSetButton(exerciseIndex: nat, setId: nat)
      requires exerciseIndex < |workoutSession.exerciseEntries|
      modifies this`workoutSession
      ensures timerRunning ==> workoutSession == Workouts.AddSet(old(workoutSession), exerciseIndex, setId)
      ensures !timerRunning ==> workoutSession == old(workoutSession)
    {
      if timerRunning {
        AddSet(exerciseIndex, setId);
      }
    }

    /** `deleteSet(at:from:)`. */
    method DeleteSet(setIndex: nat, exerciseIndex: nat)
      requires exerciseIndex < |workoutSession.exerciseEntries|
      requires setIndex < |workoutSession.exerciseEntries[exerciseIndex].sets|
      modifies this`workoutSession
      ensures workoutSession == Workouts.DeleteSet(old(workoutSession), setIndex, exerciseIndex)
    {
      var entries := workoutSession.exerciseEntries;
      var entry := entries[exerciseIndex];
      var sets := entry.sets[..setIndex] + entry.sets[setIndex + 1..];
      workoutSession := workoutSession.(exerciseEntries := entries[exerciseIndex := entry.(sets := sets)]);
    }

    /** The reps field's setter; `parsed` is `Int(newValue)`. */
    method SetRepsText(exerciseIndex: nat, setIndex: nat, parsed: Option<int>)
      requires exerciseIndex < |workoutSession.exerciseEntries|
      requires setIndex < |workoutSession.exerciseEntries[exerciseIndex].sets|
      modifies this`workoutSession
      ensures workoutSession == Workouts.SetReps(old(workoutSession), exerciseIndex, setIndex, parsed)
    {
      workoutSession := Workouts.SetReps(workoutSession, exerciseIndex, setIndex, parsed);
    }

    /** The weight field's setter; `parsed` is `Double(newValue)`. */
    method SetWeightText(exerciseIndex: nat, setIndex: nat, parsed: Option<real>)
      requires exerciseIndex < |workoutSession.exerciseEntries|
      requires setIndex < |workoutSession.exerciseEntries[exerciseIndex].sets|
      modifies this`workoutSession
      ensures workoutSession == Workouts.SetWeight(old(workoutSession), exerciseIndex, setIndex, parsed)
    {
      workoutSession := Workouts.SetWeight(workoutSession, exerciseIndex, setIndex, parsed);
    }
  }
}

=== FILE: workout_model.dfy ===
/** The logged-workout records (`Exercise`, `SetEntry`, `ExerciseEntry`, `WorkoutSession`,
    `WorkoutTemplate`) and the set edits shared by the live workout screen and the edit screen. */
module Workouts {
  import opened Wrappers
  import opened Lists
  import opened Sorting

  /** Identifiers (`UUID`) are natural numbers; a fresh one is passed in where the source calls
      `UUID()`. Dates and durations are seconds. */
  datatype Exercise = Exercise(id: nat, name: string)

  datatype SetEntry = SetEntry(id: nat, reps: int, weight: real)

  datatype ExerciseEntry = ExerciseEntry(id: nat, exercise: Exercise, sets: seq<SetEntry>)

  datatype WorkoutSession = WorkoutSession(
    id: nat,
    templateID: nat,
    name: string,
    date: real,
    exerciseEntries: seq<ExerciseEntry>,
    duration: real,
    isCompleted: bool)

  datatype WorkoutTemplate = WorkoutTemplate(id: nat, name: string, exercises: seq<Exercise>)

  /** Matches a session by id, as `{ $0.id == id }` does. */
  function SessionHasId(id: nat): WorkoutSession -> bool
  {
    (s: WorkoutSession) => s.id == id
  }

  /** `{ $0.isCompleted }`. */
  function IsCompleted(): WorkoutSession -> bool
  {
    (s: WorkoutSession) => s.isCompleted
  }

  /** `{ $0.date > $1.date }`: the newer session comes first. */
  function NewerFirst(): (WorkoutSession, WorkoutSession) -> bool
  {
    (a: WorkoutSession, b: WorkoutSession) => a.date > b.date
  }

  /** Ordering by date, newest first, is a strict weak ordering, as `sort(by:)` requires. */
  lemma NewerFirstOrder()
    ensures StrictWeakOrder(NewerFirst())
  {
  }

  /** A list ordered newest first: no session is newer than one before it. */
  lemma NewestFirstDates(s: seq<WorkoutSession>)
    requires SortedBy(s, NewerFirst())
    ensures forall i, j :: 0 <= i < j < |s| ==> s[i].date >= s[j].date
  {
    forall i, j | 0 <= i < j < |s| ensures s[i].date >= s[j].date {
      assert !NewerFirst()(s[j], s[i]);
    }
  }

  /** `workoutSessions.filter { $0.isCompleted }`: the completed sessions in stored order. */
  function CompletedSessions(sessions: seq<WorkoutSession>): (r: seq<WorkoutSession>)
    ensures forall s :: s in r <==> s in sessions && s.isCompleted
    ensures |r| <= |sessions|
  {
    FilterMembers(sessions, IsCompleted());
    Filter(sessions, IsCompleted())
  }

  /** A session started from a template: one entry with no sets per template exercise, in
      template order; named after the template, not completed, duration 0. */
  function NewSession(template: WorkoutTemplate, id: nat, entryIds: seq<nat>, now: real): (s: WorkoutSession)
    requires |entryIds| == |template.exercises|
    ensures s.templateID == template.id && s.name == template.name && s.date == now && s.id == id
    ensures |s.exerciseEntries| == |template.exercises|
    ensures forall i :: 0 <= i < |s.exerciseEntries| ==>
      s.exerciseEntries[i].exercise == template.exercises[i] && s.exerciseEntries[i].sets == []
    ensures s.duration == 0.0 && !s.isCompleted
  {
    WorkoutSession(id, template.id, template.name, now,
      seq(|template.exercises|, i requires 0 <= i < |template.exercises| =>
        ExerciseEntry(entryIds[i], template.exercises[i], [])),
      0.0, false)
  }

  /** The session with the sets of entry `e` replaced. */
  function WithSets(session: WorkoutSession, e: nat, sets: seq<SetEntry>): WorkoutSession
    requires e < |session.exerciseEntries|
  {
    var entries := session.exerciseEntries;
    session.(exerciseEntries := entries[e := entries[e].(sets := sets)])
  }

  /** Only entry `e` changes, and only in its sets. */
  predicate OnlySetsOf(old_: WorkoutSession, new_: WorkoutSession, e: nat)
    requires e < |old_.exerciseEntries|
  {
    |new_.exerciseEntries| == |old_.exerciseEntries|
    && new_ == old_.(exerciseEntries := new_.exerciseEntries)
    && new_.exerciseEntries[e] == old_.exerciseEntries[e].(sets := new_.exerciseEntries[e].sets)
    && forall i :: 0 <= i < |old_.exerciseEntries| && i != e ==> new_.exerciseEntries[i] == old_.exerciseEntries[i]
  }

  /** `addSet(to:)`: an empty set (0 reps, 0.0 weight) at the end of entry `e`; nothing else
      changes. */
  function AddSet(session: WorkoutSession, e: nat, setId: nat): (r: WorkoutSession)
    requires e < |session.exerciseEntries|
    ensures OnlySetsOf(session, r, e)
    ensures r.exerciseEntries[e].sets == session.exerciseEntries[e].sets + [SetEntry(setId, 0, 0.0)]
  {
    WithSets(session, e, session.exerciseEntries[e].sets + [SetEntry(setId, 0, 0.0)])
  }

  /** `deleteSet(at:from:)`: set `k` of entry `e` removed, the others kept in order; nothing else
      changes. */
  function DeleteSet(session: WorkoutSession, k: nat, e: nat): (r: WorkoutSession)
    requires e < |session.exerciseEntries| && k < |session.exerciseEntries[e].sets|
    ensures OnlySetsOf(session, r, e)
    ensures |r.exerciseEntries[e].sets| == |session.exerciseEntries[e].sets| - 1
    ensures r.exerciseEntries[e].sets == RemoveAt(session.exerciseEntries[e].sets, k)
  {
    WithSets(session, e, RemoveAt(session.exerciseEntries[e].sets, k))
  }

  /** Deleting the set just added gives back the session. */
  lemma AddThenDelete(session: WorkoutSession, e: nat, setId: nat)
    requires e < |session.exerciseEntries|
    ensures DeleteSet(AddSet(session, e, setId), |session.exerciseEntries[e].sets|, e) == session
  {
    var sets := session.exerciseEntries[e].sets;
    assert RemoveAt(sets + [SetEntry(setId, 0, 0.0)], |sets|) == sets;
    assert session.exerciseEntries[e := session.exerciseEntries[e].(sets := sets)] == session.exerciseEntries;
  }

  /** The reps field's setter: `Int(text) ?? 0`. */
  function SetReps(session: WorkoutSession, e: nat, k: nat, parsed: Option<int>): (r: WorkoutSession)
    requires e < |session.exerciseEntries| && k < |session.exerciseEntries[e].sets|
    ensures OnlySetsOf(session, r, e)
    ensures var old_ := session.exerciseEntries[e].sets;
      && |r.exerciseEntries[e].sets| == |old_|
      && r.exerciseEntries[e].sets[k] == old_[k].(reps := if parsed.Some? then parsed.value else 0)
      && forall j :: 0 <= j < |old_| && j != k ==> r.exerciseEntries[e].sets[j] == old_[j]
  {
    var sets := session.exerciseEntries[e].sets;
    WithSets(session, e, sets[k := sets[k].(reps := parsed.GetOr(0))])
  }

  /** The weight field's setter: `Double(text) ?? 0`. */
  function SetWeight(session: WorkoutSession, e: nat, k: nat, parsed: Option<real>): (r: WorkoutSession)
    requires e < |session.exerciseEntries| && k < |session.exerciseEntries[e].sets|
    ensures OnlySetsOf(session, r, e)
    ensures var old_ := session.exerciseEntries[e].sets;
      && |r.exerciseEntries[e].sets| == |old_|
      && r.exerciseEntries[e].sets[k] == old_[k].(weight := if parsed.Some? then parsed.value else 0.0)
      && forall j :: 0 <= j < |old_| && j != k ==> r.exerciseEntries[e].sets[j] == old_[j]
  {
    var sets := session.exerciseEntries[e].sets;
    WithSets(session, e, sets[k := sets[k].(weight := parsed.GetOr(0.0))])
  }

  /** `firstIndex(where: { $0.id == session.id })` then assignment at that index: the first session
      with the same id is replaced and every other position is kept; with no such session the list
      is unchanged. */
  function ReplaceById(sessions: seq<WorkoutSession>, session: WorkoutSession): (r: seq<WorkoutSession>)
    ensures |r| == |sessions|
    ensures (forall i :: 0 <= i < |sessions| ==> sessions[i].id != session.id) ==> r == sessions
    ensures forall k :: 0 <= k < |sessions| && sessions[k].id == session.id
                        && (forall i :: 0 <= i < k ==> sessions[i].id != session.id) ==>
      r[k] == session && forall i :: 0 <= i < |sessions| && i != k ==> r[i] == sessions[i]
  {
    ReplaceFirst(sessions, SessionHasId(session.id), session)
  }

  /** Writing the same session back twice is writing it once. */
  lemma ReplaceByIdIdempotent(sessions: seq<WorkoutSession>, session: WorkoutSession)
    ensures ReplaceById(ReplaceById(sessions, session), session) == ReplaceById(sessions, session)
  {
    var once := ReplaceById(sessions, session);
    var k := FirstIndexWhere(sessions, SessionHasId(session.id));
    if k.Some? {
      forall i | 0 <= i < k.value ensures !SessionHasId(session.id)(once[i]) {
        assert !SessionHasId(session.id)(sessions[i]);
      }
      assert SessionHasId(session.id)(once[k.value]);
    }
  }

  /** Overwriting a session with an edit of the same date keeps a newest-first history newest
      first. */
  lemma ReplaceByIdKeepsOrder(sessions: seq<WorkoutSession>, session: WorkoutSession)
    requires SortedBy(sessions, NewerFirst())
    requires forall i :: 0 <= i < |sessions| && sessions[i].id == session.id ==> sessions[i].date == session.date
    ensures SortedBy(ReplaceById(sessions, session), NewerFirst())
  {
    var r := ReplaceById(sessions, session);
    forall i, j | 0 <= i < j < |r| ensures !NewerFirst()(r[j], r[i]) {
      assert r[i].date == sessions[i].date && r[j].date == sessions[j].date;
      assert !NewerFirst()(sessions[j], sessions[i]);
    }
  }
}

=== FILE: workout_session_view_model.dfy ===
/** `WorkoutSessionViewModel`: the history of logged workouts, kept newest first. */
module SessionStore {
  import opened Sorting
  import opened Workouts

  /** What `UserDefaults` holds under "workoutSessions", as far as loading can tell: nothing, data
      that does not decode, or the decoded list. */
  datatype StoredSessions = Missing | Undecodable | Decoded(sessions: seq<WorkoutSession>)

  /** The history after adding `session`: the old list with the session appended, sorted newest
      first. */
  function WithSession(sessions: seq<WorkoutSession>, session: WorkoutSession): seq<WorkoutSession>
  {
    SortBy(sessions + [session], NewerFirst())
  }

  /** Adding keeps every session, adds exactly the new one, and leaves the list newest first. */
  lemma WithSessionKeepsHistory(sessions: seq<WorkoutSession>, session: WorkoutSession)
    ensures SortedBy(WithSession(sessions, session), NewerFirst())
    ensures multiset(WithSession(sessions, session)) == multiset(sessions) + multiset{session}
    ensures |WithSession(sessions, session)| == |sessions| + 1
    ensures session in WithSession(sessions, session)
    ensures forall s :: s in sessions ==> s in WithSession(sessions, session)
  {
    NewerFirstOrder();
    SortBySorted(sessions + [session], NewerFirst());
    SameElements(WithSession(sessions, session), sessions + [session]);
  }

  /** The list `loadWorkoutSessions()` ends with: empty when nothing is stored or it does not decode,
      the decoded sessions newest first otherwise. */
  function Loaded(stored: StoredSessions): (r: seq<WorkoutSession>)
    ensures stored.Decoded? ==> SortedBy(r, NewerFirst()) && multiset(r) == multiset(stored.sessions)
    ensures !stored.Decoded? ==> r == []
  {
    if stored.Decoded? then
      NewerFirstOrder();
      SortBySorted(stored.sessions, NewerFirst());
      SortBy(stored.sessions, NewerFirst())
    else []
  }

  class WorkoutSessionViewModel {
    var workoutSessions: seq<WorkoutSession>

    /** `init()` loads the stored history. */
    constructor(stored: StoredSessions)
      ensures workoutSessions == Loaded(stored)
    {
      workoutSessions := [];
      new;
      LoadWorkoutSessions(stored);
    }

    /** `addWorkoutSession(_:)`: append, then sort newest first (saving is not modelled). */
    method AddWorkoutSession(session: WorkoutSession)
      modifies this
      ensures workoutSessions == WithSession(old(workoutSessions), session)
      ensures SortedBy(workoutSessions, NewerFirst())
      ensures multiset(workoutSessions) == multiset(old(workoutSessions)) + multiset{session}
    {
      workoutSessions := workoutSessions + [session];
      workoutSessions := SortBy(workoutSessions, NewerFirst());
      WithSessionKeepsHistory(old(workoutSessions), session);
    }

    /** `loadWorkoutSessions()`. */
    method LoadWorkoutSessions(stored: StoredSessions)
      modifies this
      ensures workoutSessions == Loaded(stored)
    {
      match stored
      case Decoded(decoded) =>
        workoutSessions := SortBy(decoded, NewerFirst());
      case Undecodable =>
        workoutSessions := [];
      case Missing =>
        workoutSessions := [];
    }
  }
}

=== FILE: wrappers.dfy ===
/** Swift optionals (a value that may be absent, `nil`) and outcomes that either succeed with a
    value or fail with an error. */
module Wrappers {
  datatype Option<+T> = None | Some(value: T) {
    function GetOr(default: T): T {
      match this
      case Some(v) => v
      case None => default
    }
  }

  datatype Result<+T, +E> = Success(value: T) | Failure(error: E)
}
